=== FILE: README.md ===
# spring-multi-data-source in Dafny

A model of the compile-time core of `spring-multi-data-source`. This Java annotation processor
lets one Spring Boot application talk to several JPA data sources. The model covers both lineages
of the code base: the current `io.github.dhi13man` packages and the older `com.dhi13man` packages.
It proves what the generated code looks like and which inputs the processors refuse.

What is modelled, module by module:

- **Shared pieces.**
  - `Text` and `Runs` model the string idioms used everywhere.
  - `Runs` covers `String.split` at one character class followed by dropping the empty pieces.
    It proves that this equals the list of maximal runs of the other characters.
  - `JavaModel`, `FieldSpecs` and `ConfigModel` model the compiler's elements and JavaPoet's
    specs as records.
- **String utilities.**
  - `CaseConversion` models `MultiDataSourceCommonStringUtils`.
  - `LegacyCaseConversion` models `CommonStringUtils`.
  - Both are proved against reference definitions: word splitting, PascalCase, snake_case and
    kebab-case.
- **Generator utilities.**
  - `GeneratorUtils` and `LegacyGeneratorUtils` model `createConstantStringFieldSpec`.
  - Both are proved to render `"v"` for one value and `new String[]{"a", "b"};` otherwise.
- **Configuration generators.**
  - `ConfigGenerator` and `LegacyConfigGenerator` model the two `MultiDataSourceConfigGenerator`
    classes.
  - The generated `@Configuration` class has five constants and four `@Bean` methods.
  - These are proved:
    - the bean wiring;
    - the property paths;
    - the repository scan;
    - only the primary (or master) configuration marks its beans `@Primary`.
- **Repository generator.**
  - `RepositoryGenerator` models `MultiDataSourceRepositoryGenerator`.
  - For one data source it copies a repository interface. The copy keeps the selected methods.
    Every other method declared by a direct super interface becomes a `default` override that
    throws, with that interface's type variables replaced by the types the repository supplies.
    Methods those interfaces inherit in turn are not overridden and stay callable on the copy.
  - `RepositoryScenario` replays the generator's unit test.
- **Processors.**
  - `Processing` and `Partitioning` hold what the processors share:
    - error causes;
    - Spring's `hasText`;
    - the duplicate check of `Set.of`;
    - the configuration map;
    - grouping methods by data source and by repository.
  - `MultiProcessor` models `MultiDataSourceAnnotationProcessor`.
  - `ConfigProcessor` models `MultiDataSourceConfigAnnotationProcessor`.
  - `TargetProcessor` models `TargetDataSourceAnnotationProcessor`.

How the Java is rendered:

- An exception thrown by the Java code is an `Err` of a `Result`.
- A loop over a `HashMap` or `HashSet` is a `while` loop that picks the next element with `:|`.
  Its contracts therefore hold for every iteration order.
- The compiler's `Types.isSameType` is a function parameter (`sameType`).

## Model

| member | source | states |
|---|---|---|
| CaseConversion.SplitByNonAlphaNumericRemoved | src/main/java/io/github/dhi13man/spring/datasource/utils/MultiDataSourceCommonStringUtils.java:86-90 | every word is a non-empty run of `[a-zA-Z0-9]`; the words glued together are the input's letters and digits in order; there are no words exactly when the input has no letter or digit |
| Runs.FragmentsAreMaximalRuns | src/main/java/io/github/dhi13man/spring/datasource/utils/MultiDataSourceCommonStringUtils.java:86-90 | `split` at a character class followed by dropping empty pieces yields exactly the maximal runs of the other characters |
| Runs.InterleaveRuns | src/main/java/io/github/dhi13man/spring/datasource/utils/MultiDataSourceCommonStringUtils.java:86-90 | uniqueness: any way of writing a string as runs separated by non-empty gaps of dropped characters has exactly the maximal runs as its runs |
| Runs.JoinRuns | src/main/java/io/github/dhi13man/spring/datasource/utils/MultiDataSourceCommonStringUtils.java:86-90 | round trip: joining runs with a dropped character and splitting again gives back the runs |
| CaseConversion.WordsOfSeparatedName | src/main/java/io/github/dhi13man/spring/datasource/utils/MultiDataSourceCommonStringUtils.java:86-90 | a name built from words and separator gaps splits back into exactly those words |
| CaseConversion.SplitByCamelCaseNotRemoved | src/main/java/io/github/dhi13man/spring/datasource/utils/MultiDataSourceCommonStringUtils.java:98-115 | the loop's words glue back to the input, none is empty, an upper-case letter occurs only as a word's first letter and starts every word after the first; the result equals the reference split `CamelSplit` |
| CaseConversion.CamelSplitSound | src/main/java/io/github/dhi13man/spring/datasource/utils/MultiDataSourceCommonStringUtils.java:98-115 | the reference split meets that promise for every input |
| CaseConversion.CamelSplitUnique | src/main/java/io/github/dhi13man/spring/datasource/utils/MultiDataSourceCommonStringUtils.java:98-115 | any split meeting the promise is the reference split, so the promise determines the words |
| CaseConversion.ToPascalCase | src/main/java/io/github/dhi13man/spring/datasource/utils/MultiDataSourceCommonStringUtils.java:33-42 | the words of the name, each capitalised, glued together; the result holds only letters and digits and lower-cases to the input's lower-cased letters and digits |
| CaseConversion.CaseWords | src/main/java/io/github/dhi13man/spring/datasource/utils/MultiDataSourceCommonStringUtils.java:50-60 | the words snake_case and kebab-case join are non-empty lower-case alphanumeric words that glue to the input's lower-cased letters and digits, and are absent exactly when the input has none |
| CaseConversion.JoinedWords | src/main/java/io/github/dhi13man/spring/datasource/utils/MultiDataSourceCommonStringUtils.java:50-60 | lower-case words joined by a non-alphanumeric separator form a delimited name (no separator at the ends or twice in a row) that splits back into exactly those words |
| CaseConversion.ToSnakeCase | src/main/java/io/github/dhi13man/spring/datasource/utils/MultiDataSourceCommonStringUtils.java:50-60 | only lower-case letters, digits and `_`; never `_` at an end or twice in a row; splits back into `CaseWords(input)`; keeps every letter and digit, lower-cased and in order; empty exactly when the input has no letter or digit |
| CaseConversion.ToKebabCase | src/main/java/io/github/dhi13man/spring/datasource/utils/MultiDataSourceCommonStringUtils.java:68-78 | the same words as `ToSnakeCase` joined by `-`, equal to the snake_case name with every `_` replaced by `-` |
| CaseConversion.SeparatedExample | src/test/java/io/github/dhi13man/spring/datasource/utils/MultiDataSourceCommonStringUtilsTest.java:19-42 | `hello-#wo$rld` splits into `hello`, `wo`, `rld` |
| CaseConversion.CapitalizedWordsExample | src/test/java/io/github/dhi13man/spring/datasource/utils/MultiDataSourceCommonStringUtilsTest.java:19-42 | capitalising and gluing `hello`, `wo`, `rld` gives `HelloWoRld` |
| CaseConversion.PascalCaseExample | src/test/java/io/github/dhi13man/spring/datasource/utils/MultiDataSourceCommonStringUtilsTest.java:19-42 | `toPascalCase("hello-#wo$rld")` is `HelloWoRld`, as the unit test expects |
| CaseConversion.SingleWordExample | src/test/java/io/github/dhi13man/spring/datasource/utils/MultiDataSourceCommonStringUtilsTest.java:51-74 | `HelloWorld` is a single separated word |
| CaseConversion.CamelExample | src/test/java/io/github/dhi13man/spring/datasource/utils/MultiDataSourceCommonStringUtilsTest.java:51-74 | `HelloWorld` splits at its capitals into `Hello`, `World` |
| CaseConversion.LowerWordsExample | src/test/java/io/github/dhi13man/spring/datasource/utils/MultiDataSourceCommonStringUtilsTest.java:51-74 | lower-casing and joining `Hello`, `World` gives `hello_world` and `hello-world` |
| CaseConversion.SnakeCaseExample | src/test/java/io/github/dhi13man/spring/datasource/utils/MultiDataSourceCommonStringUtilsTest.java:51-74 | `toSnakeCase("HelloWorld")` is `hello_world` and `toKebabCase` is `hello-world`, as the unit tests expect |
| CaseConversion.OneWordPascalCase | src/main/java/io/github/dhi13man/spring/datasource/utils/MultiDataSourceCommonStringUtils.java:33-42 | a name that is one word is PascalCased by capitalising it |
| CaseConversion.OneWordSnakeCase | src/main/java/io/github/dhi13man/spring/datasource/utils/MultiDataSourceCommonStringUtils.java:50-78 | a one-word name that is its own camel split is snake- and kebab-cased by lower-casing it |
| CaseConversion.SeparatedSnakeCaseExample | src/test/java/io/github/dhi13man/spring/datasource/utils/MultiDataSourceCommonStringUtilsTest.java:51-74 | `toSnakeCase("hello-#wo$rld")` is `hello_wo_rld` and `toKebabCase` is `hello-wo-rld`, as the unit tests expect |
| CaseConversion.DigitsPascalCaseExample | src/test/java/io/github/dhi13man/spring/datasource/utils/MultiDataSourceCommonStringUtilsTest.java:19-42 | `toPascalCase("hello123world")` is `Hello123world`, as the unit test expects |
| CaseConversion.DigitsSnakeCaseExample | src/test/java/io/github/dhi13man/spring/datasource/utils/MultiDataSourceCommonStringUtilsTest.java:51-74 | `toSnakeCase` and `toKebabCase` of `hello123world` are `hello123world`, as the unit tests expect |
| LegacyCaseConversion.SplitByNonAlphaNumeric | src/main/java/com/dhi13man/spring/datasource/utils/CommonStringUtils.java:72-76 | the same words as the current lineage's split |
| LegacyCaseConversion.SplitByCamelCase | src/main/java/com/dhi13man/spring/datasource/utils/CommonStringUtils.java:84-88 | the pieces are exactly the maximal runs without upper-case letters (`Runs.MaximalRuns`), glue to the input with its capitals removed, and are absent exactly when every character is upper-case |
| LegacyCaseConversion.ToPascalCase | src/main/java/com/dhi13man/spring/datasource/utils/CommonStringUtils.java:19-28 | equal to the current lineage's PascalCase for every input |
| LegacyCaseConversion.LegacyWords | src/main/java/com/dhi13man/spring/datasource/utils/CommonStringUtils.java:36-46 | lower-case words; with zero or several separated words they are the current lineage's words, with one word exactly the maximal capital-free runs of that word |
| LegacyCaseConversion.ToSnakeCase | src/main/java/com/dhi13man/spring/datasource/utils/CommonStringUtils.java:36-46 | only lower-case letters, digits and `_`, well delimited; agrees with the current lineage unless the name is a single word, where it keeps only the characters that are not capitals; in every case it splits back into exactly `LegacyWords(input)`, so the `_` stand where the capitals were |
| LegacyCaseConversion.ToKebabCase | src/main/java/com/dhi13man/spring/datasource/utils/CommonStringUtils.java:54-64 | well delimited by `-`, equal to the legacy snake_case name with `_` replaced by `-` |
| LegacyCaseConversion.PiecesExample | src/main/java/com/dhi13man/spring/datasource/utils/CommonStringUtils.java:84-88 | `splitByCamelCase("HelloWorld")` is `ello`, `orld` |
| LegacyCaseConversion.JoinedPiecesExample | src/main/java/com/dhi13man/spring/datasource/utils/CommonStringUtils.java:36-46 | joining those pieces lower-cased with `_` gives `ello_orld` |
| LegacyCaseConversion.SnakeCaseDropsCapitals | src/main/java/com/dhi13man/spring/datasource/utils/CommonStringUtils.java:36-46 | as written the legacy snake_case of `HelloWorld` is `ello_orld`, where the current lineage gives `hello_world` |
| FieldSpecs.ConstantStringField | src/main/java/io/github/dhi13man/spring/datasource/utils/MultiDataSourceGeneratorUtils.java:30-52 | a `public static final` field of the given name holding the values; a `String` exactly when there is one value; its initializer renders to the quoted value or the `new String[]{...};` array text |
| FieldSpecs.ExpandArray | src/main/java/io/github/dhi13man/spring/datasource/utils/MultiDataSourceGeneratorUtils.java:40-51 | the array format string with one `$S` per value renders to the values quoted, separated by `, `, between `new String[]{` and `};` |
| GeneratorUtils.CreateConstantStringFieldSpec | src/main/java/io/github/dhi13man/spring/datasource/utils/MultiDataSourceGeneratorUtils.java:30-52 | the builder loop produces `ConstantStringField`: the name, the three modifiers, `String` exactly for one value, rendering to `ConstantText(values)` |
| LegacyGeneratorUtils.CreateConstantStringFieldSpec | src/main/java/com/dhi13man/spring/datasource/utils/MultiDataSourceGeneratorUtils.java:18-40 | the older copy builds the same field with the same rendering |
| FieldSpecs.ScalarTextExample | src/test/java/io/github/dhi13man/spring/datasource/utils/MultiDataSourceGeneratorUtilsTest.java:16-30 | one value renders as `"FIELD_VALUE"` |
| FieldSpecs.ArrayTextExample | src/test/java/io/github/dhi13man/spring/datasource/utils/MultiDataSourceGeneratorUtilsTest.java:34-50 | two values render as `new String[]{"FIELD_VALUE_1", "FIELD_VALUE_2"};` |
| FieldSpecs.EmptyArrayTextExample | src/test/java/io/github/dhi13man/spring/datasource/utils/MultiDataSourceGeneratorUtilsTest.java:55-69 | no value renders as `new String[]{};` |
| JavaModel.QualifiedName | src/main/java/io/github/dhi13man/spring/datasource/generators/MultiDataSourceRepositoryGenerator.java:99-100 | the package, a dot and the simple name; just the simple name in the default package |
| JavaModel.TypeNameOf | src/main/java/io/github/dhi13man/spring/datasource/generators/MultiDataSourceRepositoryGenerator.java:113-114 | a declared type is a plain class name without type arguments and a parameterized name with them |
| ConfigModel.BeanName | src/main/java/io/github/dhi13man/spring/datasource/generators/MultiDataSourceConfigGenerator.java:101-117 | a bean's Spring name starts with the data source name and is followed by the bean's suffix |
| ConfigModel.BeanNamesInjective | src/main/java/io/github/dhi13man/spring/datasource/generators/MultiDataSourceConfigGenerator.java:39-45 | two bean names are equal only for the same bean of the same data source |
| ConfigModel.ConstantNamesDistinct | src/main/java/io/github/dhi13man/spring/datasource/generators/MultiDataSourceConfigGenerator.java:47-55 | the four bean-name constants and the entity-packages constant have pairwise different names |
| ConfigGenerator.GeneratedStringArrayQuotesEach | src/main/java/io/github/dhi13man/spring/datasource/generators/MultiDataSourceConfigGenerator.java:443-447 | the array literal is every value quoted, separated by `,` and enclosed in braces, including `{}` for none |
| ConfigGenerator.AddPrimaryAnnotationIfPrimaryConfigAndBuild | src/main/java/io/github/dhi13man/spring/datasource/generators/MultiDataSourceConfigGenerator.java:228-238 | the method is `@Primary` afterwards exactly when the configuration is primary or it already was; the earlier annotations keep their order and nothing else changes |
| ConfigGenerator.ConfigFields | src/main/java/io/github/dhi13man/spring/datasource/generators/MultiDataSourceConfigGenerator.java:101-121 | five constants in order: the four bean-name constants, then the entity packages |
| ConfigGenerator.GenerateMultiDataSourceConfigTypeElement | src/main/java/io/github/dhi13man/spring/datasource/generators/MultiDataSourceConfigGenerator.java:92-216 | a public class of the given name implementing `IMultiDataSourceConfig` with the five constants and four bean methods |
| ConfigGenerator.PrimaryConfigBeans | src/main/java/io/github/dhi13man/spring/datasource/generators/MultiDataSourceConfigGenerator.java:143-198 | all four beans are `@Primary` exactly when the configuration is primary, and only then does the repository scan exclude the generated repository prefix |
| ConfigGenerator.ConfigFieldValues | src/main/java/io/github/dhi13man/spring/datasource/generators/MultiDataSourceConfigGenerator.java:101-121 | each bean-name constant resolves to the quoted Spring name of its bean and the fifth to the entity packages' text |
| ConfigGenerator.ConfigBeanNames | src/main/java/io/github/dhi13man/spring/datasource/generators/MultiDataSourceConfigGenerator.java:101-198 | the constants hold the data source's bean names, and the i-th bean method carries `@Bean` naming the i-th constant and no other |
| ConfigGenerator.ConfigWiring | src/main/java/io/github/dhi13man/spring/datasource/generators/MultiDataSourceConfigGenerator.java:123-421 | every qualified parameter names the bean of an earlier method, so the beans have no dependency cycle; the repository scan refers to the class's own entity manager factory and transaction manager constants |
| ConfigGenerator.ConfigProperties | src/main/java/io/github/dhi13man/spring/datasource/generators/MultiDataSourceConfigGenerator.java:248-379 | the properties bean reads the given path, the data source bean reads the configuration's class properties path, the entity manager factory registers the bean container under the Hibernate property path, and the scan covers exactly the given packages |
| LegacyConfigGenerator.GenerateMultiDataSourceConfig | src/main/java/com/dhi13man/spring/datasource/generators/MultiDataSourceConfigGenerator.java:87-223 | fails on a properties path equal to the master's class properties prefix, then on a data source class that is not found or is not a `DataSource` (`parseClassWithStrictBase`), and only then; otherwise a public class of the given name, with the same five constants as the current generator and four bean methods |
| LegacyConfigGenerator.MasterConfigBeans | src/main/java/com/dhi13man/spring/datasource/generators/MultiDataSourceConfigGenerator.java:144-206 | the configuration named as master, and only it, marks all four beans `@Primary` and excludes the generated-repository prefix |
| LegacyConfigGenerator.LegacyConfigBeanNames | src/main/java/com/dhi13man/spring/datasource/generators/MultiDataSourceConfigGenerator.java:87-223 | the constants hold the bean names and the i-th method is the bean the i-th constant names |
| LegacyConfigGenerator.LegacyConfigProperties | src/main/java/com/dhi13man/spring/datasource/generators/MultiDataSourceConfigGenerator.java:125-186 | the scan covers exactly the given packages; the data source bean reads the master's class properties prefix and builds the master's data source class |
| RepositoryGenerator.RecursivelyConvertType | src/main/java/io/github/dhi13man/spring/datasource/generators/MultiDataSourceRepositoryGenerator.java:401-419 | a parameterized type keeps its raw type and converts each argument; any other type becomes its binding, or stays when unbound |
| RepositoryGenerator.ConvertUnbound | src/main/java/io/github/dhi13man/spring/datasource/generators/MultiDataSourceRepositoryGenerator.java:401-419 | a type that mentions no bound type is left unchanged |
| RepositoryGenerator.ConvertWithoutBindings | src/main/java/io/github/dhi13man/spring/datasource/generators/MultiDataSourceRepositoryGenerator.java:401-419 | with no bindings every type is left unchanged |
| RepositoryGenerator.ConvertIdempotent | src/main/java/io/github/dhi13man/spring/datasource/generators/MultiDataSourceRepositoryGenerator.java:401-419 | when the supplied types mention no base type variable, converting twice equals converting once |
| RepositoryGenerator.CollectToMapSpec | src/main/java/io/github/dhi13man/spring/datasource/generators/MultiDataSourceRepositoryGenerator.java:321-323 | `Collectors.toMap` over indices: with distinct keys and enough values it maps each key to its value; otherwise it reports the first missing index or a repeated key |
| RepositoryGenerator.GetBaseTypeNameToDerived | src/main/java/io/github/dhi13man/spring/datasource/generators/MultiDataSourceRepositoryGenerator.java:309-324 | succeeds exactly when there are at least as many type arguments as parameters and the parameters are distinct, mapping the j-th parameter to the j-th argument; otherwise the index error or the duplicate key |
| RepositoryGenerator.IsMethodSignatureMatching | src/main/java/io/github/dhi13man/spring/datasource/generators/MultiDataSourceRepositoryGenerator.java:222-256 | true exactly for the same name, the same parameter count, equal converted parameter types, and return types that are NOT the same type |
| RepositoryGenerator.CopiedAnnotations | src/main/java/io/github/dhi13man/spring/datasource/generators/MultiDataSourceRepositoryGenerator.java:269-277 | exactly the annotations other than the two data-source selection annotations are kept |
| RepositoryGenerator.ConvertExecutableMethodElementToMethodSpec | src/main/java/io/github/dhi13man/spring/datasource/generators/MultiDataSourceRepositoryGenerator.java:264-297 | the spec keeps the name, modifiers, parameters, type variables, return type and the non-selection annotations; it has no thrown types, no varargs and no body |
| RepositoryGenerator.ConvertTypeVariables | src/main/java/io/github/dhi13man/spring/datasource/generators/MultiDataSourceRepositoryGenerator.java:367-379 | fails exactly when some type variable has no bound; otherwise each keeps its name with its first bound converted |
| RepositoryGenerator.DisabledOverride | src/main/java/io/github/dhi13man/spring/datasource/generators/MultiDataSourceRepositoryGenerator.java:197-209 | fails exactly when a type variable of the super method has no bound |
| RepositoryGenerator.DisabledOverrideShape | src/main/java/io/github/dhi13man/spring/datasource/generators/MultiDataSourceRepositoryGenerator.java:197-209 | the override keeps the name, parameter names and non-selection annotations, adds `@Override`, has converted parameter and return types, is `default` rather than `abstract`, and throws `UnsupportedOperationException` with the disabled message |
| RepositoryGenerator.DisableAllFails | src/main/java/io/github/dhi13man/spring/datasource/generators/MultiDataSourceRepositoryGenerator.java:187-211 | the only failure is a type variable without bounds in a super method that is not excluded |
| RepositoryGenerator.DisableAllContains | src/main/java/io/github/dhi13man/spring/datasource/generators/MultiDataSourceRepositoryGenerator.java:187-211 | every super method that is neither private, final nor matched gets its override |
| RepositoryGenerator.DisableAllOnly | src/main/java/io/github/dhi13man/spring/datasource/generators/MultiDataSourceRepositoryGenerator.java:187-211 | every generated override is the override of such a super method |
| RepositoryGenerator.AnyMatch | src/main/java/io/github/dhi13man/spring/datasource/generators/MultiDataSourceRepositoryGenerator.java:190-192 | true exactly when some selected method matches the super method's signature |
| RepositoryGenerator.GenerateOverridenAndDisabledSuperMethods | src/main/java/io/github/dhi13man/spring/datasource/generators/MultiDataSourceRepositoryGenerator.java:176-213 | the loop's result equals the reference set of overrides for the super interface, or its first failure |
| RepositoryGenerator.WalkSuperinterfaces | src/main/java/io/github/dhi13man/spring/datasource/generators/MultiDataSourceRepositoryGenerator.java:112-119 | the loop over super interfaces collects their names in order and the union of their overrides, stopping at the first failure |
| RepositoryGenerator.GenerateRepositoryTypeElementWithAnnotatedMethods | src/main/java/io/github/dhi13man/spring/datasource/generators/MultiDataSourceRepositoryGenerator.java:78-144 | the method's result equals the reference `RepositoryFor` |
| RepositoryGenerator.RepositoryForFails | src/main/java/io/github/dhi13man/spring/datasource/generators/MultiDataSourceRepositoryGenerator.java:87-119 | anything but a class or interface is refused with its qualified name; otherwise the generator fails exactly when one super interface's bindings or overrides cannot be built |
| RepositoryGenerator.RepositoryNaming | src/main/java/io/github/dhi13man/spring/datasource/generators/MultiDataSourceRepositoryGenerator.java:84-143 | the copy is named after the data source in PascalCase followed by the original name; it keeps kind and super interfaces and adds `IGeneratedDataSourceRepository`; its bean-name constant holds that name and `@Repository` refers to it |
| RepositoryGenerator.RepositoryCopiesSelectedMethods | src/main/java/io/github/dhi13man/spring/datasource/generators/MultiDataSourceRepositoryGenerator.java:122-125 | every selected method is copied; every copy is a selected method's signature; no copy carries a selection annotation |
| RepositoryGenerator.RepositoryDisablesOtherMethods | src/main/java/io/github/dhi13man/spring/datasource/generators/MultiDataSourceRepositoryGenerator.java:186-211 | every method declared by a direct super interface that is neither private, final nor matched by a selected method is overridden by its disabled form |
| RepositoryGenerator.RepositoryDisablesNothingElse | src/main/java/io/github/dhi13man/spring/datasource/generators/MultiDataSourceRepositoryGenerator.java:186-211 | every disabled method is the override of such a method declared by a direct super interface |
| RepositoryGenerator.SameReturnTypeKeepsBoth | src/main/java/io/github/dhi13man/spring/datasource/generators/MultiDataSourceRepositoryGenerator.java:253-255 | as written: a selected method that redeclares a super method with the same return type does not count as matching it, so the copy holds the method and also a disabled override of the same name |
| RepositoryScenario.ReadReplicaRepository | src/test/java/io/github/dhi13man/spring/datasource/generators/MultiDataSourceRepositoryGeneratorTest.java:59-79 | for `read-replica` the selected `findAll` returning `List<Object>` matches the super interface's `List<T> findAll()`; with `JpaRepository` reduced to `findAll`, it is copied and nothing is disabled |
| RepositoryScenario.Replica2Repository | src/test/java/io/github/dhi13man/spring/datasource/generators/MultiDataSourceRepositoryGeneratorTest.java:38-79 | for `replica-2` only `findByCustomObjectId` is copied, and the super interface's `findAll` (with `JpaRepository` reduced to `findAll`) becomes one disabled `default List<Object> findAll()` that throws |
| Processing.OrDefault | src/main/java/io/github/dhi13man/spring/datasource/processor/MultiDataSourceAnnotationProcessor.java:226-228 | the setting when it has text, otherwise the fallback |
| Processing.SetOfSpec | src/main/java/io/github/dhi13man/spring/datasource/processor/MultiDataSourceAnnotationProcessor.java:372 | `Set.of` succeeds exactly on distinct values, giving the set of them; otherwise it reports a value that repeats an earlier one |
| Processing.ConfigClassNameIsIdentifier | src/main/java/io/github/dhi13man/spring/datasource/processor/MultiDataSourceAnnotationProcessor.java:552-554 | a configuration class name is the PascalCase data source name followed by `DataSourceConfig`, made of letters and digits only |
| Processing.PropertiesPathOneLevelBelow | src/main/java/io/github/dhi13man/spring/datasource/processor/MultiDataSourceAnnotationProcessor.java:364-365 | the properties path is the prefix, a dot and the kebab-case name, with no dot after the prefix's dot |
| Processing.SubPackage | src/main/java/io/github/dhi13man/spring/datasource/processor/MultiDataSourceAnnotationProcessor.java:229-230 | the parent package, a dot, then the snake_case data source name |
| Processing.SubPackagesSeparate | src/main/java/io/github/dhi13man/spring/datasource/processor/MultiDataSourceAnnotationProcessor.java:229-230 | two data sources share a sub-package exactly when their snake_case names are equal, and the sub-package is one package segment |
| Processing.ValidateAndGetEnableConfigAnnotationAndElementHolder | src/main/java/io/github/dhi13man/spring/datasource/processor/MultiDataSourceAnnotationProcessor.java:278-297 | nothing for no annotated element, that element for exactly one, and the multiple-elements error exactly when there are several |
| Processing.CreateDataSourceToConfigMap | src/main/java/io/github/dhi13man/spring/datasource/processor/MultiDataSourceAnnotationProcessor.java:327-339 | fails exactly when two configurations share a name; otherwise maps every name to its configuration |
| Processing.ToArray | src/main/java/io/github/dhi13man/spring/datasource/processor/MultiDataSourceAnnotationProcessor.java:396 | the array lists every element of the hash set once, in some order |
| Partitioning.CreateDataSourceToTargetRepositoryMethodMap | src/main/java/io/github/dhi13man/spring/datasource/processor/MultiDataSourceAnnotationProcessor.java:424-455 | the grouping loop yields exactly `Groups(methods)`, whatever order the container-annotated methods are visited in |
| Partitioning.AddContainerMethod | src/main/java/io/github/dhi13man/spring/datasource/processor/MultiDataSourceAnnotationProcessor.java:449-454 | adding one container-annotated method files it under every data source its container lists |
| Partitioning.GroupsMembership | src/main/java/io/github/dhi13man/spring/datasource/processor/MultiDataSourceAnnotationProcessor.java:424-455 | a method is in the group of data source `t` exactly when it is tagged with `t`, by its single tag or by its container |
| Partitioning.GroupsKeys | src/main/java/io/github/dhi13man/spring/datasource/processor/MultiDataSourceAnnotationProcessor.java:424-455 | the map's data sources are exactly those some method is tagged with, and no group is empty |
| Partitioning.GroupsEmptyIff | src/main/java/io/github/dhi13man/spring/datasource/processor/MultiDataSourceAnnotationProcessor.java:195-201 | the map is empty exactly when no method carries either annotation |
| Partitioning.GroupByEnclosingTypeFiles | src/main/java/io/github/dhi13man/spring/datasource/processor/MultiDataSourceAnnotationProcessor.java:481-487 | every method is filed under the repository declaring it, nothing else is filed, and no group is empty |
| MultiProcessor.Primaries | src/main/java/io/github/dhi13man/spring/datasource/processor/MultiDataSourceAnnotationProcessor.java:309-311 | the configurations marked primary, and only those |
| MultiProcessor.ValidateAndGetPrimaryDataSourceConfig | src/main/java/io/github/dhi13man/spring/datasource/processor/MultiDataSourceAnnotationProcessor.java:306-319 | succeeds exactly when one configuration is marked primary, returning it; otherwise the error carries how many are marked, zero exactly when none is |
| MultiProcessor.AsWrittenScanMissesRepositories | src/main/java/io/github/dhi13man/spring/datasource/processor/MultiDataSourceAnnotationProcessor.java:366-371 | as written, with the prefix setting empty or blank, a secondary configuration scans a package that differs from the one its repository copies are written to |
| MultiProcessor.RepositoryPackages | src/main/java/io/github/dhi13man/spring/datasource/processor/MultiDataSourceAnnotationProcessor.java:366-371 | corrected: a secondary scans exactly its repository sub-package; with a prefix setting that has text this agrees with the code as written |
| MultiProcessor.ConfigRequestForSpec | src/main/java/io/github/dhi13man/spring/datasource/processor/MultiDataSourceAnnotationProcessor.java:356-404 | a `Set.of` error is passed on; otherwise it fails exactly when no entity package is left (global plus extras) or a primary has no repository packages; a request carries the derived class name, properties path and packages, a secondary's repository packages being the corrected scan of `RepositoryPackages` |
| MultiProcessor.RequestScansAsWritten | src/main/java/io/github/dhi13man/spring/datasource/processor/MultiDataSourceAnnotationProcessor.java:366-371 | when the prefix setting has text, a request scans exactly the packages the code passes, so the corrected scan and the code agree there |
| MultiProcessor.SecondaryScansItsRepositories | src/main/java/io/github/dhi13man/spring/datasource/processor/MultiDataSourceAnnotationProcessor.java:366-371 | corrected, a secondary configuration's `@EnableJpaRepositories` scans exactly its repository sub-package |
| MultiProcessor.CreateDataSourceConfigurationClass | src/main/java/io/github/dhi13man/spring/datasource/processor/MultiDataSourceAnnotationProcessor.java:356-404 | fails as the request's checks say; otherwise the generated class of the request, in one order of its entity packages; a secondary's class scans the corrected package |
| MultiProcessor.EntityClass | src/main/java/io/github/dhi13man/spring/datasource/processor/MultiDataSourceAnnotationProcessor.java:526 | a class is named exactly by declared and parameterized types |
| MultiProcessor.GetJpaRepositoryEntityPackage | src/main/java/io/github/dhi13man/spring/datasource/processor/MultiDataSourceAnnotationProcessor.java:500-528 | succeeds exactly when the first interface is `JpaRepository` with a declared first type argument, giving that class's package; otherwise not-a-JPA-repository, missing type arguments or entity not declared, each exactly in its case |
| MultiProcessor.CollectEntityPackages | src/main/java/io/github/dhi13man/spring/datasource/processor/MultiDataSourceAnnotationProcessor.java:215-217 | succeeds exactly when every repository has an entity package, giving the set of them; otherwise the error of one repository without one |
| MultiProcessor.CreateDataSourceToTargetRepositoryMethodMap | src/main/java/io/github/dhi13man/spring/datasource/processor/MultiDataSourceAnnotationProcessor.java:419-470 | succeeds exactly when every tag has a secondary configuration, giving the grouped methods; otherwise the error lists the tags without one |
| MultiProcessor.SecondaryConfigs | src/main/java/io/github/dhi13man/spring/datasource/processor/MultiDataSourceAnnotationProcessor.java:179-185 | every configuration other than the primary, under its name, and nothing else |
| MultiProcessor.SecondaryMapIsSecondaryConfigs | src/main/java/io/github/dhi13man/spring/datasource/processor/MultiDataSourceAnnotationProcessor.java:185 | removing the primary's entry from the configuration map leaves exactly the secondary configurations |
| MultiProcessor.UntaggedRequest | src/main/java/io/github/dhi13man/spring/datasource/processor/MultiDataSourceAnnotationProcessor.java:190-194 | an untagged secondary's request uses no extra entity packages |
| MultiProcessor.CreateUntaggedConfigs | src/main/java/io/github/dhi13man/spring/datasource/processor/MultiDataSourceAnnotationProcessor.java:190-194 | succeeds exactly when every untagged secondary's request does, writing one class per name (with the corrected scan); otherwise the error of one of them |
| MultiProcessor.CopyRepositories | src/main/java/io/github/dhi13man/spring/datasource/processor/MultiDataSourceAnnotationProcessor.java:232-244 | succeeds exactly when every repository of the data source copies, giving one copy per repository in the data source's package; otherwise the failure of one of them |
| MultiProcessor.ProcessDataSource | src/main/java/io/github/dhi13man/spring/datasource/processor/MultiDataSourceAnnotationProcessor.java:204-251 | a tagged data source's entity packages, configuration (with the corrected scan) and copies all succeed or the round gets the error of one of those stages |
| MultiProcessor.ProcessTagged | src/main/java/io/github/dhi13man/spring/datasource/processor/MultiDataSourceAnnotationProcessor.java:203-251 | succeeds exactly when every tagged data source does, with each complete (configurations with the corrected scan); otherwise the error of one of them |
| MultiProcessor.ProcessSecondaries | src/main/java/io/github/dhi13man/spring/datasource/processor/MultiDataSourceAnnotationProcessor.java:187-251 | the untagged classes and then the tagged data sources: succeeds exactly when all stages do; secondary classes carry the corrected scan |
| MultiProcessor.ProcessElement | src/main/java/io/github/dhi13man/spring/datasource/processor/MultiDataSourceAnnotationProcessor.java:171-254 | the stages in order (primary, distinct names, primary class, tag check), the first failing one ending the round; past them it succeeds exactly when every later stage does, writing every class (secondaries with the corrected scan) and copy |
| MultiProcessor.Process | src/main/java/io/github/dhi13man/spring/datasource/processor/MultiDataSourceAnnotationProcessor.java:163-255 | nothing for no annotated element, the multiple-elements error for several, the element's round (with the corrected secondary scan) for one |
| MultiProcessor.DataSourceScansItsCopies | src/main/java/io/github/dhi13man/spring/datasource/processor/MultiDataSourceAnnotationProcessor.java:218-243 | corrected: a tagged secondary's configuration scans exactly the package its copies are written to; as written this fails for a blank prefix |
| MultiProcessor.DataSourceListsItsEntities | src/main/java/io/github/dhi13man/spring/datasource/processor/MultiDataSourceAnnotationProcessor.java:215-223 | a tagged data source's configuration lists the entity package of every copied repository |
| MultiProcessor.OnlyPrimaryIsPrimary | src/main/java/io/github/dhi13man/spring/datasource/processor/MultiDataSourceAnnotationProcessor.java:177-194 | in a successful round the primary class's configuration is marked primary and no untagged or tagged configuration is |
| MultiProcessor.PrimaryBeans | src/main/java/io/github/dhi13man/spring/datasource/generators/MultiDataSourceConfigGenerator.java:143-198 | a written class marks its four beans `@Primary` exactly when its configuration is primary |
| MultiProcessor.SecondaryNotPrimary | src/main/java/io/github/dhi13man/spring/datasource/processor/MultiDataSourceAnnotationProcessor.java:177-185 | a secondary configuration is not marked primary when the one primary is another configuration |
| MultiProcessor.TaggedCopiesAreScanned | src/main/java/io/github/dhi13man/spring/datasource/processor/MultiDataSourceAnnotationProcessor.java:204-244 | corrected: in a successful round every tagged data source's class scans its copies' package and lists each copied repository's entity package |
| MultiProcessor.TaggingPrimaryIsRefused | src/main/java/io/github/dhi13man/spring/datasource/processor/MultiDataSourceAnnotationProcessor.java:185-189 | tagging a method with the primary data source ends the round with a no-config error that names it |
| ConfigProcessor.ValidateAndGetPrimaryDataSourceConfig | src/main/java/io/github/dhi13man/spring/datasource/processor/MultiDataSourceConfigAnnotationProcessor.java:263-282 | the primary configuration unless some secondary carries its name, in which case that error |
| ConfigProcessor.GetGeneratedConfigPackage | src/main/java/io/github/dhi13man/spring/datasource/processor/MultiDataSourceConfigAnnotationProcessor.java:314-321 | the setting when it has text, otherwise the element's package followed by `.generated.config` |
| ConfigProcessor.ConfigRequestForSpec | src/main/java/io/github/dhi13man/spring/datasource/processor/MultiDataSourceConfigAnnotationProcessor.java:337-376 | a `Set.of` error on the configuration's own entity packages is passed on; otherwise it fails exactly when there is no entity package or no repository package; a request carries the derived names, the primary flag (by name) and the packages |
| ConfigProcessor.CreateDataSourceConfigurationClass | src/main/java/io/github/dhi13man/spring/datasource/processor/MultiDataSourceConfigAnnotationProcessor.java:337-376 | fails as the request's checks say; otherwise the class of the request in one order of its entity packages |
| ConfigProcessor.AllWritten | src/main/java/io/github/dhi13man/spring/datasource/processor/MultiDataSourceConfigAnnotationProcessor.java:197-211 | once a class is recorded under every secondary name, every secondary's class is written |
| ConfigProcessor.CreateSecondaryConfigs | src/main/java/io/github/dhi13man/spring/datasource/processor/MultiDataSourceConfigAnnotationProcessor.java:197-211 | succeeds exactly when every secondary's request does, writing one class per name; otherwise the error of one of them |
| ConfigProcessor.ProcessElement | src/main/java/io/github/dhi13man/spring/datasource/processor/MultiDataSourceConfigAnnotationProcessor.java:174-214 | the primary check, the primary's class and distinct secondary names in order, the first failure ending the round; then success exactly when every secondary's class succeeds |
| ConfigProcessor.Process | src/main/java/io/github/dhi13man/spring/datasource/processor/MultiDataSourceConfigAnnotationProcessor.java:166-215 | nothing for no annotated element, the multiple-elements error for several, the element's round for one |
| ConfigProcessor.OnlyPrimaryIsFlaggedPrimary | src/main/java/io/github/dhi13man/spring/datasource/processor/MultiDataSourceConfigAnnotationProcessor.java:177-206 | in a successful round only the primary's class is flagged primary, and every class scans the annotation's repository packages and goes to the same package |
| ConfigProcessor.PrimaryNamedAsSecondaryIsRefused | src/main/java/io/github/dhi13man/spring/datasource/processor/MultiDataSourceConfigAnnotationProcessor.java:263-282 | a secondary named like the primary ends the round with that error before any class is written |
| TargetProcessor.RepositoryPackagesPerDataSource | src/main/java/io/github/dhi13man/spring/datasource/processor/TargetDataSourceAnnotationProcessor.java:315-321 | two data sources' copies of a repository share a package exactly when their snake_case names are equal, one segment below `<package>.generated.repositories` |
| TargetProcessor.Process | src/main/java/io/github/dhi13man/spring/datasource/processor/TargetDataSourceAnnotationProcessor.java:155-224 | nothing when no method is tagged; on success exactly the copies of all (data source, repository) pairs are written; a failure is the generator failure of one pair |

## Left out

- Compiler and file I/O: `Messager` notes and errors, `Filer` writes, `IOException`, and the
  rounds after the first are not modelled. A round is given its annotated elements and tagged
  methods as values.
- The `boolean` that every `process` returns is always `false` and is not modelled.
- Files written before a later exception aborts the round are not part of an `Err` result.
- JavaPoet rendering beyond the `$S` initializers, `$L`/`$N` references and the records of
  classes, methods and annotations is not modelled. That includes Java string escaping, the
  order of a `TypeSpec`'s members and the text of the generated files.
- Case conversion is ASCII only. `toUpperCase`/`toLowerCase` change `a-z`/`A-Z` and nothing
  else, and locale rules are not modelled.
- `TypeName` equality is structural here. JavaPoet compares the rendered text, so a type
  variable `T` and a class `T` in the default package would be equal in Java and differ here.
- The Spring runtime is not modelled. That includes what the beans do at run time, the
  repository scan itself and the `@Primary` resolution.
- `parseClassWithStrictBase` in the older configuration generator loads classes by reflection.
  The class path's answer for the data source class name is a parameter (`ClassLookup`); the
  loaded class itself is represented by that name.
- `getJpaRepositoryEntityPackage` of the configuration-only processor is not part of this model.
  Nothing in that processor calls it.
- A non-declared first type argument of a JPA repository throws `ClassCastException` in Java.
  It is the `EntityNotDeclared` error here.
- The configuration-only processor calls its generator with arguments that do not match the
  generator's parameters (a flag where a name is expected, no repository prefix). Its classes
  are modelled as the `ConfigRequest` it builds, not as generator output.
- Iteration order of hash maps and sets is left open. Files are kept in maps keyed by data
  source name or repository, so the order in which they are written is not modelled. Neither
  is a clash of generated file names.
- MultiProcessor.Process: when several later stages would fail, the error is stated only to be
  the error of one of them, because which one the Java reports depends on hash order. The round
  it states writes the secondaries with the corrected scan (see `ConfigRequestForSpec` below).
- MultiProcessor.ProcessElement: the same, for the untagged and tagged stages, and the same
  corrected scan for the secondaries.
- ConfigProcessor.Process: when several secondary configurations would fail, the error is
  stated only to be the error of one of them, because hash order decides which one the Java
  reports.
- ConfigProcessor.ProcessElement: the same hash-order choice among failing secondaries.
- MultiProcessor.ConfigRequestForSpec: a secondary's repository packages are the corrected scan
  (`RepositoryPackages`), not the raw prefix plus snake_case name the code passes; the two agree
  whenever the prefix setting has text (`RequestScansAsWritten`). See "## Findings".
- MultiProcessor.CreateDataSourceConfigurationClass: a secondary's class carries the corrected
  scan, so for a blank prefix it does not state the code's `.<snake_case name>` scan.
- MultiProcessor.CreateUntaggedConfigs: the same corrected scan, for the untagged secondaries.
- MultiProcessor.ProcessDataSource: the same corrected scan, for a tagged secondary.
- MultiProcessor.ProcessTagged: the same corrected scan, for every tagged secondary.
- MultiProcessor.ProcessSecondaries: the same corrected scan, for every secondary.
- MultiProcessor.DataSourceScansItsCopies: proved of the corrected scan; the code as written
  misses the copies for a blank prefix (`AsWrittenScanMissesRepositories`).
- MultiProcessor.TaggedCopiesAreScanned: the same, for every tagged data source of a round.
- RepositoryGenerator.RepositoryForFails: JavaPoet's checks when a `TypeSpec` is built are not
  modelled, so two inputs on which the code throws are `Ok` here: a class-kind repository whose
  disabled overrides get `default`, and a public static super-interface method, which is not
  excluded and becomes `static` and `default`.
- Wildcard types (`? extends T`) have no case in `TypeName`. The code leaves a wildcard type
  argument unconverted, and that cannot be expressed in the model.
- The repository copy overrides only the methods its direct super interfaces declare
  themselves, as the code does; methods those interfaces inherit (such as
  `CrudRepository.save` under `JpaRepository`) are neither disabled nor modelled. The
  repository scenario reduces `JpaRepository` to its `findAll`.
- TargetProcessor.Process: on failure it states only the failing pair's error, not which copies
  were already written.

## Findings

| source | as written | input that shows it | evidently intended | confidence | as-written member | corrected member |
|---|---|---|---|---|---|---|
| src/main/java/com/dhi13man/spring/datasource/utils/CommonStringUtils.java:84-88 | `toSnakeCase`/`toKebabCase` of a single-word name split it at the regex `[A-Z]`, which drops the capitals | `HelloWorld` gives `ello_orld` | `hello_world`, as the current lineage produces | not executed | LegacyCaseConversion.SnakeCaseDropsCapitals | CaseConversion.ToSnakeCase |
| src/main/java/io/github/dhi13man/spring/datasource/processor/MultiDataSourceAnnotationProcessor.java:366-371 | a secondary configuration scans the raw `generatedRepositoryPackagePrefix` setting followed by its snake_case name, even when the setting is empty | data source `replica`, prefix left at its default empty value, annotated class in `com.app`: the scan is `.replica` while the copies are written to `com.app.repositories.replica` | scan the defaulted prefix, that is the package the copies are written to | not executed | MultiProcessor.AsWrittenScanMissesRepositories | MultiProcessor.RepositoryPackages |

=== FILE: case_conversion.dfy ===
/**
 * The string utilities of the current lineage (`MultiDataSourceCommonStringUtils`): splitting
 * a name into words and rewriting it as PascalCase, snake_case or kebab-case.
 */
module CaseConversion {
  import opened Text
  import Runs

  // ---------------------------------------------------------------------------------------
  // Splitting

  /**
   * `splitByNonAlphaNumericRemoved`: split at every character outside `[a-zA-Z0-9]` and
   * drop the empty pieces.
   */
  function SplitByNonAlphaNumericRemoved(s: string): (r: seq<string>)
    ensures forall i :: 0 <= i < |r| ==> Runs.IsRun(r[i], IsAlphaNumeric)
    ensures Concat(r) == Filter(s, IsAlphaNumeric)
    ensures r == [] <==> forall i :: 0 <= i < |s| ==> !IsAlphaNumeric(s[i])
  {
    Runs.FragmentsAreMaximalRuns(s, IsAlphaNumeric);
    Runs.RunsAreRuns(s, IsAlphaNumeric);
    Runs.RunsConcat(s, IsAlphaNumeric);
    Runs.RunsEmptyIff(s, IsAlphaNumeric);
    Runs.Fragments(s, IsAlphaNumeric)
  }

  /**
   * The words of a name written as words separated by non-empty runs of other characters
   * (optionally also before the first and after the last word) are exactly those words.
   */
  lemma WordsOfSeparatedName(gaps: seq<string>, ws: seq<string>)
    requires |gaps| == |ws| + 1
    requires forall i :: 0 <= i < |gaps| ==> Runs.IsGap(gaps[i], IsAlphaNumeric)
    requires forall i :: 0 < i < |ws| ==> gaps[i] != []
    requires forall i :: 0 <= i < |ws| ==> Runs.IsRun(ws[i], IsAlphaNumeric)
    ensures SplitByNonAlphaNumericRemoved(Runs.Interleave(gaps, ws)) == ws
  {
    Runs.FragmentsAreMaximalRuns(Runs.Interleave(gaps, ws), IsAlphaNumeric);
    Runs.InterleaveRuns(gaps, ws, IsAlphaNumeric);
  }

  /**
   * What `splitByCamelCaseNotRemoved` promises: the words glue back to the input, none is
   * empty, an upper-case letter occurs only as the first letter of a word, and every word
   * after the first starts with one.
   */
  predicate IsCamelSplit(s: string, ws: seq<string>)
  {
    Concat(ws) == s &&
    (forall i :: 0 <= i < |ws| ==> ws[i] != []) &&
    (forall i, j :: 0 <= i < |ws| && 0 < j < |ws[i]| ==> !IsUpper(ws[i][j])) &&
    (forall i :: 0 < i < |ws| ==> IsUpper(ws[i][0]))
  }

  /**
   * Reference definition, read from the last character: it extends the last word unless it
   * is an upper-case letter (or there is no word yet), in which case it starts a new word.
   */
  function CamelSplit(s: string): seq<string>
    decreases |s|
  {
    if s == [] then [] else CamelStep(CamelSplit(s[..|s| - 1]), s[|s| - 1])
  }

  lemma ConcatSnoc(ws: seq<string>, w: string)
    ensures Concat(ws + [w]) == Concat(ws) + w
  {
    ConcatAppend(ws, [w]);
    assert Concat([w]) == w + Concat([]);
  }

  /** Reading one more character, as `CamelSplit` does it. */
  function CamelStep(init: seq<string>, c: char): seq<string>
  {
    if init == [] || IsUpper(c) then init + [[c]]
    else init[..|init| - 1] + [init[|init| - 1] + [c]]
  }

  lemma CamelSplitSnoc(s: string, c: char)
    ensures CamelSplit(s + [c]) == CamelStep(CamelSplit(s), c)
  {
    assert (s + [c])[..|s|] == s;
  }

  /** Starting a new word keeps the promise. */
  lemma {:induction false} NewWordSound(s: string, init: seq<string>, c: char)
    requires IsCamelSplit(s, init)
    requires init == [] || IsUpper(c)
    ensures IsCamelSplit(s + [c], init + [[c]])
  {
    ConcatSnoc(init, [c]);
    var r := init + [[c]];
    forall i, j | 0 <= i < |r| && 0 < j < |r[i]|
      ensures !IsUpper(r[i][j])
    {
      assert i < |init|;
      assert r[i] == init[i];
    }
    forall i | 0 < i < |r|
      ensures IsUpper(r[i][0])
    {
      if i < |init| {
        assert r[i] == init[i];
      }
    }
  }

  /** Extending the last word with a character that is not upper-case keeps the promise. */
  lemma {:induction false} ExtendWordSound(s: string, init: seq<string>, c: char)
    requires IsCamelSplit(s, init)
    requires init != [] && !IsUpper(c)
    ensures IsCamelSplit(s + [c], init[..|init| - 1] + [init[|init| - 1] + [c]])
  {
    var k := |init| - 1;
    assert init == init[..k] + [init[k]];
    ConcatSnoc(init[..k], init[k]);
    ConcatSnoc(init[..k], init[k] + [c]);
    var r := init[..k] + [init[k] + [c]];
    forall i, j | 0 <= i < |r| && 0 < j < |r[i]|
      ensures !IsUpper(r[i][j])
    {
      if i < k {
        assert r[i] == init[i];
      } else if j < |init[k]| {
        assert r[i][j] == init[k][j];
      }
    }
    forall i | 0 <= i < |r|
      ensures r[i] != []
    {
      if i < k {
        assert r[i] == init[i];
      }
    }
    forall i | 0 < i < |r|
      ensures IsUpper(r[i][0])
    {
      if i < k {
        assert r[i] == init[i];
      } else {
        assert r[i][0] == init[k][0];
      }
    }
  }

  /** `CamelSplit` meets the promise. */
  lemma {:induction false} CamelSplitSound(s: string)
    ensures IsCamelSplit(s, CamelSplit(s))
    decreases |s|
  {
    if s != [] {
      var s' := s[..|s| - 1];
      var c := s[|s| - 1];
      CamelSplitSound(s');
      assert s == s' + [c];
      CamelSplitSnoc(s', c);
      if CamelSplit(s') == [] || IsUpper(c) {
        NewWordSound(s', CamelSplit(s'), c);
      } else {
        ExtendWordSound(s', CamelSplit(s'), c);
      }
    }
  }

  /** The promise determines the words: `CamelSplit` is the only split that meets it. */
  lemma {:induction false} CamelSplitUnique(s: string, ws: seq<string>)
    requires IsCamelSplit(s, ws)
    ensures ws == CamelSplit(s)
    decreases |s|
  {
    if s != [] {
      assert ws != [];
      var k := |ws| - 1;
      var last := ws[k];
      if |last| == 1 {
        DropLastWord(s, ws);
        CamelSplitUnique(s[..|s| - 1], ws[..k]);
        assert ws == ws[..k] + [last];
      } else {
        var pre' := ws[..k] + [last[..|last| - 1]];
        ShortenLastWord(s, ws);
        CamelSplitUnique(s[..|s| - 1], pre');
        assert pre'[..|pre'| - 1] == ws[..k];
        assert ws == ws[..k] + [last[..|last| - 1] + [s[|s| - 1]]];
      }
    }
  }

  /** A last word of one character is a word the last character started. */
  lemma {:induction false} DropLastWord(s: string, ws: seq<string>)
    requires IsCamelSplit(s, ws) && ws != [] && |ws[|ws| - 1]| == 1
    ensures s != [] && ws[|ws| - 1] == [s[|s| - 1]]
    ensures IsCamelSplit(s[..|s| - 1], ws[..|ws| - 1])
    ensures |ws| > 1 ==> IsUpper(s[|s| - 1])
  {
    var k := |ws| - 1;
    var pre := ws[..k];
    var last := ws[k];
    assert ws == pre + [last];
    ConcatSnoc(pre, last);
    assert s == Concat(pre) + last;
    assert s[..|s| - 1] == Concat(pre);
    forall i, j | 0 <= i < |pre| && 0 < j < |pre[i]|
      ensures !IsUpper(pre[i][j])
    {
      assert pre[i] == ws[i];
    }
    forall i | 0 < i < |pre|
      ensures IsUpper(pre[i][0])
    {
      assert pre[i] == ws[i];
    }
    if k > 0 {
      assert IsUpper(ws[k][0]);
    }
  }

  /** A longer last word is the last word of the shorter text, extended by its last character. */
  lemma {:induction false} ShortenLastWord(s: string, ws: seq<string>)
    requires IsCamelSplit(s, ws) && ws != [] && |ws[|ws| - 1]| > 1
    ensures var k := |ws| - 1;
      s != [] && ws[k] == ws[k][..|ws[k]| - 1] + [s[|s| - 1]] && !IsUpper(s[|s| - 1]) &&
      IsCamelSplit(s[..|s| - 1], ws[..k] + [ws[k][..|ws[k]| - 1]])
  {
    var k := |ws| - 1;
    var pre := ws[..k];
    var last := ws[k];
    var shorter := last[..|last| - 1];
    var pre' := pre + [shorter];
    assert ws == pre + [last];
    assert last == shorter + [last[|last| - 1]];
    ConcatSnoc(pre, last);
    ConcatSnoc(pre, shorter);
    assert s == Concat(pre) + shorter + [last[|last| - 1]];
    assert s[..|s| - 1] == Concat(pre');
    assert !IsUpper(ws[k][|last| - 1]);
    forall i, j | 0 <= i < |pre'| && 0 < j < |pre'[i]|
      ensures !IsUpper(pre'[i][j])
    {
      if i < k {
        assert pre'[i] == ws[i];
      } else {
        assert pre'[i][j] == ws[k][j];
      }
    }
    forall i | 0 < i < |pre'|
      ensures IsUpper(pre'[i][0])
    {
      if i < k {
        assert pre'[i] == ws[i];
      } else {
        assert pre'[i][0] == ws[k][0];
      }
    }
  }

  /**
   * `splitByCamelCaseNotRemoved`: scans the characters once, closing the current word
   * before every upper-case letter; the upper-case letters are kept.
   */
  method SplitByCamelCaseNotRemoved(input: string) returns (words: seq<string>)
    ensures IsCamelSplit(input, words)
    ensures words == CamelSplit(input)
  {
    var result: seq<string> := [];
    var currentWord: string := [];
    for i := 0 to |input|
      invariant (if currentWord == [] then result else result + [currentWord]) == CamelSplit(input[..i])
      invariant currentWord == [] <==> i == 0
    {
      var c := input[i];
      ghost var before := if currentWord == [] then result else result + [currentWord];
      assert input[..i + 1] == input[..i] + [c];
      CamelSplitSnoc(input[..i], c);
      if IsUpper(c) && currentWord != [] {
        result := result + [currentWord];
        currentWord := [];
        assert currentWord + [c] == [c];
      } else if currentWord != [] {
        assert before[..|before| - 1] == result;
      } else {
        assert currentWord + [c] == [c];
      }
      currentWord := currentWord + [c];
    }
    assert input[..|input|] == input;
    if currentWord != [] {
      result := result + [currentWord];
    }
    words := result;
    CamelSplitSound(input);
  }

  // ---------------------------------------------------------------------------------------
  // Conversions

  /** Upper-cases the first letter of every word. */
  function CapitalizeAll(ws: seq<string>): (r: seq<string>)
    requires forall i :: 0 <= i < |ws| ==> ws[i] != []
    ensures |r| == |ws| && forall i :: 0 <= i < |ws| ==> r[i] == Capitalize(ws[i])
  {
    seq(|ws|, i requires 0 <= i < |ws| => Capitalize(ws[i]))
  }

  lemma {:induction false} LowerConcatCapitalized(ws: seq<string>)
    requires forall i :: 0 <= i < |ws| ==> ws[i] != []
    ensures Lower(Concat(CapitalizeAll(ws))) == Lower(Concat(ws))
    decreases |ws|
  {
    if ws != [] {
      LowerConcatCapitalized(ws[1..]);
      assert CapitalizeAll(ws)[1..] == CapitalizeAll(ws[1..]);
      var w := ws[0];
      LowerAppend(Capitalize(w), Concat(CapitalizeAll(ws[1..])));
      LowerAppend(w, Concat(ws[1..]));
      LowerOfUpper(w[0]);
      assert Lower(Capitalize(w)) == Lower(w);
    }
  }

  lemma {:induction false} ConcatAlphaNumeric(ws: seq<string>)
    requires forall i :: 0 <= i < |ws| ==> forall j :: 0 <= j < |ws[i]| ==> IsAlphaNumeric(ws[i][j])
    ensures forall k :: 0 <= k < |Concat(ws)| ==> IsAlphaNumeric(Concat(ws)[k])
    decreases |ws|
  {
    if ws != [] {
      ConcatAlphaNumeric(ws[1..]);
    }
  }

  /**
   * `toPascalCase`: every word gets an upper-case first letter and the words are glued
   * together; the single-word branch of the source gives the same result.
   */
  function ToPascalCase(input: string): (r: string)
    ensures var words := SplitByNonAlphaNumericRemoved(input);
      r == Concat(CapitalizeAll(words))
    ensures Lower(r) == Lower(Filter(input, IsAlphaNumeric))
    ensures forall i :: 0 <= i < |r| ==> IsAlphaNumeric(r[i])
  {
    var words := SplitByNonAlphaNumericRemoved(input);
    LowerConcatCapitalized(words);
    assert forall i :: 0 <= i < |words| ==> Runs.IsRun(Capitalize(words[i]), IsAlphaNumeric);
    ConcatAlphaNumeric(CapitalizeAll(words));
    assert |words| == 1 ==> Concat(CapitalizeAll(words)) == Capitalize(words[0]) + Concat([]);
    if |words| == 1 then
      Capitalize(words[0])
    else
      Concat(CapitalizeAll(words))
  }

  /** Lower-cases every word. */
  function LowerAll(ws: seq<string>): (r: seq<string>)
    ensures |r| == |ws| && forall i :: 0 <= i < |ws| ==> r[i] == Lower(ws[i])
  {
    MapStrings(Lower, ws)
  }

  /** A word of snake_case or kebab-case: non-empty, lower-case letters and digits only. */
  predicate IsLowerWord(w: string)
  {
    w != [] && forall i :: 0 <= i < |w| ==> IsLower(w[i]) || IsDigit(w[i])
  }

  /** No separator at either end and never two separators in a row. */
  predicate IsDelimited(r: string, sep: char)
  {
    (r != [] ==> r[0] != sep && r[|r| - 1] != sep) &&
    forall i :: 0 <= i < |r| - 1 ==> !(r[i] == sep && r[i + 1] == sep)
  }

  /**
   * The words of `ToSnakeCase` and `ToKebabCase`: the non-alphanumeric-separated words,
   * except that a single word is split again at its upper-case letters; all lower-cased.
   */
  function CaseWords(input: string): (r: seq<string>)
    ensures forall i :: 0 <= i < |r| ==> IsLowerWord(r[i])
    ensures Concat(r) == Lower(Filter(input, IsAlphaNumeric))
    ensures r == [] <==> forall i :: 0 <= i < |input| ==> !IsAlphaNumeric(input[i])
  {
    var words := SplitByNonAlphaNumericRemoved(input);
    LowerWords(words);
    ConcatLowerAll(words);
    if |words| == 1 then
      CamelSplitSound(words[0]);
      CamelWordsAlphaNumeric(words[0], CamelSplit(words[0]));
      LowerWords(CamelSplit(words[0]));
      ConcatLowerAll(CamelSplit(words[0]));
      assert Concat(words) == words[0] + Concat([]);
      LowerAll(CamelSplit(words[0]))
    else
      LowerAll(words)
  }

  lemma {:induction false} ConcatLowerAll(ws: seq<string>)
    ensures Concat(LowerAll(ws)) == Lower(Concat(ws))
    decreases |ws|
  {
    if ws != [] {
      ConcatLowerAll(ws[1..]);
      assert LowerAll(ws)[1..] == LowerAll(ws[1..]);
      LowerAppend(ws[0], Concat(ws[1..]));
    }
  }

  /** Dropping the separators of a join of alphanumeric words leaves the words glued together. */
  lemma {:induction false} FilterJoin(ws: seq<string>, sep: char)
    requires forall i :: 0 <= i < |ws| ==> Runs.IsRun(ws[i], IsAlphaNumeric)
    requires !IsAlphaNumeric(sep)
    ensures Filter(Join(ws, [sep]), IsAlphaNumeric) == Concat(ws)
    decreases |ws|
  {
    if |ws| == 1 {
      FilterAllKept(ws[0], IsAlphaNumeric);
      assert Concat(ws) == ws[0] + Concat([]);
    } else if |ws| > 1 {
      FilterJoin(ws[1..], sep);
      FilterAppend(ws[0] + [sep], Join(ws[1..], [sep]), IsAlphaNumeric);
      FilterAppend(ws[0], [sep], IsAlphaNumeric);
      FilterAllKept(ws[0], IsAlphaNumeric);
      assert Filter([sep], IsAlphaNumeric) == [];
    }
  }

  lemma LowerWords(ws: seq<string>)
    requires forall i :: 0 <= i < |ws| ==> Runs.IsRun(ws[i], IsAlphaNumeric)
    ensures forall i :: 0 <= i < |ws| ==> IsLowerWord(Lower(ws[i]))
  {
  }

  lemma CamelWordsAlphaNumeric(w: string, ws: seq<string>)
    requires Runs.IsRun(w, IsAlphaNumeric)
    requires IsCamelSplit(w, ws)
    ensures forall i :: 0 <= i < |ws| ==> Runs.IsRun(ws[i], IsAlphaNumeric)
  {
    forall i | 0 <= i < |ws|
      ensures Runs.IsRun(ws[i], IsAlphaNumeric)
    {
      forall j | 0 <= j < |ws[i]|
        ensures IsAlphaNumeric(ws[i][j])
      {
        InConcat(ws, i, j);
      }
    }
  }

  lemma {:induction false} InConcat(ws: seq<string>, i: nat, j: nat)
    requires i < |ws| && j < |ws[i]|
    ensures ws[i][j] in Concat(ws)
    decreases i
  {
    if i > 0 {
      InConcat(ws[1..], i - 1, j);
    }
  }

  /**
   * Joining lower-case words with a separator outside `[a-zA-Z0-9]` gives a well-formed
   * delimited name that splits back into exactly those words.
   */
  lemma {:induction false} JoinedWords(ws: seq<string>, sep: char)
    requires forall i :: 0 <= i < |ws| ==> IsLowerWord(ws[i])
    requires !IsAlphaNumeric(sep)
    ensures var r := Join(ws, [sep]);
      (forall i :: 0 <= i < |r| ==> IsLower(r[i]) || IsDigit(r[i]) || r[i] == sep) &&
      IsDelimited(r, sep) &&
      SplitByNonAlphaNumericRemoved(r) == ws &&
      (r == [] <==> ws == [])
    decreases |ws|
  {
    var r := Join(ws, [sep]);
    Runs.FragmentsAreMaximalRuns(r, IsAlphaNumeric);
    Runs.JoinRuns(ws, sep, IsAlphaNumeric);
    if |ws| >= 2 {
      JoinedWords(ws[1..], sep);
      var t := Join(ws[1..], [sep]);
      assert r == ws[0] + [sep] + t;
      assert IsLowerWord(ws[0]);
      DelimitedCons(ws[0], t, sep);
    }
  }

  /** A word, a separator and a delimited non-empty text form a delimited text. */
  lemma {:induction false} DelimitedCons(w: string, t: string, sep: char)
    requires IsLowerWord(w) && !IsAlphaNumeric(sep)
    requires t != [] && IsDelimited(t, sep)
    ensures IsDelimited(w + [sep] + t, sep)
  {
    var r := w + [sep] + t;
    assert r[0] == w[0] && r[|r| - 1] == t[|t| - 1];
    forall i | 0 <= i < |r| - 1
      ensures !(r[i] == sep && r[i + 1] == sep)
    {
      if i > |w| {
        assert r[i] == t[i - |w| - 1] && r[i + 1] == t[i - |w|];
      } else if i < |w| {
        assert r[i] == w[i];
      }
    }
  }

  /**
   * `toSnakeCase`: lower-case words joined by `_`; the result splits back into the words,
   * keeps every letter and digit of the input (lower-cased, in order) and is empty exactly
   * when the input has no letter or digit.
   */
  function ToSnakeCase(input: string): (r: string)
    ensures forall i :: 0 <= i < |r| ==> IsLower(r[i]) || IsDigit(r[i]) || r[i] == '_'
    ensures IsDelimited(r, '_')
    ensures SplitByNonAlphaNumericRemoved(r) == CaseWords(input)
    ensures Filter(r, IsAlphaNumeric) == Lower(Filter(input, IsAlphaNumeric))
    ensures r == [] <==> forall i :: 0 <= i < |input| ==> !IsAlphaNumeric(input[i])
  {
    var words := SplitByNonAlphaNumericRemoved(input);
    JoinedWords(CaseWords(input), '_');
    FilterJoin(CaseWords(input), '_');
    if |words| == 1 then
      Join(LowerAll(CamelSplit(words[0])), "_")
    else
      Join(LowerAll(words), "_")
  }

  /**
   * `toKebabCase`: the same words as `toSnakeCase` joined by `-`, that is the snake_case
   * name with every `_` turned into `-`.
   */
  function ToKebabCase(input: string): (r: string)
    ensures forall i :: 0 <= i < |r| ==> IsLower(r[i]) || IsDigit(r[i]) || r[i] == '-'
    ensures IsDelimited(r, '-')
    ensures SplitByNonAlphaNumericRemoved(r) == CaseWords(input)
    ensures r == Replace(ToSnakeCase(input), '_', '-')
  {
    var words := SplitByNonAlphaNumericRemoved(input);
    JoinedWords(CaseWords(input), '-');
    ReplaceJoin(CaseWords(input), '_', '-');
    if |words| == 1 then
      Join(LowerAll(CamelSplit(words[0])), "-")
    else
      Join(LowerAll(words), "-")
  }

  // ---------------------------------------------------------------------------------------
  // Examples from the unit tests of the string utilities

  lemma SeparatedExample()
    ensures SplitByNonAlphaNumericRemoved("hello-#wo$rld") == ["hello", "wo", "rld"]
  {
    var gaps := ["", "-#", "$", ""];
    var ws := ["hello", "wo", "rld"];
    assert Runs.Interleave(gaps, ws) == "hello-#wo$rld";
    WordsOfSeparatedName(gaps, ws);
  }

  lemma CapitalizedWordsExample()
    ensures Concat(CapitalizeAll(["hello", "wo", "rld"])) == "HelloWoRld"
  {
    assert Capitalize("hello") == "Hello";
    assert Capitalize("wo") == "Wo";
    assert Capitalize("rld") == "Rld";
    assert CapitalizeAll(["hello", "wo", "rld"]) == ["Hello", "Wo", "Rld"];
    assert Concat(["Hello", "Wo", "Rld"]) == "HelloWoRld";
  }

  lemma PascalCaseExample(name: string)
    requires name == "hello-#wo$rld"
    ensures ToPascalCase(name) == "HelloWoRld"
  {
    SeparatedExample();
    CapitalizedWordsExample();
  }

  lemma SingleWordExample()
    ensures SplitByNonAlphaNumericRemoved("HelloWorld") == ["HelloWorld"]
  {
    var gaps := ["", ""];
    assert Runs.Interleave(gaps, ["HelloWorld"]) == "HelloWorld";
    WordsOfSeparatedName(gaps, ["HelloWorld"]);
  }

  lemma CamelExample()
    ensures CamelSplit("HelloWorld") == ["Hello", "World"]
  {
    var ws := ["Hello", "World"];
    assert Concat(ws) == "HelloWorld";
    assert IsCamelSplit("HelloWorld", ws);
    CamelSplitUnique("HelloWorld", ws);
  }

  lemma LowerWordsExample()
    ensures Join(LowerAll(["Hello", "World"]), "_") == "hello_world"
    ensures Join(LowerAll(["Hello", "World"]), "-") == "hello-world"
  {
    assert Lower("Hello") == "hello";
    assert Lower("World") == "world";
    assert LowerAll(["Hello", "World"]) == ["hello", "world"];
  }

  lemma SnakeCaseExample(name: string)
    requires name == "HelloWorld"
    ensures ToSnakeCase(name) == "hello_world"
    ensures ToKebabCase(name) == "hello-world"
  {
    SingleWordExample();
    CamelExample();
    LowerWordsExample();
  }

  lemma SeparatedLowerExample()
    ensures Join(LowerAll(["hello", "wo", "rld"]), "_") == "hello_wo_rld"
    ensures Join(LowerAll(["hello", "wo", "rld"]), "-") == "hello-wo-rld"
  {
    assert Lower("hello") == "hello";
    assert Lower("wo") == "wo";
    assert Lower("rld") == "rld";
    assert LowerAll(["hello", "wo", "rld"]) == ["hello", "wo", "rld"];
  }

  lemma SeparatedSnakeCaseExample(name: string)
    requires name == "hello-#wo$rld"
    ensures ToSnakeCase(name) == "hello_wo_rld"
    ensures ToKebabCase(name) == "hello-wo-rld"
  {
    SeparatedExample();
    SeparatedLowerExample();
  }

  lemma DigitsWordExample()
    ensures SplitByNonAlphaNumericRemoved("hello123world") == ["hello123world"]
  {
    var gaps := ["", ""];
    assert Runs.Interleave(gaps, ["hello123world"]) == "hello123world";
    WordsOfSeparatedName(gaps, ["hello123world"]);
  }

  lemma DigitsCapitalizedExample()
    ensures Capitalize("hello123world") == "Hello123world"
  {
    assert UpperChar('h') == 'H';
  }

  /** A name that is one word is PascalCased by capitalising it. */
  lemma OneWordPascalCase(w: string)
    requires SplitByNonAlphaNumericRemoved(w) == [w]
    ensures ToPascalCase(w) == Capitalize(w)
  {
    assert CapitalizeAll([w]) == [Capitalize(w)];
    assert Concat([Capitalize(w)]) == Capitalize(w) + Concat([]);
  }

  lemma DigitsPascalCaseExample(name: string)
    requires name == "hello123world"
    ensures ToPascalCase(name) == "Hello123world"
  {
    DigitsWordExample();
    OneWordPascalCase(name);
    DigitsCapitalizedExample();
  }

  /** A word with no upper-case letter after its first is its own camel split. */
  lemma OneWordCamelSplit(w: string)
    requires w != [] && forall j :: 0 < j < |w| ==> !IsUpper(w[j])
    ensures CamelSplit(w) == [w]
  {
    var ws := [w];
    assert Concat(ws) == w + Concat([]);
    forall i, j | 0 <= i < |ws| && 0 < j < |ws[i]|
      ensures !IsUpper(ws[i][j])
    {
      assert ws[i] == w;
    }
    assert IsCamelSplit(w, ws);
    CamelSplitUnique(w, ws);
  }

  /** A name that is one word and its own camel split is snake- and kebab-cased by lower-casing it. */
  lemma OneWordSnakeCase(w: string)
    requires SplitByNonAlphaNumericRemoved(w) == [w] && CamelSplit(w) == [w]
    ensures ToSnakeCase(w) == Lower(w)
    ensures ToKebabCase(w) == Lower(w)
  {
    assert LowerAll([w]) == [Lower(w)];
  }

  lemma DigitsSnakeCaseExample(name: string)
    requires name == "hello123world"
    ensures ToSnakeCase(name) == "hello123world"
    ensures ToKebabCase(name) == "hello123world"
  {
    DigitsWordExample();
    DigitsLowerExample();
    OneWordCamelSplit(name);
    OneWordSnakeCase(name);
  }

  lemma DigitsLowerExample()
    ensures forall j :: 0 <= j < |"hello123world"| ==> !IsUpper("hello123world"[j])
    ensures Lower("hello123world") == "hello123world"
  {
  }
}

=== FILE: config_generator.dfy ===
/**
 * The configuration class generator of the current lineage: one `@Configuration` class per
 * data source, implementing `IMultiDataSourceConfig`, whose beans are `@Primary` exactly when
 * the data source is the primary one.
 */
module ConfigGenerator {
  import opened Wrappers
  import opened Text
  import opened JavaModel
  import opened FieldSpecs
  import opened ConfigModel

  const IMultiDataSourceConfig := ClassName("io.github.dhi13man.spring.datasource.config", "IMultiDataSourceConfig")

  /** `stringArrayToGeneratedStringArray`: the values as a Java array initializer. */
  function StringArrayToGeneratedStringArray(stringArray: seq<string>): string
  {
    if |stringArray| == 0 then "{}" else "{\"" + Join(stringArray, "\",\"") + "\"}"
  }

  /** Quoting the whole joined text equals joining the quoted values with `,`. */
  lemma {:induction false} QuotedJoin(a: seq<string>)
    requires a != []
    ensures "\"" + Join(a, "\",\"") + "\"" == Join(MapStrings(Quote, a), ",")
    decreases |a|
  {
    var quoted := MapStrings(Quote, a);
    if |a| > 1 {
      QuotedJoin(a[1..]);
      assert quoted[1..] == MapStrings(Quote, a[1..]);
      var rest := Join(a[1..], "\",\"");
      assert Join(a, "\",\"") == a[0] + "\",\"" + rest;
      assert "\"" + (a[0] + "\",\"" + rest) + "\"" == Quote(a[0]) + "," + ("\"" + rest + "\"");
    }
  }

  /**
   * The array literal is every value quoted, separated by `,` and enclosed in braces; the
   * special case for no values gives the same `{}` the general rule does.
   */
  lemma GeneratedStringArrayQuotesEach(stringArray: seq<string>)
    ensures StringArrayToGeneratedStringArray(stringArray) ==
      "{" + Join(MapStrings(Quote, stringArray), ",") + "}"
  {
    if stringArray != [] {
      QuotedJoin(stringArray);
      assert "{\"" + Join(stringArray, "\",\"") + "\"}" ==
        "{" + ("\"" + Join(stringArray, "\",\"") + "\"") + "}";
    }
  }

  /** The constant holding the Spring name of one bean of the data source. */
  function BeanNameField(dataSourceName: string, b: Bean): FieldSpec
  {
    ConstantStringField(ConstantName(b), [BeanName(dataSourceName, b)])
  }

  /**
   * `addPrimaryAnnotationIfPrimaryConfigAndBuild`: the method is `@Primary` afterwards exactly
   * when the configuration is the primary one or it already was; its other annotations keep
   * their order, and nothing else about it changes.
   */
  function AddPrimaryAnnotationIfPrimaryConfigAndBuild(m: BeanMethod, isMasterConfig: bool): (r: BeanMethod)
    ensures IsPrimaryBean(r) <==> isMasterConfig || IsPrimaryBean(m)
    ensures |m.annotations| <= |r.annotations| && r.annotations[..|m.annotations|] == m.annotations
    ensures forall a :: a in r.annotations && a != PrimaryAnnotation ==> a in m.annotations
    ensures r.(annotations := m.annotations) == m
  {
    if isMasterConfig then m.(annotations := m.annotations + [PrimaryAnnotation]) else m
  }

  function DataSourcePropertiesBeanMethod(datasourcePropertiesPath: string, beanNameField: FieldSpec): BeanMethod
  {
    BeanMethod("dataSourceProperties",
      [BeanAnnotation(beanNameField.name), ConfigurationProperties(datasourcePropertiesPath), OverrideAnnotation],
      {Public}, "DataSourceProperties", [], NewDataSourceProperties)
  }

  function DataSourceBeanMethod(dataSourceClassPropertiesPrefix: string, beanNameField: FieldSpec,
                                propertiesBeanNameField: FieldSpec): BeanMethod
  {
    BeanMethod("dataSource",
      [BeanAnnotation(beanNameField.name), ConfigurationProperties(dataSourceClassPropertiesPrefix), OverrideAnnotation],
      {Public}, "DataSource",
      [BeanParameter("dataSourceProperties", "DataSourceProperties", Some(propertiesBeanNameField.name))],
      BuildDataSource(None))
  }

  function EntityManagerFactoryBeanMethod(hibernateBeanContainerPropertyPath: string, entityPackagesField: FieldSpec,
                                          beanNameField: FieldSpec, dataSourceBeanNameField: FieldSpec): BeanMethod
  {
    BeanMethod("entityManagerFactory",
      [BeanAnnotation(beanNameField.name), OverrideAnnotation],
      {Public}, "LocalContainerEntityManagerFactoryBean",
      [BeanParameter("builder", "EntityManagerFactoryBuilder", None),
       BeanParameter("beanFactory", "ConfigurableListableBeanFactory", None),
       BeanParameter("dataSource", "DataSource", Some(dataSourceBeanNameField.name))],
      BuildEntityManagerFactory(entityPackagesField.name, dataSourceBeanNameField.name,
                                hibernateBeanContainerPropertyPath))
  }

  function TransactionManagerBeanMethod(beanNameField: FieldSpec, entityManagerFactoryBeanNameField: FieldSpec): BeanMethod
  {
    BeanMethod("transactionManager",
      [BeanAnnotation(beanNameField.name), OverrideAnnotation],
      {Public}, "PlatformTransactionManager",
      [BeanParameter("entityManagerFactory", "EntityManagerFactory", Some(entityManagerFactoryBeanNameField.name))],
      NewTransactionManager)
  }

  /** The five constants, in declaration order: the four bean names, then the entity packages. */
  function ConfigFields(dataSourceName: string, dataSourceEntityPackages: seq<string>): (fs: seq<FieldSpec>)
    ensures |fs| == 5
    ensures forall i :: 0 <= i < 4 ==> fs[i] == BeanNameField(dataSourceName, Beans[i])
    ensures fs[4] == ConstantStringField(EntityPackagesConstantName, dataSourceEntityPackages)
  {
    seq(4, i requires 0 <= i < 4 => BeanNameField(dataSourceName, Beans[i])) +
    [ConstantStringField(EntityPackagesConstantName, dataSourceEntityPackages)]
  }

  /** The four bean methods, built from the constants `fields` (as `ConfigFields` orders them). */
  function ConfigMethods(dataSourceConfig: DataSourceConfig, dataSourcePropertiesPath: string,
                         fields: seq<FieldSpec>): (ms: seq<BeanMethod>)
    requires |fields| == 5
    ensures |ms| == 4
  {
    var isMasterConfig := dataSourceConfig.isPrimary;
    [AddPrimaryAnnotationIfPrimaryConfigAndBuild(
       DataSourcePropertiesBeanMethod(dataSourcePropertiesPath, fields[0]), isMasterConfig),
     AddPrimaryAnnotationIfPrimaryConfigAndBuild(
       DataSourceBeanMethod(dataSourceConfig.dataSourceClassPropertiesPath, fields[1], fields[0]), isMasterConfig),
     AddPrimaryAnnotationIfPrimaryConfigAndBuild(
       EntityManagerFactoryBeanMethod(dataSourceConfig.hibernateBeanContainerPropertyPath, fields[4],
                                      fields[2], fields[1]), isMasterConfig),
     AddPrimaryAnnotationIfPrimaryConfigAndBuild(
       TransactionManagerBeanMethod(fields[3], fields[2]), isMasterConfig)]
  }

  /**
   * `generateMultiDataSourceConfigTypeElement`: a public class of the given name implementing
   * `IMultiDataSourceConfig`, with five constants and four bean methods.
   */
  function GenerateMultiDataSourceConfigTypeElement(
    dataSourceConfig: DataSourceConfig,
    dataSourceName: string,
    dataSourceConfigClassName: string,
    dataSourcePropertiesPath: string,
    dataSourceRepositoryPackages: seq<string>,
    dataSourceEntityPackages: seq<string>,
    generatedRepositoryPackagePrefix: string): (c: ConfigClass)
    ensures c.name == dataSourceConfigClassName && c.modifiers == {Public}
    ensures c.superinterfaces == [IMultiDataSourceConfig]
    ensures c.fields == ConfigFields(dataSourceName, dataSourceEntityPackages)
    ensures c.methods == ConfigMethods(dataSourceConfig, dataSourcePropertiesPath, c.fields)
  {
    var fields := ConfigFields(dataSourceName, dataSourceEntityPackages);
    var enableJpaRepositories := EnableJpaRepositories(
      StringArrayToGeneratedStringArray(dataSourceRepositoryPackages),
      ConstantReference(dataSourceConfigClassName, fields[2].name),
      ConstantReference(dataSourceConfigClassName, fields[3].name),
      if dataSourceConfig.isPrimary then Some(generatedRepositoryPackagePrefix) else None);
    ConfigClass(dataSourceConfigClassName, {Public}, [IMultiDataSourceConfig], enableJpaRepositories,
                fields, ConfigMethods(dataSourceConfig, dataSourcePropertiesPath, fields))
  }

  /**
   * The primary data source's configuration, and only it, marks all four beans `@Primary`
   * and excludes the generated repositories (by the given prefix) from its repository scan.
   */
  lemma PrimaryConfigBeans(
    config: DataSourceConfig, name: string, className: string, path: string,
    repositoryPackages: seq<string>, entityPackages: seq<string>, prefix: string)
    ensures var c := GenerateMultiDataSourceConfigTypeElement(config, name, className, path,
                                                              repositoryPackages, entityPackages, prefix);
      (forall i :: 0 <= i < |c.methods| ==> (IsPrimaryBean(c.methods[i]) <==> config.isPrimary)) &&
      c.enableJpaRepositories.excludeFilterPattern == (if config.isPrimary then Some(prefix) else None)
  {
    var c := GenerateMultiDataSourceConfigTypeElement(config, name, className, path,
                                                      repositoryPackages, entityPackages, prefix);
    ConfigMethodsPrimary(config, path, c.fields);
  }

  /** None of the four unannotated bean methods is `@Primary` before the primary check. */
  lemma ConfigMethodsPrimary(config: DataSourceConfig, path: string, fields: seq<FieldSpec>)
    requires |fields| == 5
    ensures var ms := ConfigMethods(config, path, fields);
      forall i :: 0 <= i < 4 ==> (IsPrimaryBean(ms[i]) <==> config.isPrimary)
  {
    assert !IsPrimaryBean(DataSourcePropertiesBeanMethod(path, fields[0]));
    assert !IsPrimaryBean(DataSourceBeanMethod(config.dataSourceClassPropertiesPath, fields[1], fields[0]));
    assert !IsPrimaryBean(EntityManagerFactoryBeanMethod(config.hibernateBeanContainerPropertyPath, fields[4],
                                                         fields[2], fields[1]));
    assert !IsPrimaryBean(TransactionManagerBeanMethod(fields[3], fields[2]));
  }

  /** Each constant is named after its bean (the fifth after the entity packages). */
  lemma ConfigFieldNames(dataSourceName: string, entityPackages: seq<string>)
    ensures var fs := ConfigFields(dataSourceName, entityPackages);
      (forall i :: 0 <= i < 4 ==> fs[i].name == ConstantName(Beans[i])) &&
      fs[4].name == EntityPackagesConstantName
  {
  }

  /** The constants hold the data source's four bean names and its entity packages. */
  lemma ConfigFieldValues(dataSourceName: string, entityPackages: seq<string>, i: nat)
    requires i < 4
    ensures var fs := ConfigFields(dataSourceName, entityPackages);
      FieldValue(fs, ConstantName(Beans[i])) == Some(Quote(BeanName(dataSourceName, Beans[i]))) &&
      FieldValue(fs, EntityPackagesConstantName) == Some(ConstantText(entityPackages))
  {
    var fs := ConfigFields(dataSourceName, entityPackages);
    BeanFieldValue(dataSourceName, fs, i);
    EntityPackagesFieldValue(dataSourceName, fs, entityPackages);
  }

  /** The i-th bean-name constant, being the first of its name, holds the i-th bean's name. */
  lemma BeanFieldValue(dataSourceName: string, fs: seq<FieldSpec>, i: nat)
    requires |fs| == 5 && i < 4
    requires forall k :: 0 <= k < 4 ==> fs[k] == BeanNameField(dataSourceName, Beans[k])
    ensures FieldValue(fs, ConstantName(Beans[i])) == Some(Quote(BeanName(dataSourceName, Beans[i])))
  {
    forall j | 0 <= j < i
      ensures fs[j].name != fs[i].name
    {
      assert fs[j].name == ConstantName(Beans[j]) && fs[i].name == ConstantName(Beans[i]);
      BeansDistinct(j, i);
      ConstantNamesDistinct(Beans[j], Beans[i]);
    }
    FieldValueAt(fs, i);
    var beanName := BeanName(dataSourceName, Beans[i]);
    var f := ConstantStringField(ConstantName(Beans[i]), [beanName]);
    assert fs[i] == f;
    assert Expand(f.initializerFormat, f.initializerArgs) == Some(ConstantText([beanName]));
    assert ConstantText([beanName]) == Quote(beanName);
  }

  /** The entity-packages constant follows four differently named constants. */
  lemma EntityPackagesFieldValue(dataSourceName: string, fs: seq<FieldSpec>, entityPackages: seq<string>)
    requires |fs| == 5
    requires forall k :: 0 <= k < 4 ==> fs[k] == BeanNameField(dataSourceName, Beans[k])
    requires fs[4] == ConstantStringField(EntityPackagesConstantName, entityPackages)
    ensures FieldValue(fs, EntityPackagesConstantName) == Some(ConstantText(entityPackages))
  {
    forall j | 0 <= j < 4
      ensures fs[j].name != fs[4].name
    {
      ConstantNamesDistinct(Beans[j], Beans[j]);
    }
    FieldValueAt(fs, 4);
  }

  /** The i-th bean method carries `@Bean` naming the i-th constant, and no other `@Bean`. */
  lemma {:induction false} ConfigMethodBeans(config: DataSourceConfig, path: string, fields: seq<FieldSpec>, i: nat)
    requires |fields| == 5 && i < 4
    ensures BeanConstants(ConfigMethods(config, path, fields)[i]) == {fields[i].name}
  {
    var ms := ConfigMethods(config, path, fields);
    var p := config.isPrimary;
    if i == 0 {
      assert ms[0] == AddPrimaryAnnotationIfPrimaryConfigAndBuild(DataSourcePropertiesBeanMethod(path, fields[0]), p);
      SingleBean(ms[0], fields[0].name);
    } else if i == 1 {
      assert ms[1] == AddPrimaryAnnotationIfPrimaryConfigAndBuild(
        DataSourceBeanMethod(config.dataSourceClassPropertiesPath, fields[1], fields[0]), p);
      SingleBean(ms[1], fields[1].name);
    } else if i == 2 {
      assert ms[2] == AddPrimaryAnnotationIfPrimaryConfigAndBuild(
        EntityManagerFactoryBeanMethod(config.hibernateBeanContainerPropertyPath, fields[4], fields[2], fields[1]), p);
      SingleBean(ms[2], fields[2].name);
    } else {
      assert ms[3] == AddPrimaryAnnotationIfPrimaryConfigAndBuild(TransactionManagerBeanMethod(fields[3], fields[2]), p);
      SingleBean(ms[3], fields[3].name);
    }
  }

  /** A method whose first annotation, and only `@Bean`, names `name`. */
  lemma {:induction false} SingleBean(m: BeanMethod, name: string)
    requires m.annotations != [] && m.annotations[0] == BeanAnnotation(name)
    requires forall k :: 1 <= k < |m.annotations| ==> !m.annotations[k].BeanAnnotation?
    ensures BeanConstants(m) == {name}
  {
    var rest := m.annotations[1..];
    assert forall k :: 0 <= k < |rest| ==> rest[k] == m.annotations[k + 1];
    NoBeanAnnotations(rest);
  }

  lemma {:induction false} NoBeanAnnotations(annotations: seq<MethodAnnotation>)
    requires forall k :: 0 <= k < |annotations| ==> !annotations[k].BeanAnnotation?
    ensures BeanAnnotationNames(annotations) == {}
    decreases |annotations|
  {
    if annotations != [] {
      NoBeanAnnotations(annotations[1..]);
    }
  }

  /**
   * The four constants hold the data source's bean names and the fifth its entity packages;
   * the i-th bean method is the bean named by the i-th constant.
   */
  lemma ConfigBeanNames(
    config: DataSourceConfig, name: string, className: string, path: string,
    repositoryPackages: seq<string>, entityPackages: seq<string>, prefix: string, i: nat)
    requires i < 4
    ensures var c := GenerateMultiDataSourceConfigTypeElement(config, name, className, path,
                                                              repositoryPackages, entityPackages, prefix);
      BeanConstants(c.methods[i]) == {ConstantName(Beans[i])} &&
      ConstantValue(c, ConstantName(Beans[i])) == Some(Quote(BeanName(name, Beans[i]))) &&
      ConstantValue(c, EntityPackagesConstantName) == Some(ConstantText(entityPackages))
  {
    var c := GenerateMultiDataSourceConfigTypeElement(config, name, className, path,
                                                      repositoryPackages, entityPackages, prefix);
    ConfigFieldNames(name, entityPackages);
    ConfigFieldValues(name, entityPackages, i);
    ConfigMethodBeans(config, path, c.fields, i);
  }

  /** The first field of a name is the one the name resolves to. */
  lemma {:induction false} FieldValueAt(fields: seq<FieldSpec>, i: nat)
    requires i < |fields|
    requires forall j :: 0 <= j < i ==> fields[j].name != fields[i].name
    ensures FieldValue(fields, fields[i].name) == Expand(fields[i].initializerFormat, fields[i].initializerArgs)
    decreases i
  {
    if i > 0 {
      FieldValueAt(fields[1..], i - 1);
    }
  }

  /**
   * The beans are wired to one another by name: every qualified parameter names the bean of
   * an earlier method (so the dependencies have no cycle), and the repository scan refers to
   * the entity manager factory and transaction manager constants of the class itself.
   */
  lemma ConfigWiring(
    config: DataSourceConfig, name: string, className: string, path: string,
    repositoryPackages: seq<string>, entityPackages: seq<string>, prefix: string)
    ensures var c := GenerateMultiDataSourceConfigTypeElement(config, name, className, path,
                                                              repositoryPackages, entityPackages, prefix);
      (forall i, p :: 0 <= i < |c.methods| && p in c.methods[i].parameters && p.qualifier.Some? ==>
         exists j :: 0 <= j < i && p.qualifier.value in BeanConstants(c.methods[j])) &&
      c.enableJpaRepositories.entityManagerFactoryRef ==
        ConstantReference(className, ConstantName(EntityManagerFactoryBean)) &&
      ConstantName(EntityManagerFactoryBean) in BeanConstants(c.methods[2]) &&
      c.enableJpaRepositories.transactionManagerRef ==
        ConstantReference(className, ConstantName(TransactionManagerBean)) &&
      ConstantName(TransactionManagerBean) in BeanConstants(c.methods[3])
  {
    var c := GenerateMultiDataSourceConfigTypeElement(config, name, className, path,
                                                      repositoryPackages, entityPackages, prefix);
    ConfigFieldNames(name, entityPackages);
    forall i | 0 <= i < 4
      ensures BeanConstants(c.methods[i]) == {c.fields[i].name}
    {
      ConfigMethodBeans(config, path, c.fields, i);
    }
    forall i, p | 0 <= i < |c.methods| && p in c.methods[i].parameters && p.qualifier.Some?
      ensures exists j :: 0 <= j < i && p.qualifier.value in BeanConstants(c.methods[j])
    {
      QualifierNamesPreviousBean(config, path, c.fields, i, p);
    }
  }

  /** A qualified parameter of the i-th bean method names the constant of the one before. */
  lemma QualifierNamesPreviousBean(config: DataSourceConfig, path: string, fields: seq<FieldSpec>,
                                   i: nat, p: BeanParameter)
    requires |fields| == 5 && i < 4
    requires p in ConfigMethods(config, path, fields)[i].parameters && p.qualifier.Some?
    ensures i > 0 && p.qualifier == Some(fields[i - 1].name)
  {
  }

  /**
   * The properties bean reads `dataSourcePropertiesPath`, the data source bean the data
   * source's class properties path, the entity manager factory registers the bean container
   * under the data source's Hibernate property path, and the repository scan covers exactly
   * the given packages.
   */
  lemma ConfigProperties(
    config: DataSourceConfig, name: string, className: string, path: string,
    repositoryPackages: seq<string>, entityPackages: seq<string>, prefix: string)
    ensures var c := GenerateMultiDataSourceConfigTypeElement(config, name, className, path,
                                                              repositoryPackages, entityPackages, prefix);
      ConfigurationProperties(path) in c.methods[0].annotations &&
      ConfigurationProperties(config.dataSourceClassPropertiesPath) in c.methods[1].annotations &&
      c.methods[2].body == BuildEntityManagerFactory(EntityPackagesConstantName, ConstantName(DataSourceBean),
                                                     config.hibernateBeanContainerPropertyPath) &&
      c.enableJpaRepositories.basePackages == "{" + Join(MapStrings(Quote, repositoryPackages), ",") + "}"
  {
    var c := GenerateMultiDataSourceConfigTypeElement(config, name, className, path,
                                                      repositoryPackages, entityPackages, prefix);
    assert c.methods[0].annotations[1] == ConfigurationProperties(path);
    assert c.methods[1].annotations[1] == ConfigurationProperties(config.dataSourceClassPropertiesPath);
    GeneratedStringArrayQuotesEach(repositoryPackages);
  }
}

=== FILE: config_model.dfy ===
/**
 * The data source settings the processors read and the Spring configuration class the config
 * generators produce, as records: one class per data source, with four bean-name constants,
 * an entity-packages constant, an `@EnableJpaRepositories` annotation and four bean methods.
 */
module ConfigModel {
  import opened Wrappers
  import opened JavaModel
  import opened FieldSpecs

  /** `@DataSourceConfig`: the settings of one data source. */
  datatype DataSourceConfig = DataSourceConfig(
    dataSourceName: string,
    isPrimary: bool,
    exactEntityPackages: seq<string>,
    dataSourceClassPropertiesPath: string,
    hibernateBeanContainerPropertyPath: string)

  /** The four beans every generated configuration class declares, in declaration order. */
  datatype Bean = DataSourcePropertiesBean | DataSourceBean | EntityManagerFactoryBean | TransactionManagerBean

  const Beans: seq<Bean> := [DataSourcePropertiesBean, DataSourceBean, EntityManagerFactoryBean, TransactionManagerBean]

  /** Each bean is listed once. */
  lemma BeansDistinct(j: nat, k: nat)
    requires j < k < 4
    ensures Beans[j] != Beans[k]
  {
    if j == 0 {
      assert Beans[j].DataSourcePropertiesBean? && !Beans[k].DataSourcePropertiesBean?;
    } else if j == 1 {
      assert Beans[j].DataSourceBean? && !Beans[k].DataSourceBean?;
    } else {
      assert Beans[j].EntityManagerFactoryBean? && Beans[k].TransactionManagerBean?;
    }
  }

  /** What the data source name is followed by in the bean's Spring name. */
  function Suffix(b: Bean): string
  {
    match b
    case DataSourcePropertiesBean => "-data-source-properties"
    case DataSourceBean => "-data-source"
    case EntityManagerFactoryBean => "-entity-manager-factory"
    case TransactionManagerBean => "-transaction-manager"
  }

  /** The name of the constant that holds the bean's Spring name. */
  function ConstantName(b: Bean): string
  {
    match b
    case DataSourcePropertiesBean => "DATA_SOURCE_PROPERTIES_BEAN_NAME"
    case DataSourceBean => "DATA_SOURCE_BEAN_NAME"
    case EntityManagerFactoryBean => "ENTITY_MANAGER_FACTORY_BEAN_NAME"
    case TransactionManagerBean => "TRANSACTION_MANAGER_BEAN_NAME"
  }

  const EntityPackagesConstantName := "DATA_SOURCE_ENTITY_PACKAGES"

  /** The Spring name of a bean of a data source. */
  function BeanName(dataSourceName: string, b: Bean): (r: string)
    ensures |r| == |dataSourceName| + |Suffix(b)| && r[..|dataSourceName|] == dataSourceName
  {
    dataSourceName + Suffix(b)
  }

  /**
   * Bean names never clash: two beans share a name only when they are the same bean of the
   * same data source, since the four suffixes end in four different letters.
   */
  lemma BeanNamesInjective(n1: string, b1: Bean, n2: string, b2: Bean)
    requires BeanName(n1, b1) == BeanName(n2, b2)
    ensures n1 == n2 && b1 == b2
  {
    var r := BeanName(n1, b1);
    assert r[|r| - 1] == Suffix(b1)[|Suffix(b1)| - 1] == Suffix(b2)[|Suffix(b2)| - 1];
    assert b1 == b2;
    assert n1 == r[..|n1|] == n2;
  }

  /** The constant names of a configuration class are pairwise different. */
  lemma ConstantNamesDistinct(b1: Bean, b2: Bean)
    ensures ConstantName(b1) == ConstantName(b2) ==> b1 == b2
    ensures ConstantName(b1) != EntityPackagesConstantName
  {
    if ConstantName(b1) == ConstantName(b2) {
      assert ConstantName(b1)[|ConstantName(b1)| - 1 - 9] == ConstantName(b2)[|ConstantName(b2)| - 1 - 9];
      assert |ConstantName(b1)| == |ConstantName(b2)|;
    }
  }

  /** An annotation of a generated bean method. */
  datatype MethodAnnotation =
    | BeanAnnotation(nameConstant: string)
    | ConfigurationProperties(prefix: string)
    | OverrideAnnotation
    | PrimaryAnnotation

  /** A parameter of a bean method, with the constant naming the bean it is qualified by. */
  datatype BeanParameter = BeanParameter(name: string, parameterType: string, qualifier: Option<string>)

  /** What a bean method's body builds. */
  datatype BeanBody =
    | NewDataSourceProperties
    | BuildDataSource(dataSourceType: Option<string>)
    | BuildEntityManagerFactory(packagesConstant: string, persistenceUnitConstant: string,
                                hibernateBeanContainerPropertyPath: string)
    | NewTransactionManager

  datatype BeanMethod = BeanMethod(
    name: string,
    annotations: seq<MethodAnnotation>,
    modifiers: set<Modifier>,
    returnType: string,
    parameters: seq<BeanParameter>,
    body: BeanBody)

  /**
   * `@EnableJpaRepositories` on the class: the `basePackages` array literal, the two bean
   * references (`Class.CONSTANT`) and, on a primary configuration, the regular expression of
   * its exclude filter.
   */
  datatype EnableJpaRepositories = EnableJpaRepositories(
    basePackages: string,
    entityManagerFactoryRef: string,
    transactionManagerRef: string,
    excludeFilterPattern: Option<string>)

  /** A generated `@Configuration` class. */
  datatype ConfigClass = ConfigClass(
    name: string,
    modifiers: set<Modifier>,
    superinterfaces: seq<ClassName>,
    enableJpaRepositories: EnableJpaRepositories,
    fields: seq<FieldSpec>,
    methods: seq<BeanMethod>)

  /** The rendered initializer of the class's first field named `name`, if any. */
  function ConstantValue(c: ConfigClass, name: string): Option<string>
  {
    FieldValue(c.fields, name)
  }

  function FieldValue(fields: seq<FieldSpec>, name: string): Option<string>
  {
    if fields == [] then None
    else if fields[0].name == name then Expand(fields[0].initializerFormat, fields[0].initializerArgs)
    else FieldValue(fields[1..], name)
  }

  /** The constants named by the `@Bean` annotations of a method. */
  function BeanConstants(m: BeanMethod): set<string>
  {
    BeanAnnotationNames(m.annotations)
  }

  function BeanAnnotationNames(annotations: seq<MethodAnnotation>): set<string>
  {
    if annotations == [] then {}
    else (if annotations[0].BeanAnnotation? then {annotations[0].nameConstant} else {}) +
         BeanAnnotationNames(annotations[1..])
  }

  /** The method is annotated `@Primary`. */
  predicate IsPrimaryBean(m: BeanMethod)
  {
    PrimaryAnnotation in m.annotations
  }

  /** `"$L.$N"` of a class name and a field: a reference to a constant of the class. */
  function ConstantReference(className: string, constant: string): string
  {
    className + "." + constant
  }
}

=== FILE: config_processor.dfy ===
/**
 * `MultiDataSourceConfigAnnotationProcessor`: the configuration-only processor. Its
 * `@EnableMultiDataSourceConfig` names one primary data source and a list of secondary ones;
 * it writes one configuration class for each, all scanning the same repository packages.
 */
module ConfigProcessor {
  import opened Wrappers
  import opened ConfigModel
  import opened Processing

  /** The settings of `@EnableMultiDataSourceConfig` this processor reads. */
  datatype EnableMultiDataSourceConfig = EnableMultiDataSourceConfig(
    primaryDataSourceConfig: DataSourceConfig,
    secondaryDataSourceConfigs: seq<DataSourceConfig>,
    datasourcePropertiesPrefix: string,
    repositoryPackages: seq<string>,
    generatedConfigPackage: string)

  /** The class carrying the annotation: its package and the annotation. */
  datatype AnnotatedElement = AnnotatedElement(packageName: string, annotation: EnableMultiDataSourceConfig)

  const ConfigPackageSuffix := ".generated.config"

  /**
   * `validateAndGetPrimaryDataSourceConfig`: the primary configuration, unless some secondary
   * configuration carries its name.
   */
  function ValidateAndGetPrimaryDataSourceConfig(annotation: EnableMultiDataSourceConfig)
    : (r: Result<DataSourceConfig, ProcessorError>)
    ensures r.Ok? <==> forall c :: c in annotation.secondaryDataSourceConfigs ==>
                          c.dataSourceName != annotation.primaryDataSourceConfig.dataSourceName
    ensures r.Ok? ==> r.value == annotation.primaryDataSourceConfig
    ensures r.Err? ==> r.error == PrimaryAlsoSecondary(annotation.primaryDataSourceConfig.dataSourceName)
  {
    var primaryConfig := annotation.primaryDataSourceConfig;
    if forall c :: c in annotation.secondaryDataSourceConfigs ==> primaryConfig.dataSourceName != c.dataSourceName then
      Ok(primaryConfig)
    else
      Err(PrimaryAlsoSecondary(primaryConfig.dataSourceName))
  }

  /**
   * `getGeneratedConfigPackage`: the package setting when it has text, otherwise the
   * element's package followed by `.generated.config`.
   */
  function GetGeneratedConfigPackage(annotation: EnableMultiDataSourceConfig, elementPackage: string): (r: string)
    ensures HasText(annotation.generatedConfigPackage) ==> r == annotation.generatedConfigPackage
    ensures !HasText(annotation.generatedConfigPackage) ==> r == elementPackage + ConfigPackageSuffix
  {
    OrDefault(annotation.generatedConfigPackage, elementPackage + ConfigPackageSuffix)
  }

  /**
   * What `createDataSourceConfigurationClass` hands the generator: the configuration, whether
   * it is the primary one, the class name, the properties path, the repository packages, the
   * entity packages as a set, and the package the class is written to.
   */
  datatype ConfigRequest = ConfigRequest(
    config: DataSourceConfig,
    isPrimaryConfig: bool,
    className: string,
    propertiesPath: string,
    repositoryPackages: seq<string>,
    entityPackages: set<string>,
    configPackage: string)

  /**
   * The checks and derivations of `createDataSourceConfigurationClass`: the configuration's
   * own exact entity packages go through `Set.of` (which refuses a duplicate), must not be
   * empty, and the repository packages must not be empty, in that order.
   * `ConfigRequestForSpec` states what it computes.
   */
  function ConfigRequestFor(config: DataSourceConfig, annotation: EnableMultiDataSourceConfig,
                            generatedConfigPackage: string, repositoryPackagesToIncludeInScan: seq<string>)
    : Result<ConfigRequest, ProcessorError>
  {
    match SetOf(config.exactEntityPackages)
    case Err(e) => Err(e)
    case Ok(entityPackages) =>
      if entityPackages == {} then
        Err(NoEntityPackagesFor(config.dataSourceName))
      else if repositoryPackagesToIncludeInScan == [] then
        Err(NoRepositoryPackages)
      else
        Ok(ConfigRequest(
          config,
          config.dataSourceName == annotation.primaryDataSourceConfig.dataSourceName,
          DataSourceConfigClassName(config.dataSourceName),
          DataSourcePropertiesPath(annotation.datasourcePropertiesPrefix, config.dataSourceName),
          repositoryPackagesToIncludeInScan,
          entityPackages,
          generatedConfigPackage))
  }

  /**
   * The checks of `createDataSourceConfigurationClass`, both ways: a `Set.of` error is passed
   * on; otherwise the request fails exactly when the configuration lists no entity package
   * (naming the data source) or no repository package is given, and a request carries the
   * derived names, the primary flag and the packages.
   */
  lemma ConfigRequestForSpec(config: DataSourceConfig, annotation: EnableMultiDataSourceConfig,
                             generatedConfigPackage: string, repositoryPackagesToIncludeInScan: seq<string>)
    ensures var r := ConfigRequestFor(config, annotation, generatedConfigPackage, repositoryPackagesToIncludeInScan);
      var exact := config.exactEntityPackages;
      (SetOf(exact).Err? ==> r == Err(SetOf(exact).error)) &&
      (r.Ok? <==> Distinct(exact) && exact != [] && repositoryPackagesToIncludeInScan != []) &&
      (r.Err? && Distinct(exact) ==>
         (r.error == NoEntityPackagesFor(config.dataSourceName) <==> exact == []) &&
         (r.error == NoRepositoryPackages <==> exact != [])) &&
      (r.Ok? ==> r.value.config == config &&
                 (r.value.isPrimaryConfig <==> config.dataSourceName == annotation.primaryDataSourceConfig.dataSourceName) &&
                 r.value.className == DataSourceConfigClassName(config.dataSourceName) &&
                 r.value.propertiesPath == DataSourcePropertiesPath(annotation.datasourcePropertiesPrefix, config.dataSourceName) &&
                 r.value.repositoryPackages == repositoryPackagesToIncludeInScan &&
                 r.value.entityPackages == (set p | p in exact) &&
                 r.value.configPackage == generatedConfigPackage)
  {
    SetOfSpec(config.exactEntityPackages);
  }

  /**
   * A configuration class written by the processor, as the generator's arguments: the
   * request and the order the hash set of entity packages came out in.
   */
  datatype ConfigFile = ConfigFile(request: ConfigRequest, entityPackages: seq<string>)

  /** The file is the request's, with its entity packages in one of the possible orders. */
  ghost predicate ConfigFileFor(request: ConfigRequest, file: ConfigFile)
  {
    file.request == request && Enumerates(file.entityPackages, request.entityPackages)
  }

  /**
   * `createDataSourceConfigurationClass`: fails as its checks say; otherwise the class of
   * the request, written to the configuration package.
   */
  method CreateDataSourceConfigurationClass(config: DataSourceConfig, annotation: EnableMultiDataSourceConfig,
                                            generatedConfigPackage: string,
                                            repositoryPackagesToIncludeInScan: seq<string>)
    returns (r: Result<ConfigFile, ProcessorError>)
    ensures r.Ok? <==> ConfigRequestFor(config, annotation, generatedConfigPackage, repositoryPackagesToIncludeInScan).Ok?
    ensures r.Err? ==> r.error == ConfigRequestFor(config, annotation, generatedConfigPackage,
                                                   repositoryPackagesToIncludeInScan).error
    ensures r.Ok? ==> ConfigFileFor(ConfigRequestFor(config, annotation, generatedConfigPackage,
                                                     repositoryPackagesToIncludeInScan).value, r.value)
  {
    var request := ConfigRequestFor(config, annotation, generatedConfigPackage, repositoryPackagesToIncludeInScan);
    if request.Err? {
      return Err(request.error);
    }
    var entityPackages := ToArray(request.value.entityPackages);
    return Ok(ConfigFile(request.value, entityPackages));
  }

  // ---------------------------------------------------------------------------------------
  // The round

  /** What a round writes: the primary configuration and one per secondary, by name. */
  datatype RoundOutput = RoundOutput(primary: ConfigFile, secondaries: map<string, ConfigFile>)

  /** The request of a secondary configuration. */
  function SecondaryRequest(element: AnnotatedElement, c: DataSourceConfig): Result<ConfigRequest, ProcessorError>
  {
    var annotation := element.annotation;
    ConfigRequestFor(c, annotation, GetGeneratedConfigPackage(annotation, element.packageName), annotation.repositoryPackages)
  }

  /** The names of the configurations. */
  function Names(configs: seq<DataSourceConfig>): set<string>
  {
    set c | c in configs :: c.dataSourceName
  }

  /** The class of secondary configuration `c` was generated, and `file` is it. */
  ghost predicate Written(element: AnnotatedElement, c: DataSourceConfig, file: ConfigFile)
  {
    SecondaryRequest(element, c).Ok? && ConfigFileFor(SecondaryRequest(element, c).value, file)
  }

  /** The classes of the secondaries, one under each name. */
  ghost predicate SecondariesDone(element: AnnotatedElement, secondaries: map<string, ConfigFile>)
  {
    var configs := element.annotation.secondaryDataSourceConfigs;
    secondaries.Keys == Names(configs) &&
    forall c :: c in configs ==> Written(element, c, secondaries[c.dataSourceName])
  }

  /**
   * What processing one annotated element may end in. In order: the primary must not be a
   * secondary, the primary's class, distinct secondary names; the first failing stage ends
   * the round with its error. Past them the round succeeds exactly when every secondary's
   * class does, writing all of them; otherwise it ends in the error of one of them, which one
   * depending on hash order.
   */
  ghost predicate ProcessesElement(element: AnnotatedElement, r: Result<RoundOutput, ProcessorError>)
  {
    var annotation := element.annotation;
    var primary := ValidateAndGetPrimaryDataSourceConfig(annotation);
    var primaryRequest := ConfigRequestFor(annotation.primaryDataSourceConfig, annotation,
                                           GetGeneratedConfigPackage(annotation, element.packageName),
                                           annotation.repositoryPackages);
    var secondaries := annotation.secondaryDataSourceConfigs;
    if primary.Err? then r == Err(primary.error)
    else if primaryRequest.Err? then r == Err(primaryRequest.error)
    else if !NamesDistinct(secondaries) then r == Err(DuplicateDataSourceConfig)
    else
      (r.Ok? <==> forall c :: c in secondaries ==> SecondaryRequest(element, c).Ok?) &&
      (r.Ok? ==> ConfigFileFor(primaryRequest.value, r.value.primary) && SecondariesDone(element, r.value.secondaries)) &&
      (r.Err? ==> exists c :: c in secondaries && SecondaryRequest(element, c) == Err(r.error))
  }

  /** Once every name is recorded, every secondary's class is. */
  lemma AllWritten(element: AnnotatedElement, configMap: map<string, DataSourceConfig>, configs: map<string, ConfigFile>)
    requires configMap.Keys == Names(element.annotation.secondaryDataSourceConfigs)
    requires forall c :: c in element.annotation.secondaryDataSourceConfigs ==> configMap[c.dataSourceName] == c
    requires configs.Keys == configMap.Keys
    requires forall k :: k in configs ==> Written(element, configMap[k], configs[k])
    ensures SecondariesDone(element, configs)
    ensures forall c :: c in element.annotation.secondaryDataSourceConfigs ==> SecondaryRequest(element, c).Ok?
  {
    forall c | c in element.annotation.secondaryDataSourceConfigs
      ensures Written(element, c, configs[c.dataSourceName])
    {
      assert configMap[c.dataSourceName] == c;
    }
  }

  /**
   * The secondaries' classes, in hash order of the configuration map; the first failure
   * aborts.
   */
  method CreateSecondaryConfigs(element: AnnotatedElement, secondaryDataSourceConfigMap: map<string, DataSourceConfig>)
    returns (r: Result<map<string, ConfigFile>, ProcessorError>)
    requires secondaryDataSourceConfigMap.Keys == Names(element.annotation.secondaryDataSourceConfigs)
    requires forall c :: c in element.annotation.secondaryDataSourceConfigs ==> secondaryDataSourceConfigMap[c.dataSourceName] == c
    ensures r.Ok? <==> forall c :: c in element.annotation.secondaryDataSourceConfigs ==> SecondaryRequest(element, c).Ok?
    ensures r.Ok? ==> SecondariesDone(element, r.value)
    ensures r.Err? ==> exists c :: c in element.annotation.secondaryDataSourceConfigs &&
                                   SecondaryRequest(element, c) == Err(r.error)
  {
    var annotation := element.annotation;
    var nonEmptyGeneratedConfigPackage := GetGeneratedConfigPackage(annotation, element.packageName);
    var configs: map<string, ConfigFile> := map[];
    var remaining := secondaryDataSourceConfigMap.Keys;
    while remaining != {}
      invariant remaining <= secondaryDataSourceConfigMap.Keys
      invariant configs.Keys == secondaryDataSourceConfigMap.Keys - remaining
      invariant forall n :: n in configs ==> Written(element, secondaryDataSourceConfigMap[n], configs[n])
      decreases remaining
    {
      var dataSourceName :| dataSourceName in remaining;
      var dataSourceConfig := secondaryDataSourceConfigMap[dataSourceName];
      var file := CreateDataSourceConfigurationClass(dataSourceConfig, annotation, nonEmptyGeneratedConfigPackage,
                                                     annotation.repositoryPackages);
      if file.Err? {
        assert dataSourceConfig in annotation.secondaryDataSourceConfigs;
        return Err(file.error);
      }
      configs := configs[dataSourceName := file.value];
      remaining := remaining - {dataSourceName};
    }
    AllWritten(element, secondaryDataSourceConfigMap, configs);
    return Ok(configs);
  }

  /**
   * `process` for the element carrying the annotation: the primary check, the configuration
   * package, the primary's class, the secondary map, then a class per secondary.
   */
  method ProcessElement(element: AnnotatedElement) returns (r: Result<RoundOutput, ProcessorError>)
    ensures ProcessesElement(element, r)
  {
    var annotation := element.annotation;
    var primaryConfig := ValidateAndGetPrimaryDataSourceConfig(annotation);
    if primaryConfig.Err? {
      return Err(primaryConfig.error);
    }
    var nonEmptyGeneratedConfigPackage := GetGeneratedConfigPackage(annotation, element.packageName);
    var primary := CreateDataSourceConfigurationClass(primaryConfig.value, annotation, nonEmptyGeneratedConfigPackage,
                                                      annotation.repositoryPackages);
    if primary.Err? {
      return Err(primary.error);
    }
    var secondaryDataSourceConfigMap := CreateDataSourceToConfigMap(annotation.secondaryDataSourceConfigs);
    if secondaryDataSourceConfigMap.Err? {
      return Err(secondaryDataSourceConfigMap.error);
    }
    var secondaries := CreateSecondaryConfigs(element, secondaryDataSourceConfigMap.value);
    if secondaries.Err? {
      return Err(secondaries.error);
    }
    return Ok(RoundOutput(primary.value, secondaries.value));
  }

  /** `process`: no annotated element, nothing to do; several, an error; one, its round. */
  method Process(annotatedElements: set<AnnotatedElement>) returns (r: Result<Option<RoundOutput>, ProcessorError>)
    ensures annotatedElements == {} <==> r == Ok(None)
    ensures |annotatedElements| > 1 ==> r == Err(MultipleEnableConfigElements)
    ensures forall e :: annotatedElements == {e} ==>
              (r.Ok? ==> r.value.Some? && ProcessesElement(e, Ok(r.value.value))) &&
              (r.Err? ==> ProcessesElement(e, Err(r.error)))
  {
    var holder := ValidateAndGetEnableConfigAnnotationAndElementHolder(annotatedElements);
    if holder.Err? {
      return Err(holder.error);
    }
    if holder.value.None? {
      return Ok(None);
    }
    var out := ProcessElement(holder.value.value);
    if out.Err? {
      return Err(out.error);
    }
    return Ok(Some(out.value));
  }

  // ---------------------------------------------------------------------------------------
  // What a successful round guarantees

  /**
   * In a successful round the primary's class alone is flagged primary, and every class
   * scans the same global repository packages and goes to the same package.
   */
  lemma OnlyPrimaryIsFlaggedPrimary(element: AnnotatedElement, out: RoundOutput)
    requires ProcessesElement(element, Ok(out))
    ensures out.primary.request.isPrimaryConfig
    ensures forall n :: n in out.secondaries ==>
              !out.secondaries[n].request.isPrimaryConfig &&
              out.secondaries[n].request.repositoryPackages == out.primary.request.repositoryPackages ==
                element.annotation.repositoryPackages &&
              out.secondaries[n].request.configPackage == out.primary.request.configPackage
  {
    var annotation := element.annotation;
    var configs := annotation.secondaryDataSourceConfigs;
    var configPackage := GetGeneratedConfigPackage(annotation, element.packageName);
    ConfigRequestForSpec(annotation.primaryDataSourceConfig, annotation, configPackage, annotation.repositoryPackages);
    assert SecondariesDone(element, out.secondaries);
    forall n | n in out.secondaries
      ensures !out.secondaries[n].request.isPrimaryConfig
      ensures out.secondaries[n].request.repositoryPackages == annotation.repositoryPackages
      ensures out.secondaries[n].request.configPackage == configPackage
    {
      assert n in Names(configs);
      var c :| c in configs && c.dataSourceName == n;
      assert Written(element, c, out.secondaries[n]);
      ConfigRequestForSpec(c, annotation, configPackage, annotation.repositoryPackages);
    }
  }

  /** A secondary named like the primary ends the round before any class is written. */
  lemma PrimaryNamedAsSecondaryIsRefused(element: AnnotatedElement, r: Result<RoundOutput, ProcessorError>,
                                         c: DataSourceConfig)
    requires ProcessesElement(element, r)
    requires c in element.annotation.secondaryDataSourceConfigs
    requires c.dataSourceName == element.annotation.primaryDataSourceConfig.dataSourceName
    ensures r == Err(PrimaryAlsoSecondary(c.dataSourceName))
  {
  }
}

=== FILE: field_specs.dfy ===
/**
 * Constant `public static final` String fields, as both lineages of the generator utilities
 * build them: a JavaPoet `FieldSpec` whose initializer is a format string with one `$S`
 * placeholder per value.
 */
module FieldSpecs {
  import opened Wrappers
  import opened Text
  import opened JavaModel

  datatype FieldType = StringType | StringArrayType

  /** A JavaPoet `FieldSpec` with its initializer kept as format string plus arguments. */
  datatype FieldSpec = FieldSpec(
    fieldType: FieldType,
    name: string,
    modifiers: set<Modifier>,
    initializerFormat: string,
    initializerArgs: seq<string>)

  const ConstantModifiers: set<Modifier> := {Public, Static, Final}
  const Placeholder := "$S"
  const ArrayOpen := "new String[]{"
  const ArraySeparator := ", "
  const ArrayClose := "};"

  /** `$S` renders a value as a Java string literal (escaping is not modelled). */
  function Quote(v: string): string
  {
    "\"" + v + "\""
  }

  /**
   * JavaPoet's formatting of an initializer whose only code is `$S`: each placeholder takes
   * the next argument, quoted; any other character is copied. `None` when the numbers of
   * placeholders and arguments differ, where JavaPoet throws.
   */
  function Expand(format: string, args: seq<string>): Option<string>
    decreases |format|
  {
    if format == [] then
      if args == [] then Some([]) else None
    else if |format| >= 2 && format[0] == '$' && format[1] == 'S' then
      if args == [] then None
      else match Expand(format[2..], args[1..])
        case None => None
        case Some(t) => Some(Quote(args[0]) + t)
    else
      match Expand(format[1..], args)
      case None => None
      case Some(t) => Some([format[0]] + t)
  }

  /** `n` placeholders separated by `, `. */
  function Placeholders(n: nat): string
  {
    Join(Repeat(Placeholder, n), ArraySeparator)
  }

  /** The Java text a constant with these values is initialised with. */
  function ConstantText(values: seq<string>): string
  {
    if |values| == 1 then Quote(values[0])
    else ArrayOpen + Join(MapStrings(Quote, values), ArraySeparator) + ArrayClose
  }

  /**
   * The field `createConstantStringFieldSpec(name, values)` builds: a `String` for exactly
   * one value, otherwise a `String[]`; in both cases its initializer renders as
   * `ConstantText(values)`.
   */
  function ConstantStringField(name: string, values: seq<string>): (f: FieldSpec)
    ensures f.name == name && f.modifiers == ConstantModifiers && f.initializerArgs == values
    ensures f.fieldType == StringType <==> |values| == 1
    ensures Expand(f.initializerFormat, f.initializerArgs) == Some(ConstantText(values))
  {
    if |values| == 1 then
      ExpandText(Placeholder, values);
      FieldSpec(StringType, name, ConstantModifiers, Placeholder, values)
    else
      var format := ArrayOpen + Placeholders(|values|) + ArrayClose;
      ExpandArray(values);
      FieldSpec(StringArrayType, name, ConstantModifiers, format, values)
  }

  /** Copying a prefix without `$` commutes with expansion. */
  lemma {:induction false} ExpandLiteral(t: string, rest: string, args: seq<string>)
    requires '$' !in t
    ensures Expand(t + rest, args) ==
      match Expand(rest, args)
      case None => None
      case Some(x) => Some(t + x)
    decreases |t|
  {
    if t == [] {
      assert t + rest == rest;
      match Expand(rest, args)
      case None =>
      case Some(x) =>
        assert t + x == x;
    } else {
      var f := t + rest;
      assert f[0] == t[0] && t[0] in t;
      assert f[1..] == t[1..] + rest;
      ExpandLiteral(t[1..], rest, args);
      assert Expand(f, args) == match Expand(f[1..], args)
        case None => None
        case Some(y) => Some([f[0]] + y);
      match Expand(rest, args)
      case None =>
      case Some(x) =>
        assert [t[0]] + (t[1..] + x) == t + x;
    }
  }

  lemma ExpandText(format: string, values: seq<string>)
    requires format == Placeholder && |values| == 1
    ensures Expand(format, values) == Some(Quote(values[0]))
  {
    assert format[2..] == [];
    assert values[1..] == [];
    assert Quote(values[0]) + [] == Quote(values[0]);
  }

  /** Placeholders followed by `$`-free text expand to the quoted values and that text. */
  lemma {:induction false} ExpandPlaceholders(values: seq<string>, tail: string)
    requires '$' !in tail
    ensures Expand(Placeholders(|values|) + tail, values) ==
      Some(Join(MapStrings(Quote, values), ArraySeparator) + tail)
    decreases |values|
  {
    if |values| <= 1 {
      ExpandOnePlaceholder(values, tail);
    } else {
      ExpandPlaceholders(values[1..], tail);
      ExpandPlaceholdersStep(values, tail);
    }
  }

  /** No placeholder, or one, followed by `$`-free text. */
  lemma {:induction false} ExpandOnePlaceholder(values: seq<string>, tail: string)
    requires '$' !in tail && |values| <= 1
    ensures Expand(Placeholders(|values|) + tail, values) ==
      Some(Join(MapStrings(Quote, values), ArraySeparator) + tail)
  {
    assert Expand([], []) == Some([]);
    ExpandLiteral(tail, [], []);
    assert tail + [] == tail;
    assert Expand(tail, []) == Some(tail);
    if |values| == 0 {
      assert Placeholders(0) + tail == tail;
    } else {
      assert Placeholders(1) == Placeholder;
      assert (Placeholder + tail)[2..] == tail;
      assert values[1..] == [];
      assert Expand(Placeholder + tail, values) == Some(Quote(values[0]) + tail);
      assert Join(MapStrings(Quote, values), ArraySeparator) == Quote(values[0]);
    }
  }

  /** A leading placeholder and separator in front of the expansion for the other values. */
  lemma {:induction false} ExpandPlaceholdersStep(values: seq<string>, tail: string)
    requires '$' !in tail && |values| >= 2
    requires Expand(Placeholders(|values| - 1) + tail, values[1..]) ==
      Some(Join(MapStrings(Quote, values[1..]), ArraySeparator) + tail)
    ensures Expand(Placeholders(|values|) + tail, values) ==
      Some(Join(MapStrings(Quote, values), ArraySeparator) + tail)
  {
    var n := |values|;
    assert Repeat(Placeholder, n)[1..] == Repeat(Placeholder, n - 1);
    assert MapStrings(Quote, values)[1..] == MapStrings(Quote, values[1..]);
    var rest := Placeholders(n - 1) + tail;
    assert Placeholders(n) + tail == Placeholder + (ArraySeparator + rest);
    assert (Placeholder + (ArraySeparator + rest))[2..] == ArraySeparator + rest;
    ExpandLiteral(ArraySeparator, rest, values[1..]);
    var quoted := MapStrings(Quote, values);
    var joinedRest := Join(MapStrings(Quote, values[1..]), ArraySeparator);
    assert Expand(ArraySeparator + rest, values[1..]) == Some(ArraySeparator + (joinedRest + tail));
    assert Join(quoted, ArraySeparator) == quoted[0] + ArraySeparator + joinedRest;
    assert Expand(Placeholder + (ArraySeparator + rest), values) ==
      Some(Quote(values[0]) + (ArraySeparator + (joinedRest + tail)));
    var q := quoted[0];
    assert q == Quote(values[0]);
    assert q + (ArraySeparator + (joinedRest + tail)) == (q + ArraySeparator + joinedRest) + tail;
  }

  lemma NoPlaceholderInFrame()
    ensures '$' !in ArrayOpen && '$' !in ArrayClose && '$' !in ArraySeparator
  {
  }

  lemma ExpandFramed(open: string, close: string, values: seq<string>)
    requires '$' !in open && '$' !in close
    ensures Expand(open + Placeholders(|values|) + close, values) ==
      Some(open + Join(MapStrings(Quote, values), ArraySeparator) + close)
  {
    var holes := Placeholders(|values|);
    var joined := Join(MapStrings(Quote, values), ArraySeparator);
    var middle := holes + close;
    ExpandPlaceholders(values, close);
    assert Expand(middle, values) == Some(joined + close);
    ExpandLiteral(open, middle, values);
    assert open + holes + close == open + middle;
    assert open + (joined + close) == open + joined + close;
  }

  lemma ExpandArray(values: seq<string>)
    ensures Expand(ArrayOpen + Placeholders(|values|) + ArrayClose, values) ==
      Some(ArrayOpen + Join(MapStrings(Quote, values), ArraySeparator) + ArrayClose)
  {
    NoPlaceholderInFrame();
    ExpandFramed(ArrayOpen, ArrayClose, values);
  }

  /** One more placeholder at the end of a non-empty list costs a separator. */
  lemma PlaceholdersSnoc(n: nat)
    requires n > 0
    ensures Placeholders(n + 1) == Placeholders(n) + ArraySeparator + Placeholder
  {
    assert Repeat(Placeholder, n + 1) == Repeat(Placeholder, n) + [Placeholder];
    JoinSnoc(Repeat(Placeholder, n), Placeholder, ArraySeparator);
  }

  /** The initializers the unit tests of the generator utilities expect. */
  lemma ScalarTextExample()
    ensures ConstantText(["FIELD_VALUE"]) == "\"FIELD_VALUE\""
  {
  }

  lemma ArrayTextExample()
    ensures ConstantText(["FIELD_VALUE_1", "FIELD_VALUE_2"]) ==
      "new String[]{" + "\"FIELD_VALUE_1\"" + ", " + "\"FIELD_VALUE_2\"" + "};"
  {
    var quoted := MapStrings(Quote, ["FIELD_VALUE_1", "FIELD_VALUE_2"]);
    QuoteExamples();
    assert quoted == ["\"FIELD_VALUE_1\"", "\"FIELD_VALUE_2\""];
    assert quoted[1..] == ["\"FIELD_VALUE_2\""];
    assert Join(quoted, ArraySeparator) == quoted[0] + ArraySeparator + quoted[1];
  }

  lemma QuoteExamples()
    ensures Quote("FIELD_VALUE_1") == "\"FIELD_VALUE_1\""
    ensures Quote("FIELD_VALUE_2") == "\"FIELD_VALUE_2\""
  {
  }

  lemma EmptyArrayTextExample()
    ensures ConstantText([]) == "new String[]{};"
  {
  }
}

=== FILE: generator_utils.dfy ===
/** The generator utilities of the current lineage (`MultiDataSourceGeneratorUtils`). */
module GeneratorUtils {
  import opened Wrappers
  import opened FieldSpecs

  /**
   * `createConstantStringFieldSpec`: a `public static final` constant holding the values;
   * for other than exactly one value the format string is assembled placeholder by
   * placeholder.
   */
  method CreateConstantStringFieldSpec(fieldName: string, fieldValue: seq<string>)
    returns (f: FieldSpec)
    ensures f == ConstantStringField(fieldName, fieldValue)
    ensures f.name == fieldName && f.modifiers == ConstantModifiers
    ensures f.fieldType == StringType <==> |fieldValue| == 1
    ensures Expand(f.initializerFormat, f.initializerArgs) == Some(ConstantText(fieldValue))
  {
    if |fieldValue| == 1 {
      return FieldSpec(StringType, fieldName, ConstantModifiers, Placeholder, fieldValue);
    }
    var formatBuilder := ArrayOpen;
    for i := 0 to |fieldValue|
      invariant formatBuilder ==
        ArrayOpen + Placeholders(i) + (if 0 < i < |fieldValue| then ArraySeparator else "")
    {
      if i > 0 {
        PlaceholdersSnoc(i);
      }
      formatBuilder := formatBuilder + Placeholder;
      if i < |fieldValue| - 1 {
        formatBuilder := formatBuilder + ArraySeparator;
      }
    }
    formatBuilder := formatBuilder + ArrayClose;
    f := FieldSpec(StringArrayType, fieldName, ConstantModifiers, formatBuilder, fieldValue);
  }
}

=== FILE: java_model.dfy ===
/**
 * The parts of the Java language model (`javax.lang.model`) and of the JavaPoet code model
 * that the generators read and produce. Types are values: a JavaPoet `TypeName` is compared
 * structurally here.
 */
module JavaModel {

  /** A class or interface name: its package and its simple name. */
  datatype ClassName = ClassName(packageName: string, simpleName: string)

  /** The dotted name, as `getQualifiedName` returns it. */
  function QualifiedName(c: ClassName): (r: string)
    ensures c.packageName == [] ==> r == c.simpleName
    ensures c.packageName != [] ==> r == c.packageName + "." + c.simpleName
  {
    if c.packageName == [] then c.simpleName else c.packageName + "." + c.simpleName
  }

  /** JavaPoet's `TypeName` family, without wildcards. */
  datatype TypeName =
    | Primitive(keyword: string)
    | TypeVariable(name: string)
    | Declared(className: ClassName)
    | Parameterized(rawType: ClassName, typeArguments: seq<TypeName>)
    | ArrayOf(componentType: TypeName)

  datatype Modifier = Public | Protected | Private | Abstract | Default | Static | Final

  /** An annotation, identified by its type (member values are not modelled). */
  datatype Annotation = Annotation(annotationType: ClassName)

  /** A method parameter, both as an element and as a JavaPoet `ParameterSpec`. */
  datatype Parameter = Parameter(name: string, paramType: TypeName, annotations: seq<Annotation>)

  /**
   * A type variable with its bounds, as JavaPoet's `TypeVariableName` holds them: an implicit
   * `Object` bound is not listed, so `<S>` has no bounds and `<S extends T>` has `[T]`.
   */
  datatype TypeParameter = TypeParameter(name: string, bounds: seq<TypeName>)

  /** A method as the compiler presents it (`ExecutableElement`). */
  datatype ExecutableElement = ExecutableElement(
    name: string,
    modifiers: set<Modifier>,
    annotations: seq<Annotation>,
    parameters: seq<Parameter>,
    typeParameters: seq<TypeParameter>,
    returnType: TypeName,
    thrownTypes: seq<TypeName>,
    isVarArgs: bool)

  datatype ElementKind = Interface | Class | Enum | Record | AnnotationType

  /**
   * A class or interface (`TypeElement`): its formal type parameters, the interfaces it
   * extends or implements (with the type arguments it gives them) and the methods it
   * declares itself.
   */
  datatype TypeElement = TypeElement(
    className: ClassName,
    kind: ElementKind,
    typeParameters: seq<TypeParameter>,
    interfaces: seq<DeclaredType>,
    methods: seq<ExecutableElement>)

  /** A use of a class or interface with type arguments (`DeclaredType`). */
  datatype DeclaredType = DeclaredType(element: TypeElement, typeArguments: seq<TypeName>)

  /** `TypeName.get` of a declared type: parameterized exactly when it has type arguments. */
  function TypeNameOf(d: DeclaredType): (r: TypeName)
    ensures d.typeArguments == [] ==> r == Declared(d.element.className)
    ensures d.typeArguments != [] ==> r == Parameterized(d.element.className, d.typeArguments)
  {
    if d.typeArguments == [] then Declared(d.element.className)
    else Parameterized(d.element.className, d.typeArguments)
  }

  /** The statements of a generated method body. */
  datatype CodeBlock = NoCode | ThrowNew(exceptionType: ClassName, message: string)

  /** A generated method (JavaPoet `MethodSpec`). */
  datatype MethodSpec = MethodSpec(
    name: string,
    modifiers: set<Modifier>,
    annotations: seq<Annotation>,
    parameters: seq<Parameter>,
    typeVariables: seq<TypeParameter>,
    returnType: TypeName,
    exceptions: seq<TypeName>,
    varargs: bool,
    code: CodeBlock)

  const Override := ClassName("java.lang", "Override")
  const UnsupportedOperationException := ClassName("java.lang", "UnsupportedOperationException")
  const AnnotationsPackage := "io.github.dhi13man.spring.datasource.annotations"
  const TargetSecondaryDataSource := ClassName(AnnotationsPackage, "TargetSecondaryDataSource")
  const TargetSecondaryDataSources := ClassName(AnnotationsPackage, "TargetSecondaryDataSources")
  const IGeneratedDataSourceRepository :=
    ClassName("io.github.dhi13man.spring.datasource.config", "IGeneratedDataSourceRepository")
}

=== FILE: legacy_case_conversion.dfy ===
/**
 * The string utilities of the older lineage (`CommonStringUtils`). They differ from the
 * current ones in one place: a single word is split at the regex `[A-Z]`, which drops the
 * upper-case letters instead of keeping them as word starts.
 */
module LegacyCaseConversion {
  import opened Text
  import Runs
  import CaseConversion

  /** `splitByNonAlphaNumeric`: the same words as in the current lineage. */
  function SplitByNonAlphaNumeric(s: string): (r: seq<string>)
    ensures r == CaseConversion.SplitByNonAlphaNumericRemoved(s)
    ensures Concat(r) == Filter(s, IsAlphaNumeric)
  {
    Runs.Fragments(s, IsAlphaNumeric)
  }

  /**
   * `splitByCamelCase`: split at every upper-case letter and drop the empty pieces. The
   * pieces are the maximal runs without upper-case letters, so the upper-case letters
   * themselves are lost; there are no pieces exactly when every character is upper-case.
   */
  function SplitByCamelCase(s: string): (r: seq<string>)
    ensures forall i :: 0 <= i < |r| ==> Runs.IsRun(r[i], IsNotUpper)
    ensures Concat(r) == Filter(s, IsNotUpper)
    ensures r == [] <==> forall i :: 0 <= i < |s| ==> IsUpper(s[i])
    ensures r == Runs.MaximalRuns(s, IsNotUpper)
  {
    Runs.FragmentsAreMaximalRuns(s, IsNotUpper);
    Runs.RunsAreRuns(s, IsNotUpper);
    Runs.RunsConcat(s, IsNotUpper);
    Runs.RunsEmptyIff(s, IsNotUpper);
    Runs.Fragments(s, IsNotUpper)
  }

  /** `toPascalCase`: written exactly as in the current lineage, with the same result. */
  function ToPascalCase(input: string): (r: string)
    ensures r == CaseConversion.ToPascalCase(input)
  {
    var words := SplitByNonAlphaNumeric(input);
    if |words| == 1 then
      Capitalize(words[0])
    else
      Concat(CaseConversion.CapitalizeAll(words))
  }

  /** The words that `toSnakeCase` and `toKebabCase` join, lower-cased. */
  function LegacyWords(input: string): (r: seq<string>)
    ensures forall i :: 0 <= i < |r| ==> CaseConversion.IsLowerWord(r[i])
    ensures |SplitByNonAlphaNumeric(input)| != 1 ==> r == CaseConversion.CaseWords(input)
    ensures |SplitByNonAlphaNumeric(input)| == 1 ==>
      Concat(r) == Filter(SplitByNonAlphaNumeric(input)[0], IsNotUpper)
    ensures |SplitByNonAlphaNumeric(input)| == 1 ==>
      r == Runs.MaximalRuns(SplitByNonAlphaNumeric(input)[0], IsNotUpper)
  {
    var words := SplitByNonAlphaNumeric(input);
    if |words| == 1 then
      var pieces := SplitByCamelCase(words[0]);
      AlphaNumericPieces(words[0], pieces);
      CaseConversion.LowerWords(pieces);
      LowerIsIdentity(pieces);
      CaseConversion.LowerAll(pieces)
    else
      CaseConversion.LowerWords(words);
      CaseConversion.LowerAll(words)
  }

  lemma AlphaNumericPieces(w: string, pieces: seq<string>)
    requires Runs.IsRun(w, IsAlphaNumeric)
    requires forall i :: 0 <= i < |pieces| ==> Runs.IsRun(pieces[i], IsNotUpper)
    requires Concat(pieces) == Filter(w, IsNotUpper)
    ensures forall i :: 0 <= i < |pieces| ==> Runs.IsRun(pieces[i], IsAlphaNumeric)
  {
    forall i, j | 0 <= i < |pieces| && 0 <= j < |pieces[i]|
      ensures IsAlphaNumeric(pieces[i][j])
    {
      CaseConversion.InConcat(pieces, i, j);
    }
  }

  /** Words without upper-case letters are their own lower-case form. */
  lemma LowerIsIdentity(ws: seq<string>)
    requires forall i :: 0 <= i < |ws| ==> Runs.IsRun(ws[i], IsNotUpper)
    ensures CaseConversion.LowerAll(ws) == ws
  {
    forall i | 0 <= i < |ws|
      ensures Lower(ws[i]) == ws[i]
    {
    }
  }

  /**
   * `toSnakeCase`: well-formed snake_case; with zero or several words it agrees with the
   * current lineage, with a single word it keeps only the characters that are not
   * upper-case letters.
   */
  function ToSnakeCase(input: string): (r: string)
    ensures forall i :: 0 <= i < |r| ==> IsLower(r[i]) || IsDigit(r[i]) || r[i] == '_'
    ensures CaseConversion.IsDelimited(r, '_')
    ensures |SplitByNonAlphaNumeric(input)| != 1 ==> r == CaseConversion.ToSnakeCase(input)
    ensures |SplitByNonAlphaNumeric(input)| == 1 ==>
      Filter(r, IsAlphaNumeric) == Filter(SplitByNonAlphaNumeric(input)[0], IsNotUpper)
    ensures CaseConversion.SplitByNonAlphaNumericRemoved(r) == LegacyWords(input)
  {
    var words := SplitByNonAlphaNumeric(input);
    CaseConversion.JoinedWords(LegacyWords(input), '_');
    CaseConversion.FilterJoin(LegacyWords(input), '_');
    if |words| == 1 then
      Join(CaseConversion.LowerAll(SplitByCamelCase(words[0])), "_")
    else
      Join(CaseConversion.LowerAll(words), "_")
  }

  /** `toKebabCase`: the snake_case name with every `_` turned into `-`. */
  function ToKebabCase(input: string): (r: string)
    ensures CaseConversion.IsDelimited(r, '-')
    ensures r == Replace(ToSnakeCase(input), '_', '-')
  {
    var words := SplitByNonAlphaNumeric(input);
    CaseConversion.JoinedWords(LegacyWords(input), '-');
    ReplaceJoin(LegacyWords(input), '_', '-');
    if |words| == 1 then
      Join(CaseConversion.LowerAll(SplitByCamelCase(words[0])), "-")
    else
      Join(CaseConversion.LowerAll(words), "-")
  }

  /**
   * The upper-case letters of a single-word name are lost: "HelloWorld" becomes
   * "ello_orld", where the current lineage gives "hello_world".
   */
  lemma SnakeCaseDropsCapitals(name: string)
    requires name == "HelloWorld"
    ensures ToSnakeCase(name) == "ello_orld"
    ensures CaseConversion.ToSnakeCase(name) == "hello_world"
  {
    CaseConversion.SingleWordExample();
    CaseConversion.SnakeCaseExample(name);
    PiecesExample(name);
    JoinedPiecesExample();
  }

  lemma PiecesExample(name: string)
    requires name == "HelloWorld"
    ensures SplitByCamelCase(name) == ["ello", "orld"]
  {
    var gaps := ["H", "W", ""];
    var ps := ["ello", "orld"];
    assert Runs.Interleave(gaps, ps) == name;
    Runs.InterleaveRuns(gaps, ps, IsNotUpper);
    Runs.FragmentsAreMaximalRuns(name, IsNotUpper);
  }

  lemma JoinedPiecesExample()
    ensures Join(CaseConversion.LowerAll(["ello", "orld"]), "_") == "ello_orld"
  {
    LowerIsIdentity(["ello", "orld"]);
  }
}

=== FILE: legacy_config_generator.dfy ===
/**
 * The configuration class generator of the older lineage. It takes the master settings
 * rather than a per-data-source record, decides which configuration is the master by name,
 * refuses a properties path equal to the master's data source class properties prefix and a
 * data source class that is missing or not a `DataSource`, and builds the data source bean of
 * that configurable class.
 */
module LegacyConfigGenerator {
  import opened Wrappers
  import opened Text
  import opened JavaModel
  import opened FieldSpecs
  import opened ConfigModel
  import ConfigGenerator

  /** The settings this generator reads from the master `@EnableMultiDataSourceConfig`. */
  datatype MasterConfig = MasterConfig(
    masterDataSourceName: string,
    dataSourceClassPropertiesPrefix: string,
    dataSourceClassString: string,
    hibernateBeanContainerPropertyPath: string,
    generatedRepositoryPackagePrefix: string)

  /**
   * What the class path answers for the master's data source class name (`Class.forName`
   * followed by `isAssignableFrom`): no such class, a class that is not a `DataSource`, or a
   * `DataSource` implementation.
   */
  datatype ClassLookup = ClassNotFound | NotADataSource | DataSourceClass

  /**
   * The `IllegalArgumentException`s: a properties path equal to the master's prefix, a data
   * source class that cannot be found, and one that does not implement `DataSource`.
   */
  datatype ConfigError =
    | PropertiesPathClash(dataSourcePropertiesPath: string)
    | UnknownClass(classString: string)
    | InvalidDataSourceClass(classString: string)

  function DataSourcePropertiesBeanMethod(datasourcePropertiesPath: string, beanNameField: FieldSpec): BeanMethod
  {
    BeanMethod("dataSourceProperties",
      [BeanAnnotation(beanNameField.name), ConfigurationProperties(datasourcePropertiesPath)],
      {Public}, "DataSourceProperties", [], NewDataSourceProperties)
  }

  function DataSourceBeanMethod(dataSourceClassPropertiesPrefix: string, dataSourceClass: string,
                                beanNameField: FieldSpec, propertiesBeanNameField: FieldSpec): BeanMethod
  {
    BeanMethod("dataSource",
      [BeanAnnotation(beanNameField.name), ConfigurationProperties(dataSourceClassPropertiesPrefix)],
      {Public}, dataSourceClass,
      [BeanParameter("dataSourceProperties", "DataSourceProperties", Some(propertiesBeanNameField.name))],
      BuildDataSource(Some(dataSourceClass)))
  }

  function EntityManagerFactoryBeanMethod(hibernateBeanContainerPropertyPath: string, entityPackagesField: FieldSpec,
                                          beanNameField: FieldSpec, dataSourceBeanNameField: FieldSpec): BeanMethod
  {
    BeanMethod("entityManagerFactory",
      [BeanAnnotation(beanNameField.name)],
      {Public}, "LocalContainerEntityManagerFactoryBean",
      [BeanParameter("builder", "EntityManagerFactoryBuilder", None),
       BeanParameter("beanFactory", "ConfigurableListableBeanFactory", None),
       BeanParameter("dataSource", "DataSource", Some(dataSourceBeanNameField.name))],
      BuildEntityManagerFactory(entityPackagesField.name, dataSourceBeanNameField.name,
                                hibernateBeanContainerPropertyPath))
  }

  function TransactionManagerBeanMethod(beanNameField: FieldSpec, entityManagerFactoryBeanNameField: FieldSpec): BeanMethod
  {
    BeanMethod("transactionManager",
      [BeanAnnotation(beanNameField.name)],
      {Public}, "PlatformTransactionManager",
      [BeanParameter("entityManagerFactory", "EntityManagerFactory", Some(entityManagerFactoryBeanNameField.name))],
      NewTransactionManager)
  }

  /** The four bean methods, each `@Primary` on the master configuration. */
  function ConfigMethods(masterAnnotation: MasterConfig, dataSourcePropertiesPath: string, isMasterConfig: bool,
                         fields: seq<FieldSpec>): (ms: seq<BeanMethod>)
    requires |fields| == 5
    ensures |ms| == 4
  {
    [ConfigGenerator.AddPrimaryAnnotationIfPrimaryConfigAndBuild(
       DataSourcePropertiesBeanMethod(dataSourcePropertiesPath, fields[0]), isMasterConfig),
     ConfigGenerator.AddPrimaryAnnotationIfPrimaryConfigAndBuild(
       DataSourceBeanMethod(masterAnnotation.dataSourceClassPropertiesPrefix, masterAnnotation.dataSourceClassString,
                            fields[1], fields[0]), isMasterConfig),
     ConfigGenerator.AddPrimaryAnnotationIfPrimaryConfigAndBuild(
       EntityManagerFactoryBeanMethod(masterAnnotation.hibernateBeanContainerPropertyPath, fields[4],
                                      fields[2], fields[1]), isMasterConfig),
     ConfigGenerator.AddPrimaryAnnotationIfPrimaryConfigAndBuild(
       TransactionManagerBeanMethod(fields[3], fields[2]), isMasterConfig)]
  }

  /**
   * `generateMultiDataSourceConfig`: fails when the properties path is the master's data
   * source class properties prefix, and otherwise when the master's data source class is not
   * a `DataSource` found on the class path (`lookup` is what the class path answers for it);
   * otherwise a public class of the given name, with the same five constants as the current
   * generator and four bean methods, implementing nothing.
   */
  function GenerateMultiDataSourceConfig(
    masterAnnotation: MasterConfig,
    dataSourceName: string,
    dataSourceConfigClassName: string,
    dataSourcePropertiesPath: string,
    dataSourceRepositoryPackages: seq<string>,
    dataSourceEntityPackages: seq<string>,
    lookup: ClassLookup): (r: Result<ConfigClass, ConfigError>)
    ensures r.Err? <==> dataSourcePropertiesPath == masterAnnotation.dataSourceClassPropertiesPrefix ||
                        lookup != DataSourceClass
    ensures dataSourcePropertiesPath == masterAnnotation.dataSourceClassPropertiesPrefix ==>
              r == Err(PropertiesPathClash(dataSourcePropertiesPath))
    ensures dataSourcePropertiesPath != masterAnnotation.dataSourceClassPropertiesPrefix ==>
              (lookup == ClassNotFound ==> r == Err(UnknownClass(masterAnnotation.dataSourceClassString))) &&
              (lookup == NotADataSource ==> r == Err(InvalidDataSourceClass(masterAnnotation.dataSourceClassString)))
    ensures r.Ok? ==> r.value.name == dataSourceConfigClassName && r.value.modifiers == {Public} &&
                      r.value.superinterfaces == [] &&
                      r.value.fields == ConfigGenerator.ConfigFields(dataSourceName, dataSourceEntityPackages)
  {
    if dataSourcePropertiesPath == masterAnnotation.dataSourceClassPropertiesPrefix then
      Err(PropertiesPathClash(dataSourcePropertiesPath))
    else
      match lookup
      case ClassNotFound => Err(UnknownClass(masterAnnotation.dataSourceClassString))
      case NotADataSource => Err(InvalidDataSourceClass(masterAnnotation.dataSourceClassString))
      case DataSourceClass =>
        var fields := ConfigGenerator.ConfigFields(dataSourceName, dataSourceEntityPackages);
        var isMasterConfig := dataSourceName == masterAnnotation.masterDataSourceName;
        var enableJpaRepositories := EnableJpaRepositories(
          ConfigGenerator.StringArrayToGeneratedStringArray(dataSourceRepositoryPackages),
          ConstantReference(dataSourceConfigClassName, fields[2].name),
          ConstantReference(dataSourceConfigClassName, fields[3].name),
          if isMasterConfig then Some(masterAnnotation.generatedRepositoryPackagePrefix) else None);
        Ok(ConfigClass(dataSourceConfigClassName, {Public}, [], enableJpaRepositories, fields,
                       ConfigMethods(masterAnnotation, dataSourcePropertiesPath, isMasterConfig, fields)))
  }

  /**
   * The configuration of the data source named as master, and only it, marks all four beans
   * `@Primary` and excludes the master's generated-repository prefix from its scan.
   */
  lemma MasterConfigBeans(
    master: MasterConfig, name: string, className: string, path: string,
    repositoryPackages: seq<string>, entityPackages: seq<string>)
    requires path != master.dataSourceClassPropertiesPrefix
    ensures var r := GenerateMultiDataSourceConfig(master, name, className, path, repositoryPackages, entityPackages, DataSourceClass);
      (forall i :: 0 <= i < |r.value.methods| ==>
         (IsPrimaryBean(r.value.methods[i]) <==> name == master.masterDataSourceName)) &&
      r.value.enableJpaRepositories.excludeFilterPattern ==
        (if name == master.masterDataSourceName then Some(master.generatedRepositoryPackagePrefix) else None)
  {
    var fields := ConfigGenerator.ConfigFields(name, entityPackages);
    var isMasterConfig := name == master.masterDataSourceName;
    var r := GenerateMultiDataSourceConfig(master, name, className, path, repositoryPackages, entityPackages, DataSourceClass);
    assert r.value.methods == ConfigMethods(master, path, isMasterConfig, fields);
    ConfigMethodsPrimary(master, path, isMasterConfig, fields);
  }

  /** None of the four unannotated bean methods is `@Primary` before the master check. */
  lemma ConfigMethodsPrimary(master: MasterConfig, path: string, isMasterConfig: bool, fields: seq<FieldSpec>)
    requires |fields| == 5
    ensures var ms := ConfigMethods(master, path, isMasterConfig, fields);
      forall i :: 0 <= i < 4 ==> (IsPrimaryBean(ms[i]) <==> isMasterConfig)
  {
    assert !IsPrimaryBean(DataSourcePropertiesBeanMethod(path, fields[0]));
    assert !IsPrimaryBean(DataSourceBeanMethod(master.dataSourceClassPropertiesPrefix,
                                               master.dataSourceClassString, fields[1], fields[0]));
    assert !IsPrimaryBean(EntityManagerFactoryBeanMethod(master.hibernateBeanContainerPropertyPath, fields[4],
                                                         fields[2], fields[1]));
    assert !IsPrimaryBean(TransactionManagerBeanMethod(fields[3], fields[2]));
  }

  /** The i-th bean method carries `@Bean` naming the i-th constant, and no other `@Bean`. */
  lemma {:induction false} ConfigMethodBeans(master: MasterConfig, path: string, isMasterConfig: bool, fields: seq<FieldSpec>, i: nat)
    requires |fields| == 5 && i < 4
    ensures BeanConstants(ConfigMethods(master, path, isMasterConfig, fields)[i]) == {fields[i].name}
  {
    var ms := ConfigMethods(master, path, isMasterConfig, fields);
    if i == 0 {
      assert ms[0] == ConfigGenerator.AddPrimaryAnnotationIfPrimaryConfigAndBuild(
        DataSourcePropertiesBeanMethod(path, fields[0]), isMasterConfig);
      ConfigGenerator.SingleBean(ms[0], fields[0].name);
    } else if i == 1 {
      assert ms[1] == ConfigGenerator.AddPrimaryAnnotationIfPrimaryConfigAndBuild(
        DataSourceBeanMethod(master.dataSourceClassPropertiesPrefix, master.dataSourceClassString,
                             fields[1], fields[0]), isMasterConfig);
      ConfigGenerator.SingleBean(ms[1], fields[1].name);
    } else if i == 2 {
      assert ms[2] == ConfigGenerator.AddPrimaryAnnotationIfPrimaryConfigAndBuild(
        EntityManagerFactoryBeanMethod(master.hibernateBeanContainerPropertyPath, fields[4],
                                       fields[2], fields[1]), isMasterConfig);
      ConfigGenerator.SingleBean(ms[2], fields[2].name);
    } else {
      assert ms[3] == ConfigGenerator.AddPrimaryAnnotationIfPrimaryConfigAndBuild(
        TransactionManagerBeanMethod(fields[3], fields[2]), isMasterConfig);
      ConfigGenerator.SingleBean(ms[3], fields[3].name);
    }
  }

  /**
   * As in the current generator, the constants hold the data source's four bean names and its
   * entity packages, and the i-th bean method is the bean the i-th constant names.
   */
  lemma LegacyConfigBeanNames(
    master: MasterConfig, name: string, className: string, path: string,
    repositoryPackages: seq<string>, entityPackages: seq<string>, i: nat)
    requires path != master.dataSourceClassPropertiesPrefix && i < 4
    ensures var r := GenerateMultiDataSourceConfig(master, name, className, path, repositoryPackages, entityPackages, DataSourceClass);
      BeanConstants(r.value.methods[i]) == {ConstantName(Beans[i])} &&
      ConstantValue(r.value, ConstantName(Beans[i])) == Some(Quote(BeanName(name, Beans[i]))) &&
      ConstantValue(r.value, EntityPackagesConstantName) == Some(ConstantText(entityPackages))
  {
    var c := GenerateMultiDataSourceConfig(master, name, className, path, repositoryPackages, entityPackages, DataSourceClass).value;
    ConfigGenerator.ConfigFieldNames(name, entityPackages);
    ConfigGenerator.ConfigFieldValues(name, entityPackages, i);
    ConfigMethodBeans(master, path, name == master.masterDataSourceName, c.fields, i);
  }

  /**
   * The repository scan covers exactly the given packages, as a literal of quoted values; the
   * data source bean reads the master's class properties prefix and builds the master's data
   * source class.
   */
  lemma LegacyConfigProperties(
    master: MasterConfig, name: string, className: string, path: string,
    repositoryPackages: seq<string>, entityPackages: seq<string>)
    requires path != master.dataSourceClassPropertiesPrefix
    ensures var r := GenerateMultiDataSourceConfig(master, name, className, path, repositoryPackages, entityPackages, DataSourceClass);
      r.value.enableJpaRepositories.basePackages == "{" + Join(MapStrings(Quote, repositoryPackages), ",") + "}" &&
      ConfigurationProperties(path) in r.value.methods[0].annotations &&
      ConfigurationProperties(master.dataSourceClassPropertiesPrefix) in r.value.methods[1].annotations &&
      r.value.methods[1].returnType == master.dataSourceClassString
  {
    var c := GenerateMultiDataSourceConfig(master, name, className, path, repositoryPackages, entityPackages, DataSourceClass).value;
    assert c.methods[0].annotations[1] == ConfigurationProperties(path);
    assert c.methods[1].annotations[1] == ConfigurationProperties(master.dataSourceClassPropertiesPrefix);
    ConfigGenerator.GeneratedStringArrayQuotesEach(repositoryPackages);
  }
}

=== FILE: legacy_generator_utils.dfy ===
/** The generator utilities of the older lineage (a static `MultiDataSourceGeneratorUtils`). */
module LegacyGeneratorUtils {
  import opened Wrappers
  import opened FieldSpecs

  /**
   * `createConstantStringFieldSpec`: a `public static final` constant holding the values;
   * for other than exactly one value the format string is assembled placeholder by
   * placeholder.
   */
  method CreateConstantStringFieldSpec(fieldName: string, fieldValue: seq<string>)
    returns (f: FieldSpec)
    ensures f == ConstantStringField(fieldName, fieldValue)
    ensures f.name == fieldName && f.modifiers == ConstantModifiers
    ensures f.fieldType == StringType <==> |fieldValue| == 1
    ensures Expand(f.initializerFormat, f.initializerArgs) == Some(ConstantText(fieldValue))
  {
    if |fieldValue| == 1 {
      return FieldSpec(StringType, fieldName, ConstantModifiers, Placeholder, fieldValue);
    }
    var formatBuilder := ArrayOpen;
    for i := 0 to |fieldValue|
      invariant formatBuilder ==
        ArrayOpen + Placeholders(i) + (if 0 < i < |fieldValue| then ArraySeparator else "")
    {
      if i > 0 {
        PlaceholdersSnoc(i);
      }
      formatBuilder := formatBuilder + Placeholder;
      if i < |fieldValue| - 1 {
        formatBuilder := formatBuilder + ArraySeparator;
      }
    }
    formatBuilder := formatBuilder + ArrayClose;
    f := FieldSpec(StringArrayType, fieldName, ConstantModifiers, formatBuilder, fieldValue);
  }
}

=== FILE: multi_processor.dfy ===
/**
 * `MultiDataSourceAnnotationProcessor`: one `@EnableMultiDataSourceConfig` lists every data
 * source; the processor generates a configuration class for each of them and, for each
 * secondary data source that repository methods are tagged with (`@TargetDataSource`), copies
 * of those repositories in a package of its own.
 */
module MultiProcessor {
  import opened Wrappers
  import opened Text
  import opened JavaModel
  import opened ConfigModel
  import opened Partitioning
  import opened RepositoryGenerator
  import opened Processing
  import CaseConversion
  import ConfigGenerator
  import opened FieldSpecs

  /** The settings of `@EnableMultiDataSourceConfig` this processor reads. */
  datatype EnableMultiDataSourceConfig = EnableMultiDataSourceConfig(
    dataSourceConfigs: seq<DataSourceConfig>,
    datasourcePropertiesPrefix: string,
    repositoryPackages: seq<string>,
    exactEntityPackages: seq<string>,
    generatedConfigPackage: string,
    generatedRepositoryPackagePrefix: string)

  /** The class carrying the annotation: its package and the annotation. */
  datatype AnnotatedElement = AnnotatedElement(packageName: string, annotation: EnableMultiDataSourceConfig)

  const ConfigPackageSuffix := ".config"
  const RepositoriesPackageSuffix := ".repositories"
  const JpaRepositoryInterfaceName := "JpaRepository"

  // ---------------------------------------------------------------------------------------
  // The primary data source

  /** The configurations marked primary, in order. */
  function Primaries(configs: seq<DataSourceConfig>): (r: seq<DataSourceConfig>)
    ensures |r| <= |configs|
    ensures forall c :: c in r <==> c in configs && c.isPrimary
  {
    if configs == [] then []
    else (if configs[0].isPrimary then [configs[0]] else []) + Primaries(configs[1..])
  }

  /**
   * `validateAndGetPrimaryDataSourceConfig`: the one configuration marked primary; with none
   * or several, an error carrying how many are marked.
   */
  function ValidateAndGetPrimaryDataSourceConfig(configs: seq<DataSourceConfig>): (r: Result<DataSourceConfig, ProcessorError>)
    ensures r.Ok? <==> |Primaries(configs)| == 1
    ensures r.Err? ==> r.error == NotOnePrimary(|Primaries(configs)|)
    ensures r.Err? && r.error.count == 0 <==> forall c :: c in configs ==> !c.isPrimary
    ensures r.Ok? ==> r.value in configs && r.value.isPrimary &&
                      forall c :: c in configs && c.isPrimary ==> c == r.value
  {
    var primaryDataSourceConfigs := Primaries(configs);
    if |primaryDataSourceConfigs| == 0 then
      Err(NotOnePrimary(0))
    else if |primaryDataSourceConfigs| != 1 then
      assert primaryDataSourceConfigs[0] in primaryDataSourceConfigs;
      Err(NotOnePrimary(|primaryDataSourceConfigs|))
    else
      assert primaryDataSourceConfigs[0] in primaryDataSourceConfigs;
      Ok(primaryDataSourceConfigs[0])
  }

  // ---------------------------------------------------------------------------------------
  // Derived packages

  /** The prefix of the generated repository packages: the setting, or `<package>.repositories`. */
  function GeneratedRepositoryPackagePrefix(annotation: EnableMultiDataSourceConfig, elementPackage: string): string
  {
    OrDefault(annotation.generatedRepositoryPackagePrefix, elementPackage + RepositoriesPackageSuffix)
  }

  /** The package of the generated configuration classes: the setting, or `<package>.config`. */
  function GeneratedConfigPackage(annotation: EnableMultiDataSourceConfig, elementPackage: string): string
  {
    OrDefault(annotation.generatedConfigPackage, elementPackage + ConfigPackageSuffix)
  }

  /** The package the repository copies of a secondary data source are written to. */
  function RepositorySubPackage(annotation: EnableMultiDataSourceConfig, elementPackage: string,
                                dataSourceName: string): string
  {
    SubPackage(GeneratedRepositoryPackagePrefix(annotation, elementPackage), dataSourceName)
  }

  /**
   * The repository packages a configuration scans, as the code computes them: the global
   * list for the primary, and for a secondary the RAW prefix setting followed by the
   * snake_case name, even when that setting is empty.
   */
  function RepositoryPackagesAsWritten(config: DataSourceConfig, annotation: EnableMultiDataSourceConfig): seq<string>
  {
    if config.isPrimary then annotation.repositoryPackages
    else [annotation.generatedRepositoryPackagePrefix + "." + CaseConversion.ToSnakeCase(config.dataSourceName)]
  }

  lemma BlankPrefixDiffers(raw: string, elementPackage: string, tail: string)
    requires !HasText(raw)
    ensures raw + tail != elementPackage + RepositoriesPackageSuffix + tail
  {
    var scanned := raw + tail;
    var written := elementPackage + RepositoriesPackageSuffix + tail;
    if |scanned| == |written| {
      var k := |elementPackage| + 1;
      assert written[k] == RepositoriesPackageSuffix[1] == 'r';
      assert scanned[k] == raw[k];
      assert IsWhitespace(raw[k]);
      assert scanned[k] != written[k];
    }
  }

  /**
   * With the prefix setting left empty (its default) or blank, the package a secondary
   * configuration scans, as written, is not the package its repositories are written to.
   */
  lemma AsWrittenScanMissesRepositories(config: DataSourceConfig, annotation: EnableMultiDataSourceConfig,
                                        elementPackage: string)
    requires !config.isPrimary && !HasText(annotation.generatedRepositoryPackagePrefix)
    ensures RepositorySubPackage(annotation, elementPackage, config.dataSourceName)
              !in RepositoryPackagesAsWritten(config, annotation)
  {
    var raw := annotation.generatedRepositoryPackagePrefix;
    var snake := CaseConversion.ToSnakeCase(config.dataSourceName);
    var tail := "." + snake;
    assert raw + "." + snake == raw + tail;
    assert RepositorySubPackage(annotation, elementPackage, config.dataSourceName) ==
      elementPackage + RepositoriesPackageSuffix + tail;
    assert RepositoryPackagesAsWritten(config, annotation) == [raw + tail];
    BlankPrefixDiffers(raw, elementPackage, tail);
  }

  /**
   * The repository packages a configuration scans, corrected: for a secondary, the package
   * its repository copies are written to.
   */
  function RepositoryPackages(config: DataSourceConfig, annotation: EnableMultiDataSourceConfig,
                              elementPackage: string): (r: seq<string>)
    ensures !config.isPrimary ==> r == [RepositorySubPackage(annotation, elementPackage, config.dataSourceName)]
    ensures HasText(annotation.generatedRepositoryPackagePrefix) ==> r == RepositoryPackagesAsWritten(config, annotation)
  {
    if config.isPrimary then annotation.repositoryPackages
    else [RepositorySubPackage(annotation, elementPackage, config.dataSourceName)]
  }

  // ---------------------------------------------------------------------------------------
  // One configuration class

  /** What `createDataSourceConfigurationClass` hands the generator, and the target package. */
  datatype ConfigRequest = ConfigRequest(
    config: DataSourceConfig,
    className: string,
    propertiesPath: string,
    repositoryPackages: seq<string>,
    entityPackages: set<string>,
    generatedRepositoryPackagePrefix: string,
    configPackage: string)

  /**
   * The checks and derivations of `createDataSourceConfigurationClass`: the global exact
   * entity packages must be distinct (`Set.of`), together with the extras they must not be
   * empty, and the repository packages must not be empty (which only the primary's global
   * list can be). `ConfigRequestForSpec` states what it computes. A secondary's repository
   * packages are the corrected `RepositoryPackages`; `RequestScansAsWritten` shows that they
   * are the code's own whenever the prefix setting has text.
   */
  function ConfigRequestFor(config: DataSourceConfig, annotation: EnableMultiDataSourceConfig,
                            elementPackage: string, extraEntityPackages: set<string>): Result<ConfigRequest, ProcessorError>
  {
    match SetOf(annotation.exactEntityPackages)
    case Err(e) => Err(e)
    case Ok(exact) =>
      var entityPackages := exact + extraEntityPackages;
      var repositoryPackages := RepositoryPackages(config, annotation, elementPackage);
      if entityPackages == {} then Err(NoEntityPackages)
      else if repositoryPackages == [] then Err(NoRepositoryPackages)
      else Ok(ConfigRequest(
        config,
        DataSourceConfigClassName(config.dataSourceName),
        DataSourcePropertiesPath(annotation.datasourcePropertiesPrefix, config.dataSourceName),
        repositoryPackages,
        entityPackages,
        GeneratedRepositoryPackagePrefix(annotation, elementPackage),
        GeneratedConfigPackage(annotation, elementPackage)))
  }

  /**
   * The checks of `createDataSourceConfigurationClass`, both ways: a `Set.of` error is passed
   * on; otherwise the request fails exactly when no entity package is left or a primary has
   * no repository packages, and a request carries the derived names and packages.
   */
  lemma ConfigRequestForSpec(config: DataSourceConfig, annotation: EnableMultiDataSourceConfig,
                             elementPackage: string, extraEntityPackages: set<string>)
    ensures var r := ConfigRequestFor(config, annotation, elementPackage, extraEntityPackages);
      var exact := annotation.exactEntityPackages;
      (SetOf(exact).Err? ==> r == Err(SetOf(exact).error)) &&
      (r.Ok? <==> Processing.Distinct(exact) && (set p | p in exact) + extraEntityPackages != {} &&
                  (config.isPrimary ==> annotation.repositoryPackages != [])) &&
      (r.Err? && Processing.Distinct(exact) ==>
         (r.error == NoEntityPackages <==> (set p | p in exact) + extraEntityPackages == {}) &&
         (r.error == NoRepositoryPackages ==> config.isPrimary)) &&
      (r.Ok? ==> r.value.config == config &&
                 r.value.entityPackages == (set p | p in exact) + extraEntityPackages &&
                 r.value.className == DataSourceConfigClassName(config.dataSourceName) &&
                 r.value.propertiesPath == DataSourcePropertiesPath(annotation.datasourcePropertiesPrefix, config.dataSourceName) &&
                 r.value.repositoryPackages == RepositoryPackages(config, annotation, elementPackage) &&
                 r.value.generatedRepositoryPackagePrefix == GeneratedRepositoryPackagePrefix(annotation, elementPackage) &&
                 r.value.configPackage == GeneratedConfigPackage(annotation, elementPackage))
  {
    SetOfSpec(annotation.exactEntityPackages);
  }

  /**
   * When the generated-repository prefix setting has text, a request scans exactly the
   * packages the code passes, so every configuration built from it is the code's own.
   */
  lemma RequestScansAsWritten(config: DataSourceConfig, annotation: EnableMultiDataSourceConfig,
                              elementPackage: string, extraEntityPackages: set<string>)
    requires HasText(annotation.generatedRepositoryPackagePrefix)
    requires ConfigRequestFor(config, annotation, elementPackage, extraEntityPackages).Ok?
    ensures ConfigRequestFor(config, annotation, elementPackage, extraEntityPackages).value.repositoryPackages ==
              RepositoryPackagesAsWritten(config, annotation)
  {
    ConfigRequestForSpec(config, annotation, elementPackage, extraEntityPackages);
  }

  /**
   * A configuration class written by the round, as the generator's inputs: the request and
   * the order the hash set of entity packages came out in. The class itself is
   * `GenerateConfig` of them, written to the request's configuration package.
   */
  datatype ConfigFile = ConfigFile(request: ConfigRequest, entityPackages: seq<string>)

  /** The class the generator makes of a request, with the entity packages in a given order. */
  function GenerateConfig(request: ConfigRequest, entityPackages: seq<string>): ConfigClass
  {
    ConfigGenerator.GenerateMultiDataSourceConfigTypeElement(
      request.config, request.config.dataSourceName, request.className, request.propertiesPath,
      request.repositoryPackages, entityPackages, request.generatedRepositoryPackagePrefix)
  }

  /** The file is the request's class, with its entity packages in one of the possible orders. */
  ghost predicate ConfigFileFor(request: ConfigRequest, file: ConfigFile)
  {
    file.request == request && Enumerates(file.entityPackages, request.entityPackages)
  }

  /**
   * Corrected, a secondary configuration's `@EnableJpaRepositories` scans exactly the package
   * its repository copies are written to, whatever order the entity packages come in.
   */
  lemma SecondaryScansItsRepositories(config: DataSourceConfig, annotation: EnableMultiDataSourceConfig,
                                      elementPackage: string, extras: set<string>, entityPackages: seq<string>)
    requires !config.isPrimary && ConfigRequestFor(config, annotation, elementPackage, extras).Ok?
    ensures var request := ConfigRequestFor(config, annotation, elementPackage, extras).value;
      GenerateConfig(request, entityPackages).enableJpaRepositories.basePackages ==
        "{" + Quote(RepositorySubPackage(annotation, elementPackage, config.dataSourceName)) + "}"
  {
    var request := ConfigRequestFor(config, annotation, elementPackage, extras).value;
    var p := RepositorySubPackage(annotation, elementPackage, config.dataSourceName);
    ConfigGenerator.GeneratedStringArrayQuotesEach([p]);
    assert MapStrings(Quote, [p]) == [Quote(p)];
  }

  /**
   * `createDataSourceConfigurationClass`: fails as its checks say; otherwise the generated
   * class, written to the configuration package.
   */
  method CreateDataSourceConfigurationClass(config: DataSourceConfig, annotation: EnableMultiDataSourceConfig,
                                            elementPackage: string, extraEntityPackages: set<string>)
    returns (r: Result<ConfigFile, ProcessorError>)
    ensures r.Ok? <==> ConfigRequestFor(config, annotation, elementPackage, extraEntityPackages).Ok?
    ensures r.Err? ==> r.error == ConfigRequestFor(config, annotation, elementPackage, extraEntityPackages).error
    ensures r.Ok? ==> ConfigFileFor(ConfigRequestFor(config, annotation, elementPackage, extraEntityPackages).value, r.value)
  {
    var request := ConfigRequestFor(config, annotation, elementPackage, extraEntityPackages);
    if request.Err? {
      return Err(request.error);
    }
    var entityPackages := ToArray(request.value.entityPackages);
    r := Ok(ConfigFile(request.value, entityPackages));
  }

  // ---------------------------------------------------------------------------------------
  // Entity packages of the repositories

  /** The class a type argument names, when it is a declared type. */
  function EntityClass(t: TypeName): (r: Option<ClassName>)
    ensures r.Some? <==> t.Declared? || t.Parameterized?
  {
    match t
    case Declared(c) => Some(c)
    case Parameterized(raw, _) => Some(raw)
    case _ => None
  }

  /**
   * `getJpaRepositoryEntityPackage`: the first interface must be `JpaRepository` and carry
   * type arguments; the package of the entity, its first argument, is the result.
   */
  function GetJpaRepositoryEntityPackage(typeElement: TypeElement): (r: Result<string, ProcessorError>)
    ensures r.Ok? <==>
      |typeElement.interfaces| > 0 &&
      typeElement.interfaces[0].element.className.simpleName == JpaRepositoryInterfaceName &&
      |typeElement.interfaces[0].typeArguments| > 0 &&
      EntityClass(typeElement.interfaces[0].typeArguments[0]).Some?
    ensures r.Err? ==> r.error in {NotJpaRepository(typeElement.className.simpleName),
                                   MissingEntityTypeArguments(typeElement.className.simpleName),
                                   EntityNotDeclared(typeElement.className.simpleName)}
    ensures r.Err? && r.error.NotJpaRepository? <==>
      |typeElement.interfaces| == 0 ||
      typeElement.interfaces[0].element.className.simpleName != JpaRepositoryInterfaceName
    ensures r.Ok? ==> r.value == EntityClass(typeElement.interfaces[0].typeArguments[0]).value.packageName
  {
    var interfaceList := typeElement.interfaces;
    if |interfaceList| == 0 || interfaceList[0].element.className.simpleName != JpaRepositoryInterfaceName then
      Err(NotJpaRepository(typeElement.className.simpleName))
    else if |interfaceList[0].typeArguments| == 0 then
      Err(MissingEntityTypeArguments(typeElement.className.simpleName))
    else
      match EntityClass(interfaceList[0].typeArguments[0])
      case None => Err(EntityNotDeclared(typeElement.className.simpleName))
      case Some(entity) => Ok(entity.packageName)
  }

  /** The entity packages of the repositories, when every one of them has one. */
  function EntityPackagesOf(repositories: set<TypeElement>): set<string>
  {
    set repository | repository in repositories && GetJpaRepositoryEntityPackage(repository).Ok? ::
      GetJpaRepositoryEntityPackage(repository).value
  }

  /**
   * The entity packages of a data source's repositories, taken in hash order: the first
   * repository without one aborts with its error.
   */
  method CollectEntityPackages(repositories: set<TypeElement>) returns (r: Result<set<string>, ProcessorError>)
    ensures r.Ok? <==> forall repository :: repository in repositories ==> GetJpaRepositoryEntityPackage(repository).Ok?
    ensures r.Ok? ==> r.value == EntityPackagesOf(repositories)
    ensures r.Err? ==> exists repository :: repository in repositories &&
                         GetJpaRepositoryEntityPackage(repository) == Err(r.error)
  {
    var packages: set<string> := {};
    var remaining := repositories;
    while remaining != {}
      invariant remaining <= repositories
      invariant forall repository :: repository in repositories - remaining ==>
                  GetJpaRepositoryEntityPackage(repository).Ok?
      invariant packages == EntityPackagesOf(repositories - remaining)
      decreases remaining
    {
      var typeElement :| typeElement in remaining;
      var entityPackage := GetJpaRepositoryEntityPackage(typeElement);
      if entityPackage.Err? {
        return Err(entityPackage.error);
      }
      ghost var done := repositories - remaining;
      assert EntityPackagesOf(done + {typeElement}) == EntityPackagesOf(done) + {entityPackage.value};
      packages := packages + {entityPackage.value};
      remaining := remaining - {typeElement};
      assert repositories - remaining == done + {typeElement};
    }
    assert repositories - remaining == repositories;
    return Ok(packages);
  }

  // ---------------------------------------------------------------------------------------
  // Tag grouping

  /**
   * `createDataSourceToTargetRepositoryMethodMap`: the methods grouped by tag, refused when
   * some tag has no configuration among the secondaries; the error lists those tags.
   */
  method CreateDataSourceToTargetRepositoryMethodMap(methods: set<TaggedMethod>,
                                                     dataSourceConfigMap: map<string, DataSourceConfig>)
    returns (r: Result<map<string, set<TaggedMethod>>, ProcessorError>)
    ensures r.Ok? <==> Groups(methods).Keys <= dataSourceConfigMap.Keys
    ensures r.Ok? ==> r.value == Groups(methods)
    ensures r.Err? ==> r.error == NoConfigFound(Groups(methods).Keys - dataSourceConfigMap.Keys)
  {
    var targetDataSourceAnnotatedMethodMap := Partitioning.CreateDataSourceToTargetRepositoryMethodMap(methods);
    var dataSourcesWithoutConfig := targetDataSourceAnnotatedMethodMap.Keys - dataSourceConfigMap.Keys;
    if dataSourcesWithoutConfig != {} {
      return Err(NoConfigFound(dataSourcesWithoutConfig));
    }
    assert forall t :: t in targetDataSourceAnnotatedMethodMap ==> t !in dataSourcesWithoutConfig;
    return Ok(targetDataSourceAnnotatedMethodMap);
  }

  // ---------------------------------------------------------------------------------------
  // The round

  /**
   * The secondary configurations under their names: every configuration but the primary one.
   * With distinct names, one configuration per name.
   */
  function SecondaryConfigs(configs: seq<DataSourceConfig>, primaryName: string): (m: map<string, DataSourceConfig>)
    requires NamesDistinct(configs)
    ensures forall c :: c in configs && c.dataSourceName != primaryName ==> c.dataSourceName in m && m[c.dataSourceName] == c
    ensures forall n :: n in m ==> n != primaryName && m[n] in configs && m[n].dataSourceName == n
  {
    map c | c in configs && c.dataSourceName != primaryName :: c.dataSourceName := c
  }

  /** The configuration map without the primary's entry is the secondary configurations. */
  lemma SecondaryMapIsSecondaryConfigs(configs: seq<DataSourceConfig>, primaryName: string,
                                       configMap: map<string, DataSourceConfig>)
    requires NamesDistinct(configs)
    requires configMap.Keys == (set c | c in configs :: c.dataSourceName)
    requires forall c :: c in configs ==> configMap[c.dataSourceName] == c
    ensures configMap - {primaryName} == SecondaryConfigs(configs, primaryName)
  {
    var m := SecondaryConfigs(configs, primaryName);
    forall n | n in configMap - {primaryName}
      ensures n in m && m[n] == configMap[n]
    {
      var c :| c in configs && c.dataSourceName == n;
      assert configMap[n] == c;
    }
  }

  /** What the round has fixed once the primary configuration is written. */
  datatype Round = Round(
    annotation: EnableMultiDataSourceConfig,
    elementPackage: string,
    secondaries: map<string, DataSourceConfig>,
    groups: map<string, set<TaggedMethod>>,
    sameType: SameType)

  /** A repository declaring methods tagged with `t`: one copy to generate. */
  predicate IsJob(round: Round, t: string, repository: TypeElement)
  {
    t in round.groups && repository in GroupByEnclosingType(round.groups[t])
  }

  /** Every repository of data source `t` has an entity package (vacuous when untagged). */
  ghost predicate EntitiesOk(round: Round, t: string)
  {
    forall repository :: IsJob(round, t, repository) ==> GetJpaRepositoryEntityPackage(repository).Ok?
  }

  /** The extra entity packages of a data source: those of its tagged repositories. */
  function ExtrasFor(round: Round, t: string): set<string>
  {
    if t in round.groups then EntityPackagesOf(GroupByEnclosingType(round.groups[t]).Keys) else {}
  }

  /** The request for the configuration class of secondary data source `t`. */
  function SecondaryRequest(round: Round, t: string): Result<ConfigRequest, ProcessorError>
    requires t in round.secondaries
  {
    ConfigRequestFor(round.secondaries[t], round.annotation, round.elementPackage, ExtrasFor(round, t))
  }

  /** The copy of one repository for data source `t`, in the data source's package. */
  function Generate(round: Round, t: string, repository: TypeElement): Result<GeneratedFile, GeneratorError>
    requires IsJob(round, t, repository)
  {
    match RepositoryFor(repository, GroupByEnclosingType(round.groups[t])[repository], t, round.sameType)
    case Ok(spec) => Ok(GeneratedFile(RepositorySubPackage(round.annotation, round.elementPackage, t), spec))
    case Err(e) => Err(e)
  }

  /** An untagged secondary data source asks for no extra entity packages. */
  lemma UntaggedRequest(round: Round, t: string)
    requires t in round.secondaries && t !in round.groups
    ensures EntitiesOk(round, t)
    ensures SecondaryRequest(round, t) == ConfigRequestFor(round.secondaries[t], round.annotation, round.elementPackage, {})
  {
  }

  /** The classes of the untagged secondary data sources, one under each name. */
  ghost predicate UntaggedDone(round: Round, configs: map<string, ConfigFile>)
  {
    configs.Keys == round.secondaries.Keys - round.groups.Keys &&
    forall t :: t in configs ==> SecondaryRequest(round, t).Ok? && ConfigFileFor(SecondaryRequest(round, t).value, configs[t])
  }

  /**
   * The configurations of the secondary data sources no method is tagged with, in hash
   * order, with no extra entity packages; the first that fails aborts with its error.
   */
  method CreateUntaggedConfigs(round: Round) returns (r: Result<map<string, ConfigFile>, ProcessorError>)
    ensures r.Ok? <==> forall t :: t in round.secondaries && t !in round.groups ==> SecondaryRequest(round, t).Ok?
    ensures r.Ok? ==> UntaggedDone(round, r.value)
    ensures r.Err? ==> exists t :: t in round.secondaries && t !in round.groups && SecondaryRequest(round, t) == Err(r.error)
  {
    var configs: map<string, ConfigFile> := map[];
    var untagged := round.secondaries.Keys - round.groups.Keys;
    var remaining := untagged;
    while remaining != {}
      invariant remaining <= untagged
      invariant configs.Keys == untagged - remaining
      invariant forall t :: t in configs ==>
                  SecondaryRequest(round, t).Ok? && ConfigFileFor(SecondaryRequest(round, t).value, configs[t])
      decreases remaining
    {
      var dataSource :| dataSource in remaining;
      UntaggedRequest(round, dataSource);
      var file := CreateDataSourceConfigurationClass(round.secondaries[dataSource], round.annotation, round.elementPackage, {});
      if file.Err? {
        return Err(file.error);
      }
      configs := configs[dataSource := file.value];
      remaining := remaining - {dataSource};
    }
    return Ok(configs);
  }

  // ---------------------------------------------------------------------------------------
  // The tagged data sources

  /** What one tagged data source produces: its configuration and its repository copies. */
  datatype DataSourceOutput = DataSourceOutput(config: ConfigFile, repositories: map<TypeElement, GeneratedFile>)

  /** Every stage of tagged data source `t` succeeds. */
  ghost predicate TagSucceeds(round: Round, t: string)
  {
    t in round.secondaries && EntitiesOk(round, t) && SecondaryRequest(round, t).Ok? &&
    forall repository :: IsJob(round, t, repository) ==> Generate(round, t, repository).Ok?
  }

  /** An error some stage of tagged data source `t` can raise. */
  ghost predicate TagError(round: Round, t: string, e: ProcessorError)
  {
    (exists repository :: IsJob(round, t, repository) && GetJpaRepositoryEntityPackage(repository) == Err(e)) ||
    (t in round.secondaries && EntitiesOk(round, t) && SecondaryRequest(round, t) == Err(e)) ||
    (exists repository :: IsJob(round, t, repository) && Generate(round, t, repository).Err? &&
                          e == Generator(Generate(round, t, repository).error))
  }

  /** `out` is the configuration of `t` and one copy of each of its repositories. */
  ghost predicate DataSourceDone(round: Round, t: string, out: DataSourceOutput)
  {
    t in round.secondaries && t in round.groups && EntitiesOk(round, t) && SecondaryRequest(round, t).Ok? &&
    ConfigFileFor(SecondaryRequest(round, t).value, out.config) &&
    out.repositories.Keys == GroupByEnclosingType(round.groups[t]).Keys &&
    forall repository :: repository in out.repositories ==> Generate(round, t, repository) == Ok(out.repositories[repository])
  }

  /**
   * A copy of each repository of data source `t`, with only its tagged methods, in the data
   * source's package; repositories are taken in hash order and the first failure aborts.
   */
  method CopyRepositories(round: Round, t: string) returns (r: Result<map<TypeElement, GeneratedFile>, ProcessorError>)
    requires t in round.groups
    ensures r.Ok? <==> forall repository :: IsJob(round, t, repository) ==> Generate(round, t, repository).Ok?
    ensures r.Ok? ==> r.value.Keys == GroupByEnclosingType(round.groups[t]).Keys &&
                      forall repository :: repository in r.value ==> Generate(round, t, repository) == Ok(r.value[repository])
    ensures r.Err? ==> exists repository :: IsJob(round, t, repository) && Generate(round, t, repository).Err? &&
                                            r.error == Generator(Generate(round, t, repository).error)
  {
    var repositoryToMethodMap := GroupByEnclosingType(round.groups[t]);
    var repositoryDataSourceSubPackage := RepositorySubPackage(round.annotation, round.elementPackage, t);
    var copies: map<TypeElement, GeneratedFile> := map[];
    var remaining := repositoryToMethodMap.Keys;
    while remaining != {}
      invariant remaining <= repositoryToMethodMap.Keys
      invariant copies.Keys == repositoryToMethodMap.Keys - remaining
      invariant forall repository :: repository in copies ==> Generate(round, t, repository) == Ok(copies[repository])
      decreases remaining
    {
      var typeElement :| typeElement in remaining;
      var copiedTypeSpec := GenerateRepositoryTypeElementWithAnnotatedMethods(
        typeElement, repositoryToMethodMap[typeElement], t, round.sameType);
      if copiedTypeSpec.Err? {
        assert IsJob(round, t, typeElement) && Generate(round, t, typeElement).Err?;
        return Err(Generator(copiedTypeSpec.error));
      }
      copies := copies[typeElement := GeneratedFile(repositoryDataSourceSubPackage, copiedTypeSpec.value)];
      remaining := remaining - {typeElement};
    }
    return Ok(copies);
  }

  /**
   * One iteration of the processor's loop over tags: the entity packages of the data
   * source's repositories, its configuration with them, then a copy of each repository in
   * the data source's package.
   */
  method ProcessDataSource(round: Round, t: string) returns (r: Result<DataSourceOutput, ProcessorError>)
    requires t in round.secondaries && t in round.groups
    ensures r.Ok? <==> TagSucceeds(round, t)
    ensures r.Ok? ==> DataSourceDone(round, t, r.value)
    ensures r.Err? ==> TagError(round, t, r.error)
  {
    var repositoryToMethodMap := GroupByEnclosingType(round.groups[t]);
    var entityPackages := CollectEntityPackages(repositoryToMethodMap.Keys);
    if entityPackages.Err? {
      return Err(entityPackages.error);
    }
    var config := CreateDataSourceConfigurationClass(round.secondaries[t], round.annotation, round.elementPackage,
                                                     entityPackages.value);
    if config.Err? {
      return Err(config.error);
    }
    var copies := CopyRepositories(round, t);
    if copies.Err? {
      return Err(copies.error);
    }
    return Ok(DataSourceOutput(config.value, copies.value));
  }

  /** The tagged data sources, one under each tag, each complete. */
  ghost predicate TaggedDone(round: Round, tagged: map<string, DataSourceOutput>)
  {
    tagged.Keys == round.groups.Keys && forall t :: t in tagged ==> DataSourceDone(round, t, tagged[t])
  }

  /**
   * The processor's loop over the tags, in hash order: each tagged data source in turn, the
   * first failure aborting the round.
   */
  method ProcessTagged(round: Round) returns (r: Result<map<string, DataSourceOutput>, ProcessorError>)
    requires round.groups.Keys <= round.secondaries.Keys
    ensures r.Ok? <==> forall t :: t in round.groups ==> TagSucceeds(round, t)
    ensures r.Ok? ==> TaggedDone(round, r.value)
    ensures r.Err? ==> exists t :: t in round.groups && TagError(round, t, r.error)
  {
    var tagged: map<string, DataSourceOutput> := map[];
    var remaining := round.groups.Keys;
    while remaining != {}
      invariant remaining <= round.groups.Keys
      invariant tagged.Keys == round.groups.Keys - remaining
      invariant forall t :: t in tagged ==> DataSourceDone(round, t, tagged[t])
      decreases remaining
    {
      var dataSourceName :| dataSourceName in remaining;
      var out := ProcessDataSource(round, dataSourceName);
      if out.Err? {
        return Err(out.error);
      }
      tagged := tagged[dataSourceName := out.value];
      remaining := remaining - {dataSourceName};
    }
    assert forall t :: t in round.groups ==> TagSucceeds(round, t) by {
      forall t | t in round.groups
        ensures TagSucceeds(round, t)
      {
        assert DataSourceDone(round, t, tagged[t]);
      }
    }
    return Ok(tagged);
  }

  // ---------------------------------------------------------------------------------------
  // The whole round

  /** What a round writes: the primary configuration, the untagged ones and the tagged ones. */
  datatype RoundOutput = RoundOutput(
    primary: ConfigFile,
    untagged: map<string, ConfigFile>,
    tagged: map<string, DataSourceOutput>)

  /** The request for the primary configuration: no extra entity packages. */
  function PrimaryRequest(element: AnnotatedElement): Result<ConfigRequest, ProcessorError>
    requires ValidateAndGetPrimaryDataSourceConfig(element.annotation.dataSourceConfigs).Ok?
  {
    ConfigRequestFor(ValidateAndGetPrimaryDataSourceConfig(element.annotation.dataSourceConfigs).value,
                     element.annotation, element.packageName, {})
  }

  /** The round an element sets up once its primary is found and the names are distinct. */
  function RoundOf(element: AnnotatedElement, methods: set<TaggedMethod>, sameType: SameType): Round
    requires ValidateAndGetPrimaryDataSourceConfig(element.annotation.dataSourceConfigs).Ok?
    requires NamesDistinct(element.annotation.dataSourceConfigs)
  {
    var configs := element.annotation.dataSourceConfigs;
    Round(element.annotation, element.packageName,
          SecondaryConfigs(configs, ValidateAndGetPrimaryDataSourceConfig(configs).value.dataSourceName),
          Groups(methods), sameType)
  }

  /** No stage after the tag check fails. */
  ghost predicate AllSucceed(round: Round)
  {
    (forall t :: t in round.secondaries && t !in round.groups ==> SecondaryRequest(round, t).Ok?) &&
    (forall t :: t in round.groups ==> TagSucceeds(round, t))
  }

  /** An error some stage after the tag check can raise. */
  ghost predicate LaterError(round: Round, e: ProcessorError)
  {
    (exists t :: t in round.secondaries && t !in round.groups && SecondaryRequest(round, t) == Err(e)) ||
    (exists t :: t in round.groups && TagError(round, t, e))
  }

  /**
   * The stages after the tag check: the untagged secondaries' classes, then, when some
   * method is tagged, the tagged data sources.
   */
  method ProcessSecondaries(round: Round) returns (r: Result<(map<string, ConfigFile>, map<string, DataSourceOutput>), ProcessorError>)
    requires round.groups.Keys <= round.secondaries.Keys
    ensures r.Ok? <==> AllSucceed(round)
    ensures r.Ok? ==> UntaggedDone(round, r.value.0) && TaggedDone(round, r.value.1)
    ensures r.Err? ==> LaterError(round, r.error)
  {
    var untagged := CreateUntaggedConfigs(round);
    if untagged.Err? {
      return Err(untagged.error);
    }
    if round.groups == map[] {
      return Ok((untagged.value, map[]));
    }
    var tagged := ProcessTagged(round);
    if tagged.Err? {
      return Err(tagged.error);
    }
    return Ok((untagged.value, tagged.value));
  }

  /**
   * What processing one annotated element may end in. The stages run in order: the primary
   * configuration, distinct names, the primary's class, tags naming secondaries; an error
   * of the first failing one ends the round. Past them the round succeeds exactly when every
   * later stage does, writing every class and copy; otherwise it ends in an error of one of
   * the later stages, which one depending on hash order.
   */
  ghost predicate ProcessesElement(element: AnnotatedElement, methods: set<TaggedMethod>, sameType: SameType,
                                   r: Result<RoundOutput, ProcessorError>)
  {
    var configs := element.annotation.dataSourceConfigs;
    var primary := ValidateAndGetPrimaryDataSourceConfig(configs);
    if primary.Err? then r == Err(primary.error)
    else if !NamesDistinct(configs) then r == Err(DuplicateDataSourceConfig)
    else if PrimaryRequest(element).Err? then r == Err(PrimaryRequest(element).error)
    else
      var round := RoundOf(element, methods, sameType);
      if !(round.groups.Keys <= round.secondaries.Keys) then
        r == Err(NoConfigFound(round.groups.Keys - round.secondaries.Keys))
      else
        (r.Ok? <==> AllSucceed(round)) &&
        (r.Ok? ==> ConfigFileFor(PrimaryRequest(element).value, r.value.primary) &&
                   UntaggedDone(round, r.value.untagged) && TaggedDone(round, r.value.tagged)) &&
        (r.Err? ==> LaterError(round, r.error))
  }

  /**
   * `process` for the element carrying `@EnableMultiDataSourceConfig`: the primary
   * configuration, the configuration map, the primary's class, the tag check, the untagged
   * secondaries' classes, and then, when some method is tagged, the tagged data sources.
   */
  method ProcessElement(element: AnnotatedElement, methods: set<TaggedMethod>, sameType: SameType)
    returns (r: Result<RoundOutput, ProcessorError>)
    ensures ProcessesElement(element, methods, sameType, r)
  {
    var annotation := element.annotation;
    var dataSourceConfigs := annotation.dataSourceConfigs;
    var primaryDataSourceConfig := ValidateAndGetPrimaryDataSourceConfig(dataSourceConfigs);
    if primaryDataSourceConfig.Err? {
      return Err(primaryDataSourceConfig.error);
    }
    var configMap := CreateDataSourceToConfigMap(dataSourceConfigs);
    if configMap.Err? {
      return Err(configMap.error);
    }
    var primary := CreateDataSourceConfigurationClass(primaryDataSourceConfig.value, annotation, element.packageName, {});
    if primary.Err? {
      return Err(primary.error);
    }
    var primaryName := primaryDataSourceConfig.value.dataSourceName;
    var secondaryDataSourceConfigMap := configMap.value - {primaryName};
    ghost var spec := RoundOf(element, methods, sameType);
    SecondaryMapIsSecondaryConfigs(dataSourceConfigs, primaryName, configMap.value);
    var groups := CreateDataSourceToTargetRepositoryMethodMap(methods, secondaryDataSourceConfigMap);
    if groups.Err? {
      return Err(groups.error);
    }
    var round := Round(annotation, element.packageName, secondaryDataSourceConfigMap, groups.value, sameType);
    assert round == spec;
    var secondaries := ProcessSecondaries(round);
    if secondaries.Err? {
      return Err(secondaries.error);
    }
    return Ok(RoundOutput(primary.value, secondaries.value.0, secondaries.value.1));
  }

  /**
   * `process`: no annotated element, nothing to do; several, an error; one, its round.
   */
  method Process(annotatedElements: set<AnnotatedElement>, methods: set<TaggedMethod>, sameType: SameType)
    returns (r: Result<Option<RoundOutput>, ProcessorError>)
    ensures annotatedElements == {} <==> r == Ok(None)
    ensures |annotatedElements| > 1 ==> r == Err(MultipleEnableConfigElements)
    ensures forall e :: annotatedElements == {e} ==>
              (r.Ok? ==> r.value.Some? && ProcessesElement(e, methods, sameType, Ok(r.value.value))) &&
              (r.Err? ==> ProcessesElement(e, methods, sameType, Err(r.error)))
  {
    var holder := ValidateAndGetEnableConfigAnnotationAndElementHolder(annotatedElements);
    if holder.Err? {
      assert forall e :: annotatedElements == {e} ==> |annotatedElements| == 1;
      return Err(holder.error);
    }
    if holder.value.None? {
      return Ok(None);
    }
    var out := ProcessElement(holder.value.value, methods, sameType);
    if out.Err? {
      return Err(out.error);
    }
    return Ok(Some(out.value));
  }

  // ---------------------------------------------------------------------------------------
  // What a successful round guarantees

  /** The class a configuration file holds. */
  function ClassOf(file: ConfigFile): ConfigClass
  {
    GenerateConfig(file.request, file.entityPackages)
  }

  /**
   * The configuration of a tagged secondary data source scans exactly the package its copies
   * are written to.
   */
  lemma DataSourceScansItsCopies(round: Round, t: string, out: DataSourceOutput, repository: TypeElement)
    requires DataSourceDone(round, t, out) && repository in out.repositories
    requires round.secondaries[t].dataSourceName == t && !round.secondaries[t].isPrimary
    ensures ClassOf(out.config).enableJpaRepositories.basePackages ==
              "{" + Quote(out.repositories[repository].packageName) + "}"
  {
    var config := round.secondaries[t];
    var extras := ExtrasFor(round, t);
    assert IsJob(round, t, repository);
    var p := RepositorySubPackage(round.annotation, round.elementPackage, t);
    assert out.repositories[repository].packageName == p;
    assert out.config.request == ConfigRequestFor(config, round.annotation, round.elementPackage, extras).value;
    SecondaryScansItsRepositories(config, round.annotation, round.elementPackage, extras, out.config.entityPackages);
  }

  /** A tagged data source's configuration lists the entity package of every copied repository. */
  lemma DataSourceListsItsEntities(round: Round, t: string, out: DataSourceOutput, repository: TypeElement)
    requires DataSourceDone(round, t, out) && repository in out.repositories
    ensures GetJpaRepositoryEntityPackage(repository).Ok? &&
            GetJpaRepositoryEntityPackage(repository).value in out.config.entityPackages
  {
    var config := round.secondaries[t];
    assert IsJob(round, t, repository);
    var p := GetJpaRepositoryEntityPackage(repository).value;
    assert p in ExtrasFor(round, t);
    ConfigRequestForSpec(config, round.annotation, round.elementPackage, ExtrasFor(round, t));
    assert p in out.config.request.entityPackages;
  }

  /**
   * In a successful round the primary configuration is the one marked primary and no other
   * configuration is; by `PrimaryBeans`, only the primary's class marks its beans `@Primary`.
   */
  lemma OnlyPrimaryIsPrimary(element: AnnotatedElement, methods: set<TaggedMethod>, sameType: SameType,
                             out: RoundOutput)
    requires ProcessesElement(element, methods, sameType, Ok(out))
    ensures out.primary.request.config.isPrimary
    ensures forall t :: t in out.untagged ==> !out.untagged[t].request.config.isPrimary
    ensures forall t :: t in out.tagged ==> !out.tagged[t].config.request.config.isPrimary
  {
    var configs := element.annotation.dataSourceConfigs;
    var primary := ValidateAndGetPrimaryDataSourceConfig(configs).value;
    var round := RoundOf(element, methods, sameType);
    ConfigRequestForSpec(primary, element.annotation, element.packageName, {});
    forall t | t in out.untagged
      ensures !out.untagged[t].request.config.isPrimary
    {
      SecondaryNotPrimary(round, primary, t, out.untagged[t]);
    }
    forall t | t in out.tagged
      ensures !out.tagged[t].config.request.config.isPrimary
    {
      SecondaryNotPrimary(round, primary, t, out.tagged[t].config);
    }
  }

  /** A class marks its four beans `@Primary` exactly when its configuration is the primary. */
  lemma PrimaryBeans(file: ConfigFile)
    ensures forall i :: 0 <= i < 4 ==> (IsPrimaryBean(ClassOf(file).methods[i]) <==> file.request.config.isPrimary)
  {
    var r := file.request;
    ConfigGenerator.PrimaryConfigBeans(r.config, r.config.dataSourceName, r.className, r.propertiesPath,
                                       r.repositoryPackages, file.entityPackages, r.generatedRepositoryPackagePrefix);
  }

  /** A secondary's configuration, when the one primary is elsewhere, is not marked primary. */
  lemma SecondaryNotPrimary(round: Round, primary: DataSourceConfig, t: string, file: ConfigFile)
    requires t in round.secondaries && SecondaryRequest(round, t).Ok? && file.request == SecondaryRequest(round, t).value
    requires round.secondaries[t].dataSourceName != primary.dataSourceName
    requires forall c :: c in round.annotation.dataSourceConfigs && c.isPrimary ==> c == primary
    requires round.secondaries[t] in round.annotation.dataSourceConfigs
    ensures !file.request.config.isPrimary
  {
    ConfigRequestForSpec(round.secondaries[t], round.annotation, round.elementPackage, ExtrasFor(round, t));
  }

  /**
   * In a successful round, every tagged data source's class scans the package its repository
   * copies went to, and lists the entity package of each copied repository.
   */
  lemma TaggedCopiesAreScanned(element: AnnotatedElement, methods: set<TaggedMethod>, sameType: SameType,
                               out: RoundOutput, t: string, repository: TypeElement)
    requires ProcessesElement(element, methods, sameType, Ok(out))
    requires t in out.tagged && repository in out.tagged[t].repositories
    ensures ClassOf(out.tagged[t].config).enableJpaRepositories.basePackages ==
              "{" + Quote(out.tagged[t].repositories[repository].packageName) + "}"
    ensures GetJpaRepositoryEntityPackage(repository).Ok? &&
            GetJpaRepositoryEntityPackage(repository).value in out.tagged[t].config.entityPackages
  {
    var configs := element.annotation.dataSourceConfigs;
    var primary := ValidateAndGetPrimaryDataSourceConfig(configs).value;
    var round := RoundOf(element, methods, sameType);
    assert DataSourceDone(round, t, out.tagged[t]);
    var config := round.secondaries[t];
    assert config in configs && config.dataSourceName == t && t != primary.dataSourceName;
    assert !config.isPrimary;
    DataSourceScansItsCopies(round, t, out.tagged[t], repository);
    DataSourceListsItsEntities(round, t, out.tagged[t], repository);
  }

  /**
   * Tagging a method with the primary data source is refused: the primary is not among the
   * secondaries the tags are checked against, so the round stops with its name reported.
   */
  lemma TaggingPrimaryIsRefused(element: AnnotatedElement, methods: set<TaggedMethod>, sameType: SameType,
                                r: Result<RoundOutput, ProcessorError>, m: TaggedMethod)
    requires ProcessesElement(element, methods, sameType, r)
    requires ValidateAndGetPrimaryDataSourceConfig(element.annotation.dataSourceConfigs).Ok?
    requires NamesDistinct(element.annotation.dataSourceConfigs) && PrimaryRequest(element).Ok?
    requires m in methods && Tagged(m, ValidateAndGetPrimaryDataSourceConfig(element.annotation.dataSourceConfigs).value.dataSourceName)
    ensures r.Err? && r.error.NoConfigFound? &&
            ValidateAndGetPrimaryDataSourceConfig(element.annotation.dataSourceConfigs).value.dataSourceName in r.error.dataSources
  {
    var primaryName := ValidateAndGetPrimaryDataSourceConfig(element.annotation.dataSourceConfigs).value.dataSourceName;
    var round := RoundOf(element, methods, sameType);
    GroupsKeys(methods, primaryName);
    assert primaryName in round.groups && primaryName !in round.secondaries;
  }
}

=== FILE: partitioning.dfy ===
/**
 * Filing repository methods under the data sources they are tagged with, and grouping the
 * methods of one data source by the repository that declares them. The processors that copy
 * repositories do both the same way; only the annotation types they look for differ.
 */
module Partitioning {
  import opened Wrappers
  import opened JavaModel

  /**
   * A repository method as a processor sees it: the method, the repository (type) that
   * declares it, the data source of its single tag annotation when it has one, and the data
   * sources listed by its container annotation (empty when it has none). A method tagged
   * twice carries the container annotation, which the compiler builds for repeated tags.
   */
  datatype TaggedMethod = TaggedMethod(
    element: ExecutableElement,
    enclosing: TypeElement,
    tag: Option<string>,
    containerTags: seq<string>)

  /** The method is tagged with data source `t`, by either annotation. */
  predicate Tagged(m: TaggedMethod, t: string)
  {
    m.tag == Some(t) || t in m.containerTags
  }

  type Pair = (string, TaggedMethod)

  /** (data source, method) for every single tag. */
  function SinglePairs(ms: set<TaggedMethod>): set<Pair>
  {
    set m | m in ms && m.tag.Some? :: (m.tag.value, m)
  }

  /** (data source, method) for every data source of every container annotation. */
  function ContainerPairs(ms: set<TaggedMethod>): set<Pair>
  {
    set m, t | m in ms && t in m.containerTags :: (t, m)
  }

  /** (data source, method) for the first `i` data sources of the container of `m`. */
  function ContainerPrefix(m: TaggedMethod, i: nat): set<Pair>
    requires i <= |m.containerTags|
  {
    set j | 0 <= j < i :: (m.containerTags[j], m)
  }

  function DataSources(ps: set<Pair>): set<string>
  {
    set p | p in ps :: p.0
  }

  /** Groups the methods of the pairs by data source (`Collectors.groupingBy`). */
  function GroupPairs(ps: set<Pair>): map<string, set<TaggedMethod>>
  {
    map t | t in DataSources(ps) :: set p | p in ps && p.0 == t :: p.1
  }

  /** The map from data source to its tagged methods, the processors' result. */
  function Groups(ms: set<TaggedMethod>): map<string, set<TaggedMethod>>
  {
    GroupPairs(SinglePairs(ms) + ContainerPairs(ms))
  }

  /**
   * A method lies in the group of data source `t` exactly when it is tagged with `t`, by its
   * single annotation or by its container; so a method sits in one group per data source it
   * names, and in each of them once.
   */
  lemma GroupsMembership(ms: set<TaggedMethod>, t: string, m: TaggedMethod)
    ensures t in Groups(ms) && m in Groups(ms)[t] <==> m in ms && Tagged(m, t)
  {
    var ps := SinglePairs(ms) + ContainerPairs(ms);
    if m in ms && Tagged(m, t) {
      if m.tag == Some(t) {
        assert (t, m) in SinglePairs(ms);
      } else {
        assert (t, m) in ContainerPairs(ms);
      }
      assert t in DataSources(ps);
    }
  }

  /**
   * The data sources of the map are exactly those some method is tagged with, and no group
   * is empty.
   */
  lemma GroupsKeys(ms: set<TaggedMethod>, t: string)
    ensures t in Groups(ms) <==> exists m :: m in ms && Tagged(m, t)
    ensures t in Groups(ms) ==> Groups(ms)[t] != {}
  {
    var ps := SinglePairs(ms) + ContainerPairs(ms);
    if t in Groups(ms) {
      var p :| p in ps && p.0 == t;
      assert p.1 in Groups(ms)[t];
      GroupsMembership(ms, t, p.1);
    }
    if exists m :: m in ms && Tagged(m, t) {
      var m :| m in ms && Tagged(m, t);
      GroupsMembership(ms, t, m);
    }
  }

  /** No tagged method means an empty map, the case the processors stop at. */
  lemma GroupsEmptyIff(ms: set<TaggedMethod>)
    ensures Groups(ms) == map[] <==> forall m :: m in ms ==> m.tag == None && m.containerTags == []
  {
    if Groups(ms) == map[] {
      forall m | m in ms
        ensures m.tag == None && m.containerTags == []
      {
        if m.tag.Some? {
          GroupsMembership(ms, m.tag.value, m);
        }
        if m.containerTags != [] {
          GroupsMembership(ms, m.containerTags[0], m);
        }
      }
    } else {
      var t :| t in Groups(ms);
      GroupsKeys(ms, t);
    }
  }

  /** `getOrDefault`, `add` and `put` of one more (data source, method) pair. */
  lemma AddPair(ps: set<Pair>, t: string, m: TaggedMethod)
    ensures GroupPairs(ps + {(t, m)}) ==
      GroupPairs(ps)[t := (if t in GroupPairs(ps) then GroupPairs(ps)[t] else {}) + {m}]
  {
    var before := GroupPairs(ps);
    var after := GroupPairs(ps + {(t, m)});
    var expected := before[t := (if t in before then before[t] else {}) + {m}];
    assert DataSources(ps + {(t, m)}) == DataSources(ps) + {t};
    forall u | u in after
      ensures u in expected && after[u] == expected[u]
    {
      if u == t {
        assert after[u] == (if t in before then before[t] else {}) + {m};
      } else {
        assert u in DataSources(ps);
        assert after[u] == before[u];
      }
    }
    assert after.Keys == expected.Keys;
  }

  /** The pairs of one more container annotation, all of its data sources at once. */
  lemma ContainerPairsAdd(done: set<TaggedMethod>, m: TaggedMethod)
    ensures ContainerPairs(done + {m}) == ContainerPairs(done) + ContainerPrefix(m, |m.containerTags|)
  {
    forall p | p in ContainerPrefix(m, |m.containerTags|)
      ensures p in ContainerPairs(done + {m})
    {
      var j :| 0 <= j < |m.containerTags| && p == (m.containerTags[j], m);
      assert m.containerTags[j] in m.containerTags;
    }
    forall p | p in ContainerPairs(done + {m}) && p.1 == m
      ensures p in ContainerPrefix(m, |m.containerTags|)
    {
      var j :| 0 <= j < |m.containerTags| && m.containerTags[j] == p.0;
    }
  }

  /** Methods without a container annotation contribute no container pairs. */
  lemma ContainerPairsOfContainers(ms: set<TaggedMethod>, containers: set<TaggedMethod>)
    requires containers == set m | m in ms && m.containerTags != []
    ensures ContainerPairs(containers) == ContainerPairs(ms)
  {
  }

  /**
   * `createDataSourceToTargetRepositoryMethodMap`: methods with a single tag are grouped by
   * it; then every method with a container annotation is added, data source by data source,
   * to the group of each (creating it when absent). Container methods are visited in hash
   * order, which the choice below leaves open.
   */
  method CreateDataSourceToTargetRepositoryMethodMap(methods: set<TaggedMethod>)
    returns (groups: map<string, set<TaggedMethod>>)
    ensures groups == Groups(methods)
  {
    groups := GroupPairs(SinglePairs(methods));
    var containers := set m | m in methods && m.containerTags != [];
    var remaining := containers;
    assert ContainerPairs(containers - remaining) == {};
    assert SinglePairs(methods) + {} == SinglePairs(methods);
    while remaining != {}
      invariant remaining <= containers
      invariant groups == GroupPairs(SinglePairs(methods) + ContainerPairs(containers - remaining))
      decreases remaining
    {
      var element :| element in remaining;
      ghost var done := containers - remaining;
      groups := AddContainerMethod(groups, SinglePairs(methods) + ContainerPairs(done), element);
      ContainerPairsAdd(done, element);
      assert SinglePairs(methods) + ContainerPairs(done) + ContainerPrefix(element, |element.containerTags|) ==
        SinglePairs(methods) + ContainerPairs(done + {element});
      assert groups == GroupPairs(SinglePairs(methods) + ContainerPairs(done + {element}));
      remaining := remaining - {element};
      assert containers - remaining == done + {element};
    }
    assert containers - remaining == containers;
    ContainerPairsOfContainers(methods, containers);
  }

  /** The inner loop: `element` added to the group of each data source its container names. */
  method AddContainerMethod(groups0: map<string, set<TaggedMethod>>, ghost pairs: set<Pair>, element: TaggedMethod)
    returns (groups: map<string, set<TaggedMethod>>)
    requires groups0 == GroupPairs(pairs)
    ensures groups == GroupPairs(pairs + ContainerPrefix(element, |element.containerTags|))
  {
    groups := groups0;
    var i := 0;
    assert ContainerPrefix(element, 0) == {};
    assert pairs + {} == pairs;
    while i < |element.containerTags|
      invariant 0 <= i <= |element.containerTags|
      invariant groups == GroupPairs(pairs + ContainerPrefix(element, i))
    {
      var dataSourceName := element.containerTags[i];
      var executableElements := if dataSourceName in groups then groups[dataSourceName] else {};
      ghost var ps := pairs + ContainerPrefix(element, i);
      AddPair(ps, dataSourceName, element);
      assert ContainerPrefix(element, i + 1) == ContainerPrefix(element, i) + {(dataSourceName, element)};
      assert ps + {(dataSourceName, element)} == pairs + ContainerPrefix(element, i + 1);
      groups := groups[dataSourceName := executableElements + {element}];
      i := i + 1;
    }
  }

  function Repositories(ms: set<TaggedMethod>): set<TypeElement>
  {
    set m | m in ms :: m.enclosing
  }

  /**
   * `createTypeElementToExecutableElementsMap`: the methods of one data source grouped by the
   * repository declaring them.
   */
  function GroupByEnclosingType(ms: set<TaggedMethod>): map<TypeElement, set<ExecutableElement>>
  {
    map r | r in Repositories(ms) :: set m | m in ms && m.enclosing == r :: m.element
  }

  /**
   * Every method is filed under its repository, nothing else is filed, the repositories are
   * those declaring some method, and so no group is empty.
   */
  lemma GroupByEnclosingTypeFiles(ms: set<TaggedMethod>)
    ensures var g := GroupByEnclosingType(ms);
      (forall r :: r in g <==> exists m :: m in ms && m.enclosing == r) &&
      (forall m :: m in ms ==> m.enclosing in g && m.element in g[m.enclosing]) &&
      (forall r, e :: r in g && e in g[r] ==> exists m :: m in ms && m.enclosing == r && m.element == e) &&
      (forall r :: r in g ==> g[r] != {})
  {
    var g := GroupByEnclosingType(ms);
    assert forall m :: m in ms ==> m.enclosing in g && m.element in g[m.enclosing];
  }
}

=== FILE: processing.dfy ===
/**
 * What the annotation processors share: the errors they raise, Spring's `hasText`, the
 * duplicate check of `Set.of`, the count check on the configuration annotation, the
 * name-to-configuration map and the derived class names and property paths.
 */
module Processing {
  import opened Wrappers
  import opened Text
  import opened ConfigModel
  import CaseConversion
  import RepositoryGenerator

  /**
   * The exceptions the processors throw, by cause: `IllegalArgumentException`s, and the
   * `ClassCastException` of a non-declared entity type as `EntityNotDeclared`.
   */
  datatype ProcessorError =
    | MultipleEnableConfigElements
    | NotOnePrimary(count: nat)
    | PrimaryAlsoSecondary(dataSourceName: string)
    | DuplicateDataSourceConfig
    | DuplicateElement(element: string)
    | NoEntityPackages
    | NoEntityPackagesFor(dataSourceName: string)
    | NoRepositoryPackages
    | NoConfigFound(dataSources: set<string>)
    | NotJpaRepository(repository: string)
    | MissingEntityTypeArguments(repository: string)
    | EntityNotDeclared(repository: string)
    | Generator(cause: RepositoryGenerator.GeneratorError)

  /** A generated repository and the package it is written to. */
  datatype GeneratedFile = GeneratedFile(packageName: string, repository: RepositoryGenerator.RepositorySpec)

  /** `Character.isWhitespace`: the space separators other than no-break spaces, and controls. */
  predicate IsWhitespace(c: char)
  {
    c == ' ' || '\t' <= c <= '\r' || '\U{1C}' <= c <= '\U{1F}' ||
    c == '\U{1680}' || ('\U{2000}' <= c <= '\U{200A}' && c != '\U{2007}') ||
    c == '\U{2028}' || c == '\U{2029}' || c == '\U{205F}' || c == '\U{3000}'
  }

  /** Spring's `StringUtils.hasText`: some character is not whitespace. */
  predicate HasText(s: string)
  {
    exists i :: 0 <= i < |s| && !IsWhitespace(s[i])
  }

  /** `value` when it has text, otherwise the fallback: how every package setting is defaulted. */
  function OrDefault(value: string, fallback: string): (r: string)
    ensures HasText(value) ==> r == value
    ensures !HasText(value) ==> r == fallback
  {
    if HasText(value) then value else fallback
  }

  predicate Distinct(values: seq<string>)
  {
    forall i, j :: 0 <= i < j < |values| ==> values[i] != values[j]
  }

  lemma DistinctSnoc(values: seq<string>, v: string)
    requires Distinct(values) && v !in values
    ensures Distinct(values + [v])
  {
    var r := values + [v];
    forall i, j | 0 <= i < j < |r|
      ensures r[i] != r[j]
    {
      if j == |values| {
        assert r[i] == values[i];
      }
    }
  }

  /**
   * `Set.of(values)`: the elements are added in order and the first one already present
   * raises the duplicate-element error.
   */
  function SetOf(values: seq<string>): Result<set<string>, ProcessorError>
  {
    SetOfFrom(values, 0, {})
  }

  function SetOfFrom(values: seq<string>, i: nat, seen: set<string>): Result<set<string>, ProcessorError>
    requires i <= |values|
    decreases |values| - i
  {
    if i == |values| then Ok(seen)
    else if values[i] in seen then Err(DuplicateElement(values[i]))
    else SetOfFrom(values, i + 1, seen + {values[i]})
  }

  /**
   * `Set.of` succeeds exactly on distinct values, with the set of them; otherwise it reports
   * the first value that repeats an earlier one.
   */
  lemma SetOfSpec(values: seq<string>)
    ensures SetOf(values).Ok? <==> Distinct(values)
    ensures SetOf(values).Ok? ==> SetOf(values).value == set v | v in values
    ensures SetOf(values).Err? ==>
      exists j :: 0 <= j < |values| && SetOf(values).error == DuplicateElement(values[j]) &&
                  values[j] in values[..j] && Distinct(values[..j])
  {
    assert values[..0] == [];
    SetOfFromSpec(values, 0, {});
  }

  lemma {:induction false} SetOfFromSpec(values: seq<string>, i: nat, seen: set<string>)
    requires i <= |values| && Distinct(values[..i]) && seen == set v | v in values[..i]
    ensures SetOfFrom(values, i, seen).Ok? <==> Distinct(values)
    ensures SetOfFrom(values, i, seen).Ok? ==> SetOfFrom(values, i, seen).value == set v | v in values
    ensures SetOfFrom(values, i, seen).Err? ==>
      exists j :: i <= j < |values| && SetOfFrom(values, i, seen).error == DuplicateElement(values[j]) &&
                  values[j] in values[..j] && Distinct(values[..j])
    decreases |values| - i
  {
    if i == |values| {
      assert values[..i] == values;
    } else if values[i] in seen {
      var k :| 0 <= k < i && values[..i][k] == values[i];
      assert !Distinct(values) by {
        assert values[k] == values[i];
      }
    } else {
      assert values[..i + 1] == values[..i] + [values[i]];
      ghost var prefix := values[..i + 1];
      assert Distinct(prefix) by {
        forall a, b | 0 <= a < b < i + 1
          ensures prefix[a] != prefix[b]
        {
          if b == i {
            assert values[..i][a] in values[..i];
          } else {
            assert values[..i][a] != values[..i][b];
          }
        }
      }
      SetOfFromSpec(values, i + 1, seen + {values[i]});
    }
  }

  const MultiDataSourceConfigSuffix := "DataSourceConfig"

  /** `getDataSourceConfigClassName`: the data source's configuration class. */
  function DataSourceConfigClassName(dataSourceName: string): string
  {
    CaseConversion.ToPascalCase(dataSourceName) + MultiDataSourceConfigSuffix
  }

  lemma SuffixAlphaNumeric()
    ensures forall i :: 0 <= i < |MultiDataSourceConfigSuffix| ==> IsAlphaNumeric(MultiDataSourceConfigSuffix[i])
  {
  }

  /**
   * A configuration class name is the PascalCase data source name followed by
   * `DataSourceConfig`, and so a Java identifier of letters and digits only.
   */
  lemma ConfigClassNameIsIdentifier(dataSourceName: string)
    ensures var r := DataSourceConfigClassName(dataSourceName);
      |r| >= |MultiDataSourceConfigSuffix| &&
      r[|r| - |MultiDataSourceConfigSuffix|..] == MultiDataSourceConfigSuffix &&
      forall i :: 0 <= i < |r| ==> IsAlphaNumeric(r[i])
  {
    var pascal := CaseConversion.ToPascalCase(dataSourceName);
    var r := pascal + MultiDataSourceConfigSuffix;
    SuffixAlphaNumeric();
    forall i | 0 <= i < |r|
      ensures IsAlphaNumeric(r[i])
    {
      if i >= |pascal| {
        assert r[i] == MultiDataSourceConfigSuffix[i - |pascal|];
      }
    }
  }

  /** The properties path of a data source: the prefix, a dot, and the kebab-case name. */
  function DataSourcePropertiesPath(datasourcePropertiesPrefix: string, dataSourceName: string): string
  {
    datasourcePropertiesPrefix + "." + CaseConversion.ToKebabCase(dataSourceName)
  }

  /**
   * A properties path lies exactly one level below the prefix: after the prefix and its dot
   * comes the kebab-case name, which holds no dot.
   */
  lemma PropertiesPathOneLevelBelow(datasourcePropertiesPrefix: string, dataSourceName: string)
    ensures var r := DataSourcePropertiesPath(datasourcePropertiesPrefix, dataSourceName);
      |r| > |datasourcePropertiesPrefix| &&
      r[..|datasourcePropertiesPrefix| + 1] == datasourcePropertiesPrefix + "." &&
      r[|datasourcePropertiesPrefix| + 1..] == CaseConversion.ToKebabCase(dataSourceName) &&
      forall i :: |datasourcePropertiesPrefix| < i < |r| ==> r[i] != '.'
  {
    var kebab := CaseConversion.ToKebabCase(dataSourceName);
    assert forall i :: 0 <= i < |kebab| ==> kebab[i] != '.';
    DottedSuffix(datasourcePropertiesPrefix, kebab);
  }

  /** After `parent` and a dot comes `segment`; when `segment` has no dot, nothing after it does. */
  lemma {:induction false} DottedSuffix(parent: string, segment: string)
    requires forall i :: 0 <= i < |segment| ==> segment[i] != '.'
    ensures var r := parent + "." + segment;
      |r| > |parent| && r[..|parent| + 1] == parent + "." && r[|parent| + 1..] == segment &&
      forall i :: |parent| < i < |r| ==> r[i] != '.'
  {
    var r := parent + "." + segment;
    assert r[..|parent| + 1] == parent + ".";
    assert r[|parent| + 1..] == segment;
    forall i | |parent| < i < |r|
      ensures r[i] != '.'
    {
      assert r[i] == segment[i - |parent| - 1];
    }
  }

  /** Two segments after the same parent and dot give the same text only when they are equal. */
  lemma {:induction false} DottedSuffixInjective(parent: string, a: string, b: string)
    ensures parent + "." + a == parent + "." + b <==> a == b
  {
    if parent + "." + a == parent + "." + b {
      assert a == (parent + "." + a)[|parent| + 1..];
      assert b == (parent + "." + b)[|parent| + 1..];
    }
  }

  /** The package a data source's sub-package lives in, followed by its snake_case name. */
  function SubPackage(parent: string, dataSourceName: string): (r: string)
    ensures |r| > |parent| && r[..|parent| + 1] == parent + "."
    ensures r[|parent| + 1..] == CaseConversion.ToSnakeCase(dataSourceName)
  {
    parent + "." + CaseConversion.ToSnakeCase(dataSourceName)
  }

  /**
   * Data sources whose snake_case names differ get different sub-packages of the same parent,
   * and the sub-package is one package segment (the snake_case name holds no dot).
   */
  lemma SubPackagesSeparate(parent: string, name1: string, name2: string)
    ensures SubPackage(parent, name1) == SubPackage(parent, name2) <==>
            CaseConversion.ToSnakeCase(name1) == CaseConversion.ToSnakeCase(name2)
    ensures forall i :: |parent| < i < |SubPackage(parent, name1)| ==> SubPackage(parent, name1)[i] != '.'
  {
    var snake1 := CaseConversion.ToSnakeCase(name1);
    var snake2 := CaseConversion.ToSnakeCase(name2);
    assert forall i :: 0 <= i < |snake1| ==> snake1[i] != '.';
    DottedSuffix(parent, snake1);
    DottedSuffixInjective(parent, snake1, snake2);
  }

  /**
   * `validateAndGetEnableConfigAnnotationAndElementHolder`: nothing when no element carries
   * the configuration annotation, the element when exactly one does, an error otherwise.
   */
  method ValidateAndGetEnableConfigAnnotationAndElementHolder<T(==)>(annotatedElements: set<T>)
    returns (r: Result<Option<T>, ProcessorError>)
    ensures annotatedElements == {} <==> r == Ok(None)
    ensures |annotatedElements| > 1 <==> r == Err(MultipleEnableConfigElements)
    ensures r.Err? ==> r == Err(MultipleEnableConfigElements)
    ensures r.Ok? && r.value.Some? ==> annotatedElements == {r.value.value}
  {
    if annotatedElements == {} {
      return Ok(None);
    }
    if |annotatedElements| > 1 {
      return Err(MultipleEnableConfigElements);
    }
    var annotatedElement :| annotatedElement in annotatedElements;
    assert annotatedElements - {annotatedElement} == {} by {
      assert |annotatedElements - {annotatedElement}| == 0;
    }
    return Ok(Some(annotatedElement));
  }

  predicate NamesDistinct(configs: seq<DataSourceConfig>)
  {
    forall i, j :: 0 <= i < j < |configs| ==> configs[i].dataSourceName != configs[j].dataSourceName
  }

  /**
   * `createDataSourceToConfigMap`: fails when two configurations share a data source name;
   * otherwise maps every name to its configuration.
   */
  method CreateDataSourceToConfigMap(dataSourceConfigs: seq<DataSourceConfig>)
    returns (r: Result<map<string, DataSourceConfig>, ProcessorError>)
    ensures r.Ok? <==> NamesDistinct(dataSourceConfigs)
    ensures r.Err? ==> r.error == DuplicateDataSourceConfig
    ensures r.Ok? ==> r.value.Keys == (set c | c in dataSourceConfigs :: c.dataSourceName) &&
                      forall c :: c in dataSourceConfigs ==> r.value[c.dataSourceName] == c
  {
    var configMap: map<string, DataSourceConfig> := map[];
    for i := 0 to |dataSourceConfigs|
      invariant NamesDistinct(dataSourceConfigs[..i])
      invariant configMap.Keys == set c | c in dataSourceConfigs[..i] :: c.dataSourceName
      invariant forall c :: c in dataSourceConfigs[..i] ==> configMap[c.dataSourceName] == c
    {
      var dataSourceConfig := dataSourceConfigs[i];
      if dataSourceConfig.dataSourceName in configMap {
        var k :| 0 <= k < i && dataSourceConfigs[..i][k].dataSourceName == dataSourceConfig.dataSourceName;
        assert dataSourceConfigs[k].dataSourceName == dataSourceConfigs[i].dataSourceName;
        return Err(DuplicateDataSourceConfig);
      }
      assert dataSourceConfigs[..i + 1] == dataSourceConfigs[..i] + [dataSourceConfig];
      configMap := configMap[dataSourceConfig.dataSourceName := dataSourceConfig];
    }
    assert dataSourceConfigs[..|dataSourceConfigs|] == dataSourceConfigs;
    return Ok(configMap);
  }

  /** `xs` lists the elements of `s`, each once (an array made from a hash set). */
  ghost predicate Enumerates(xs: seq<string>, s: set<string>)
  {
    Distinct(xs) && forall x :: x in xs <==> x in s
  }

  /** `toArray` of a hash set: its elements in some order, each once. */
  method ToArray(s: set<string>) returns (xs: seq<string>)
    ensures Enumerates(xs, s)
  {
    xs := [];
    var remaining := s;
    while remaining != {}
      invariant remaining <= s
      invariant Distinct(xs)
      invariant forall x :: x in xs <==> x in s - remaining
      decreases remaining
    {
      var x :| x in remaining;
      DistinctSnoc(xs, x);
      xs := xs + [x];
      remaining := remaining - {x};
    }
  }
}

=== FILE: repository_generator.dfy ===
/**
 * `MultiDataSourceRepositoryGenerator`: for one data source and one repository type, the
 * copy of the repository that keeps the methods selected for that data source and overrides
 * every other method declared by one of its direct super interfaces with a default method
 * that throws. Methods those interfaces inherit are not overridden.
 */
module RepositoryGenerator {
  import opened Wrappers
  import opened JavaModel
  import opened FieldSpecs
  import CaseConversion
  import GeneratorUtils

  const RepositoryBeanName := "REPOSITORY_BEAN_NAME"
  const DisabledMessage := "This method is disabled for this data source!"

  /** The exceptions the generator can throw. */
  datatype GeneratorError =
    | NotClassOrInterface(qualifiedName: string)   // IllegalArgumentException
    | IndexOutOfBounds(index: nat, length: nat)    // IndexOutOfBoundsException from List.get
    | DuplicateKey(key: TypeName)                  // IllegalStateException from Collectors.toMap

  /** Base type variable of the super interface to the type its user supplies for it. */
  type Bindings = map<TypeName, TypeName>

  /** `Types.isSameType`, which belongs to the compiler and is a parameter here. */
  type SameType = (TypeName, TypeName) -> bool

  /** The generated repository (a JavaPoet `TypeSpec`). */
  datatype RepositorySpec = RepositorySpec(
    name: string,
    isInterface: bool,
    modifiers: set<Modifier>,
    typeVariables: seq<TypeParameter>,
    repositoryAnnotationValue: string,
    superinterfaces: seq<TypeName>,
    beanNameField: FieldSpec,
    copiedMethods: set<MethodSpec>,
    disabledMethods: set<MethodSpec>)

  // ---------------------------------------------------------------------------------------
  // Type substitution

  /**
   * `recursivelyConvertType`: a parameterized type keeps its raw type and has each type
   * argument converted; any other type is replaced by its binding if it has one.
   */
  function RecursivelyConvertType(t: TypeName, bindings: Bindings): (r: TypeName)
    ensures t.Parameterized? ==>
      r.Parameterized? && r.rawType == t.rawType && |r.typeArguments| == |t.typeArguments|
    ensures !t.Parameterized? && t !in bindings ==> r == t
    decreases t
  {
    if t.Parameterized? then
      Parameterized(t.rawType, seq(|t.typeArguments|, i requires 0 <= i < |t.typeArguments| =>
        RecursivelyConvertType(t.typeArguments[i], bindings)))
    else if t in bindings then bindings[t]
    else t
  }

  /** No position that the conversion looks up is bound. */
  predicate Unbound(t: TypeName, bindings: Bindings)
    decreases t
  {
    if t.Parameterized? then
      forall i :: 0 <= i < |t.typeArguments| ==> Unbound(t.typeArguments[i], bindings)
    else
      t !in bindings
  }

  /** A type that mentions no bound type is left as it is. */
  lemma {:induction false} ConvertUnbound(t: TypeName, bindings: Bindings)
    requires Unbound(t, bindings)
    ensures RecursivelyConvertType(t, bindings) == t
    decreases t
  {
    if t.Parameterized? {
      forall i | 0 <= i < |t.typeArguments|
        ensures RecursivelyConvertType(t.typeArguments[i], bindings) == t.typeArguments[i]
      {
        ConvertUnbound(t.typeArguments[i], bindings);
      }
    }
  }

  /** With no bindings (a super interface without type parameters) nothing changes. */
  lemma {:induction false} ConvertWithoutBindings(t: TypeName)
    ensures RecursivelyConvertType(t, map[]) == t
    decreases t
  {
    UnboundWithoutBindings(t);
    ConvertUnbound(t, map[]);
  }

  lemma {:induction false} UnboundWithoutBindings(t: TypeName)
    ensures Unbound(t, map[])
    decreases t
  {
    if t.Parameterized? {
      forall i | 0 <= i < |t.typeArguments|
        ensures Unbound(t.typeArguments[i], map[])
      {
        UnboundWithoutBindings(t.typeArguments[i]);
      }
    }
  }

  /**
   * When the supplied types do not themselves mention a base type variable, converting a
   * second time changes nothing.
   */
  lemma {:induction false} ConvertIdempotent(t: TypeName, bindings: Bindings)
    requires forall k :: k in bindings ==> Unbound(bindings[k], bindings)
    ensures Unbound(RecursivelyConvertType(t, bindings), bindings)
    ensures RecursivelyConvertType(RecursivelyConvertType(t, bindings), bindings) ==
      RecursivelyConvertType(t, bindings)
    decreases t
  {
    var r := RecursivelyConvertType(t, bindings);
    if t.Parameterized? {
      forall i | 0 <= i < |t.typeArguments|
        ensures Unbound(r.typeArguments[i], bindings)
      {
        ConvertIdempotent(t.typeArguments[i], bindings);
      }
    }
    ConvertUnbound(r, bindings);
  }

  // ---------------------------------------------------------------------------------------
  // Bindings of a super interface

  /** The base type variables of a generic interface, as `TypeName`s. */
  function BaseTypeNames(d: DeclaredType): (r: seq<TypeName>)
    ensures |r| == |d.element.typeParameters|
    ensures forall i :: 0 <= i < |r| ==> r[i] == TypeVariable(d.element.typeParameters[i].name)
  {
    seq(|d.element.typeParameters|, i requires 0 <= i < |d.element.typeParameters| =>
      TypeVariable(d.element.typeParameters[i].name))
  }

  predicate Distinct(ks: seq<TypeName>)
  {
    forall i, j :: 0 <= i < j < |ks| ==> ks[i] != ks[j]
  }

  /**
   * `Collectors.toMap(keys::get, values::get)` over the indices of `keys`, from index `i`
   * on with `acc` holding the entries collected so far.
   */
  function CollectToMap(keys: seq<TypeName>, values: seq<TypeName>, i: nat, acc: Bindings)
    : Result<Bindings, GeneratorError>
    requires i <= |keys|
    decreases |keys| - i
  {
    if i == |keys| then Ok(acc)
    else if i >= |values| then Err(IndexOutOfBounds(i, |values|))
    else if keys[i] in acc then Err(DuplicateKey(keys[i]))
    else CollectToMap(keys, values, i + 1, acc[keys[i] := values[i]])
  }

  lemma {:induction false} CollectToMapSpec(keys: seq<TypeName>, values: seq<TypeName>, i: nat,
                                            acc: Bindings)
    requires i <= |keys| && i <= |values| && Distinct(keys[..i])
    requires acc.Keys == set j | 0 <= j < i :: keys[j]
    requires forall j :: 0 <= j < i ==> acc[keys[j]] == values[j]
    ensures var r := CollectToMap(keys, values, i, acc);
      (r.Ok? <==> |keys| <= |values| && Distinct(keys)) &&
      (r.Ok? ==> r.value.Keys == (set j | 0 <= j < |keys| :: keys[j]) &&
                 forall j :: 0 <= j < |keys| ==> r.value[keys[j]] == values[j]) &&
      (r.Err? && r.error.IndexOutOfBounds? ==>
         r.error.index == r.error.length == |values| < |keys|) &&
      (r.Err? && r.error.DuplicateKey? ==>
         exists a, b :: 0 <= a < b < |keys| && keys[a] == keys[b] == r.error.key) &&
      (r.Err? ==> r.error.IndexOutOfBounds? || r.error.DuplicateKey?)
    decreases |keys| - i
  {
    if i == |keys| {
      assert keys[..i] == keys;
    } else if i >= |values| {
      assert i == |values|;
    } else if keys[i] in acc {
      var a :| 0 <= a < i && keys[a] == keys[i];
      assert !Distinct(keys);
    } else {
      var before, after := keys[..i], keys[..i + 1];
      assert Distinct(after) by {
        forall a, b | 0 <= a < b < |after|
          ensures after[a] != after[b]
        {
          if b < i {
            assert before[a] == after[a] && before[b] == after[b];
          }
        }
      }
      var acc' := acc[keys[i] := values[i]];
      assert acc'.Keys == set j | 0 <= j < i + 1 :: keys[j];
      CollectToMapSpec(keys, values, i + 1, acc');
      var r := CollectToMap(keys, values, i + 1, acc');
      if |keys| <= |values| && Distinct(keys) {
        assert r.Ok?;
      }
    }
  }

  /**
   * `getBaseTypeNameToDerived`: maps each type parameter of the super interface to the type
   * argument given for it. It fails when fewer arguments than parameters are given (the
   * index of the first missing one) or when two parameters have the same name.
   */
  function GetBaseTypeNameToDerived(d: DeclaredType): (r: Result<Bindings, GeneratorError>)
    ensures var keys := BaseTypeNames(d);
      (r.Ok? <==> |keys| <= |d.typeArguments| && Distinct(keys)) &&
      (r.Ok? ==> r.value.Keys == (set j | 0 <= j < |keys| :: keys[j]) &&
                 forall j :: 0 <= j < |keys| ==> r.value[keys[j]] == d.typeArguments[j]) &&
      (r.Err? && r.error.IndexOutOfBounds? ==>
         r.error.index == r.error.length == |d.typeArguments| < |keys|) &&
      (r.Err? && r.error.DuplicateKey? ==>
         exists a, b :: 0 <= a < b < |keys| && keys[a] == keys[b] == r.error.key)
    ensures r.Err? ==> r.error.IndexOutOfBounds? || r.error.DuplicateKey?
  {
    var keys := BaseTypeNames(d);
    assert keys[..0] == [];
    CollectToMapSpec(keys, d.typeArguments, 0, map[]);
    CollectToMap(keys, d.typeArguments, 0, map[])
  }

  // ---------------------------------------------------------------------------------------
  // Signatures

  /**
   * What `isMethodSignatureMatching` decides: same name, same number of parameters, the
   * parameter types equal after conversion with the super interface's bindings, and return
   * types that are NOT the same type.
   */
  predicate SignatureMatches(superMethod: ExecutableElement, candidate: ExecutableElement,
                             bindings: Bindings, sameType: SameType)
  {
    candidate.name == superMethod.name &&
    |superMethod.parameters| == |candidate.parameters| &&
    (forall i :: 0 <= i < |superMethod.parameters| ==>
      RecursivelyConvertType(superMethod.parameters[i].paramType, bindings) ==
      RecursivelyConvertType(candidate.parameters[i].paramType, bindings)) &&
    !sameType(superMethod.returnType, candidate.returnType)
  }

  /** `isMethodSignatureMatching`: the checks in order, returning at the first that fails. */
  method IsMethodSignatureMatching(executableElement1: ExecutableElement,
                                   executableElement2: ExecutableElement,
                                   bindings: Bindings, sameType: SameType)
    returns (matching: bool)
    ensures matching == SignatureMatches(executableElement1, executableElement2, bindings, sameType)
  {
    if executableElement2.name != executableElement1.name {
      return false;
    }
    var parameters1 := executableElement1.parameters;
    var parameters2 := executableElement2.parameters;
    if |parameters1| != |parameters2| {
      return false;
    }
    for i := 0 to |parameters1|
      invariant forall j :: 0 <= j < i ==>
        RecursivelyConvertType(parameters1[j].paramType, bindings) ==
        RecursivelyConvertType(parameters2[j].paramType, bindings)
    {
      var parameter1 := RecursivelyConvertType(parameters1[i].paramType, bindings);
      var parameter2 := RecursivelyConvertType(parameters2[i].paramType, bindings);
      if parameter1 != parameter2 {
        return false;
      }
    }
    return !sameType(executableElement1.returnType, executableElement2.returnType);
  }

  // ---------------------------------------------------------------------------------------
  // Method specs

  predicate IsSelectionAnnotation(a: Annotation)
  {
    a.annotationType == TargetSecondaryDataSource || a.annotationType == TargetSecondaryDataSources
  }

  /** The annotations other than the two that select data sources, in order. */
  function CopiedAnnotations(annotations: seq<Annotation>): (r: seq<Annotation>)
    ensures forall a :: a in r <==> a in annotations && !IsSelectionAnnotation(a)
  {
    if annotations == [] then []
    else
      (if IsSelectionAnnotation(annotations[0]) then [] else [annotations[0]]) +
      CopiedAnnotations(annotations[1..])
  }

  /**
   * `convertExecutableMethodElementToMethodSpec`: copies name, modifiers, parameters, type
   * parameters and return type, and the annotations except the data-source selection ones;
   * thrown types and the varargs flag are not carried over and there is no body.
   */
  function ConvertExecutableMethodElementToMethodSpec(m: ExecutableElement): (r: MethodSpec)
    ensures r.name == m.name && r.modifiers == m.modifiers && r.parameters == m.parameters
    ensures r.typeVariables == m.typeParameters && r.returnType == m.returnType
    ensures forall a :: a in r.annotations <==> a in m.annotations && !IsSelectionAnnotation(a)
    ensures r.exceptions == [] && !r.varargs && r.code == NoCode
  {
    MethodSpec(m.name, m.modifiers, CopiedAnnotations(m.annotations), m.parameters,
               m.typeParameters, m.returnType, [], false, NoCode)
  }

  function ConvertParameter(p: Parameter, bindings: Bindings): Parameter
  {
    Parameter(p.name, RecursivelyConvertType(p.paramType, bindings), p.annotations)
  }

  /** A type variable's first bound, converted; `bounds.get(0)` fails on an unbounded one. */
  function ConvertTypeVariables(tvs: seq<TypeParameter>, bindings: Bindings)
    : (r: Result<seq<TypeParameter>, GeneratorError>)
    ensures r.Ok? <==> forall i :: 0 <= i < |tvs| ==> tvs[i].bounds != []
    ensures r.Err? ==> r.error == IndexOutOfBounds(0, 0)
    ensures r.Ok? ==> |r.value| == |tvs| && forall i :: 0 <= i < |tvs| ==>
      r.value[i] == TypeParameter(tvs[i].name, [RecursivelyConvertType(tvs[i].bounds[0], bindings)])
  {
    if tvs == [] then Ok([])
    else if tvs[0].bounds == [] then Err(IndexOutOfBounds(0, 0))
    else
      match ConvertTypeVariables(tvs[1..], bindings)
      case Err(e) => Err(e)
      case Ok(rest) =>
        Ok([TypeParameter(tvs[0].name, [RecursivelyConvertType(tvs[0].bounds[0], bindings)])] + rest)
  }

  /**
   * The override `generateOverridenAndDisabledSuperMethods` builds for one super method:
   * `replaceAllBaseMethodTypesWithDerivedTypes` applied to the converted method, then
   * `abstract` removed, `default` added and a body that throws.
   */
  function DisabledOverride(superMethod: ExecutableElement, bindings: Bindings)
    : (r: Result<MethodSpec, GeneratorError>)
    ensures r.Ok? <==> forall i :: 0 <= i < |superMethod.typeParameters| ==>
      superMethod.typeParameters[i].bounds != []
    ensures r.Err? ==> r.error == IndexOutOfBounds(0, 0)
  {
    var spec := ConvertExecutableMethodElementToMethodSpec(superMethod);
    match ConvertTypeVariables(spec.typeVariables, bindings)
    case Err(e) => Err(e)
    case Ok(typeVariables) =>
      Ok(MethodSpec(
        spec.name,
        spec.modifiers - {Abstract} + {Default},
        spec.annotations + [Annotation(Override)],
        seq(|spec.parameters|, i requires 0 <= i < |spec.parameters| =>
          ConvertParameter(spec.parameters[i], bindings)),
        typeVariables,
        RecursivelyConvertType(spec.returnType, bindings),
        seq(|spec.exceptions|, i requires 0 <= i < |spec.exceptions| =>
          RecursivelyConvertType(spec.exceptions[i], bindings)),
        spec.varargs,
        ThrowNew(UnsupportedOperationException, DisabledMessage)))
  }

  /**
   * The override keeps the super method's name, parameter names and selection-free
   * annotations, has its parameter and return types converted to the derived types, is a
   * `default` rather than an `abstract` method marked `@Override`, and throws
   * `UnsupportedOperationException`.
   */
  lemma DisabledOverrideShape(superMethod: ExecutableElement, bindings: Bindings)
    requires DisabledOverride(superMethod, bindings).Ok?
    ensures var o := DisabledOverride(superMethod, bindings).value;
      o.name == superMethod.name &&
      o.modifiers == superMethod.modifiers - {Abstract} + {Default} &&
      Default in o.modifiers && Abstract !in o.modifiers &&
      o.annotations == CopiedAnnotations(superMethod.annotations) + [Annotation(Override)] &&
      |o.parameters| == |superMethod.parameters| &&
      (forall i :: 0 <= i < |o.parameters| ==>
        o.parameters[i].name == superMethod.parameters[i].name &&
        o.parameters[i].paramType == RecursivelyConvertType(superMethod.parameters[i].paramType, bindings)) &&
      o.returnType == RecursivelyConvertType(superMethod.returnType, bindings) &&
      |o.typeVariables| == |superMethod.typeParameters| &&
      (forall i :: 0 <= i < |o.typeVariables| ==>
        o.typeVariables[i].name == superMethod.typeParameters[i].name &&
        o.typeVariables[i].bounds ==
          [RecursivelyConvertType(superMethod.typeParameters[i].bounds[0], bindings)]) &&
      o.exceptions == [] && !o.varargs &&
      o.code == ThrowNew(UnsupportedOperationException, DisabledMessage)
  {
  }

  /** A super method that is private, final or matched by a selected method gets no override. */
  predicate Excluded(superMethod: ExecutableElement, annotatedMethods: set<ExecutableElement>,
                     bindings: Bindings, sameType: SameType)
  {
    Private in superMethod.modifiers || Final in superMethod.modifiers ||
    exists m :: m in annotatedMethods && SignatureMatches(superMethod, m, bindings, sameType)
  }

  /** What one super method contributes: nothing, its override, or the failure building it. */
  function OverrideOf(superMethod: ExecutableElement, annotatedMethods: set<ExecutableElement>,
                      bindings: Bindings, sameType: SameType): Result<set<MethodSpec>, GeneratorError>
  {
    if Excluded(superMethod, annotatedMethods, bindings, sameType) then Ok({})
    else
      match DisabledOverride(superMethod, bindings)
      case Err(e) => Err(e)
      case Ok(o) => Ok({o})
  }

  /** The overrides for a list of super methods, in order, stopping at the first failure. */
  function DisableAll(superMethods: seq<ExecutableElement>, annotatedMethods: set<ExecutableElement>,
                      bindings: Bindings, sameType: SameType): Result<set<MethodSpec>, GeneratorError>
    decreases |superMethods|
  {
    if superMethods == [] then Ok({})
    else
      match OverrideOf(superMethods[0], annotatedMethods, bindings, sameType)
      case Err(e) => Err(e)
      case Ok(first) => Including(first, DisableAll(superMethods[1..], annotatedMethods, bindings, sameType))
  }

  /** The only failure is a type variable without bounds, in a method that is not excluded. */
  lemma {:induction false} DisableAllFails(superMethods: seq<ExecutableElement>,
                                           annotatedMethods: set<ExecutableElement>,
                                           bindings: Bindings, sameType: SameType)
    ensures var r := DisableAll(superMethods, annotatedMethods, bindings, sameType);
      (r.Err? <==>
         exists i :: 0 <= i < |superMethods| &&
           !Excluded(superMethods[i], annotatedMethods, bindings, sameType) &&
           DisabledOverride(superMethods[i], bindings).Err?) &&
      (r.Err? ==> r.error == IndexOutOfBounds(0, 0))
    decreases |superMethods|
  {
    if superMethods != [] {
      var head := superMethods[0];
      var tail := superMethods[1..];
      DisableAllFails(tail, annotatedMethods, bindings, sameType);
      var first := OverrideOf(head, annotatedMethods, bindings, sameType);
      var rest := DisableAll(tail, annotatedMethods, bindings, sameType);
      assert DisableAll(superMethods, annotatedMethods, bindings, sameType) ==
        if first.Err? then Err(first.error) else Including(first.value, rest);
      assert first.Err? <==> !Excluded(head, annotatedMethods, bindings, sameType) &&
                             DisabledOverride(head, bindings).Err?;
      if rest.Err? {
        var i :| 0 <= i < |tail| && !Excluded(tail[i], annotatedMethods, bindings, sameType) &&
          DisabledOverride(tail[i], bindings).Err?;
        assert superMethods[i + 1] == tail[i];
      }
      forall i | 1 <= i < |superMethods| && !Excluded(superMethods[i], annotatedMethods, bindings, sameType) &&
                 DisabledOverride(superMethods[i], bindings).Err?
        ensures rest.Err?
      {
        assert superMethods[i] == tail[i - 1];
      }
    }
  }

  /** Every super method that is not excluded has its override in the result. */
  lemma {:induction false} DisableAllContains(superMethods: seq<ExecutableElement>,
                                              annotatedMethods: set<ExecutableElement>,
                                              bindings: Bindings, sameType: SameType, i: nat)
    requires DisableAll(superMethods, annotatedMethods, bindings, sameType).Ok?
    requires i < |superMethods| && !Excluded(superMethods[i], annotatedMethods, bindings, sameType)
    ensures DisabledOverride(superMethods[i], bindings).Ok?
    ensures DisabledOverride(superMethods[i], bindings).value in
      DisableAll(superMethods, annotatedMethods, bindings, sameType).value
    decreases i
  {
    if i > 0 {
      assert superMethods[1..][i - 1] == superMethods[i];
      DisableAllContains(superMethods[1..], annotatedMethods, bindings, sameType, i - 1);
    }
  }

  /** `o` is the override of one of the super methods that are not excluded. */
  predicate Overrides(superMethods: seq<ExecutableElement>, annotatedMethods: set<ExecutableElement>,
                      bindings: Bindings, sameType: SameType, o: MethodSpec)
  {
    exists i :: 0 <= i < |superMethods| &&
      !Excluded(superMethods[i], annotatedMethods, bindings, sameType) &&
      DisabledOverride(superMethods[i], bindings) == Ok(o)
  }

  /** Nothing but the overrides of super methods that are not excluded is generated. */
  lemma {:induction false} DisableAllOnly(superMethods: seq<ExecutableElement>,
                                          annotatedMethods: set<ExecutableElement>,
                                          bindings: Bindings, sameType: SameType, o: MethodSpec)
    requires DisableAll(superMethods, annotatedMethods, bindings, sameType).Ok?
    requires o in DisableAll(superMethods, annotatedMethods, bindings, sameType).value
    ensures Overrides(superMethods, annotatedMethods, bindings, sameType, o)
    decreases |superMethods|
  {
    var tail := superMethods[1..];
    var rest := DisableAll(tail, annotatedMethods, bindings, sameType);
    if o in OverrideOf(superMethods[0], annotatedMethods, bindings, sameType).value {
      assert DisabledOverride(superMethods[0], bindings) == Ok(o);
    } else {
      DisableAllOnly(tail, annotatedMethods, bindings, sameType, o);
      var i :| 0 <= i < |tail| &&
        !Excluded(tail[i], annotatedMethods, bindings, sameType) &&
        DisabledOverride(tail[i], bindings) == Ok(o);
      assert superMethods[i + 1] == tail[i];
    }
  }

  /** `found` added to the set `r` holds, unless `r` is an error. */
  function Including<T>(found: set<T>, r: Result<set<T>, GeneratorError>): Result<set<T>, GeneratorError>
  {
    match r
    case Err(e) => Err(e)
    case Ok(rest) => Ok(found + rest)
  }

  lemma IncludingTwice<T>(a: set<T>, b: set<T>, r: Result<set<T>, GeneratorError>)
    ensures Including(a, Including(b, r)) == Including(a + b, r)
  {
    match r
    case Err(e) =>
    case Ok(rest) => assert a + (b + rest) == a + b + rest;
  }

  /**
   * The overrides generated for one super interface: fails when its bindings cannot be
   * built, otherwise the overrides of the methods it declares.
   */
  function DisabledSuperMethods(annotatedMethods: set<ExecutableElement>, d: DeclaredType,
                                sameType: SameType): Result<set<MethodSpec>, GeneratorError>
  {
    match GetBaseTypeNameToDerived(d)
    case Err(e) => Err(e)
    case Ok(bindings) => DisableAll(d.element.methods, annotatedMethods, bindings, sameType)
  }

  /**
   * `generateOverridenAndDisabledSuperMethods`: one pass over the methods the super
   * interface declares, each checked against every selected method.
   */
  method GenerateOverridenAndDisabledSuperMethods(annotatedMethods: set<ExecutableElement>,
                                                  declaredType: DeclaredType, sameType: SameType)
    returns (r: Result<set<MethodSpec>, GeneratorError>)
    ensures r == DisabledSuperMethods(annotatedMethods, declaredType, sameType)
  {
    var bindingsOrError := GetBaseTypeNameToDerived(declaredType);
    if bindingsOrError.Err? {
      return Err(bindingsOrError.error);
    }
    var bindings := bindingsOrError.value;
    var superMethods := declaredType.element.methods;
    var overridenMethods: set<MethodSpec> := {};
    assert superMethods[0..] == superMethods;
    assert Including({}, DisableAll(superMethods, annotatedMethods, bindings, sameType)) ==
      DisableAll(superMethods, annotatedMethods, bindings, sameType) by {
      match DisableAll(superMethods, annotatedMethods, bindings, sameType)
      case Err(e) =>
      case Ok(rest) => assert {} + rest == rest;
    }
    for k := 0 to |superMethods|
      invariant DisableAll(superMethods, annotatedMethods, bindings, sameType) ==
        Including(overridenMethods, DisableAll(superMethods[k..], annotatedMethods, bindings, sameType))
    {
      var superMethod := superMethods[k];
      ghost var later := DisableAll(superMethods[k + 1..], annotatedMethods, bindings, sameType);
      assert superMethods[k..][0] == superMethod;
      assert superMethods[k..][1..] == superMethods[k + 1..];
      assert DisableAll(superMethods[k..], annotatedMethods, bindings, sameType) ==
        match OverrideOf(superMethod, annotatedMethods, bindings, sameType)
        case Err(e) => Err(e)
        case Ok(first) => Including(first, later);
      var shouldExcludeMethod := Private in superMethod.modifiers || Final in superMethod.modifiers;
      if !shouldExcludeMethod {
        shouldExcludeMethod := AnyMatch(superMethod, annotatedMethods, bindings, sameType);
      }
      assert shouldExcludeMethod == Excluded(superMethod, annotatedMethods, bindings, sameType);
      if !shouldExcludeMethod {
        var disabledSpec := DisabledOverride(superMethod, bindings);
        if disabledSpec.Err? {
          return Err(disabledSpec.error);
        }
        IncludingTwice(overridenMethods, {disabledSpec.value}, later);
        overridenMethods := overridenMethods + {disabledSpec.value};
      } else {
        IncludingTwice(overridenMethods, {}, later);
        assert overridenMethods + {} == overridenMethods;
      }
    }
    assert superMethods[|superMethods|..] == [];
    return Ok(overridenMethods);
  }

  /** `annotatedMethods.stream().anyMatch(...)`, visiting the set in an unspecified order. */
  method AnyMatch(superMethod: ExecutableElement, annotatedMethods: set<ExecutableElement>,
                  bindings: Bindings, sameType: SameType)
    returns (found: bool)
    ensures found <==> exists m :: m in annotatedMethods && SignatureMatches(superMethod, m, bindings, sameType)
  {
    var remaining := annotatedMethods;
    while remaining != {}
      invariant remaining <= annotatedMethods
      invariant forall m :: m in annotatedMethods - remaining ==> !SignatureMatches(superMethod, m, bindings, sameType)
      decreases |remaining|
    {
      var annotatedMethod :| annotatedMethod in remaining;
      var matching := IsMethodSignatureMatching(superMethod, annotatedMethod, bindings, sameType);
      if matching {
        return true;
      }
      remaining := remaining - {annotatedMethod};
    }
    return false;
  }

  // ---------------------------------------------------------------------------------------
  // The generated repository

  /** The name of the generated type: the data source in PascalCase, then the original name. */
  function GeneratedTypeName(typeElement: TypeElement, dataSourceName: string): string
  {
    CaseConversion.ToPascalCase(dataSourceName) + typeElement.className.simpleName
  }

  /** The overrides for all super interfaces, in order, stopping at the first failure. */
  function DisabledForInterfaces(annotatedMethods: set<ExecutableElement>, interfaces: seq<DeclaredType>,
                                 sameType: SameType): Result<set<MethodSpec>, GeneratorError>
    decreases |interfaces|
  {
    if interfaces == [] then Ok({})
    else
      match DisabledSuperMethods(annotatedMethods, interfaces[0], sameType)
      case Err(e) => Err(e)
      case Ok(first) => Including(first, DisabledForInterfaces(annotatedMethods, interfaces[1..], sameType))
  }

  function SuperinterfaceNames(interfaces: seq<DeclaredType>): (r: seq<TypeName>)
    ensures |r| == |interfaces| && forall i :: 0 <= i < |r| ==> r[i] == TypeNameOf(interfaces[i])
  {
    seq(|interfaces|, i requires 0 <= i < |interfaces| => TypeNameOf(interfaces[i]))
  }

  function CopiedMethods(annotatedMethods: set<ExecutableElement>): set<MethodSpec>
  {
    set m | m in annotatedMethods :: ConvertExecutableMethodElementToMethodSpec(m)
  }

  /** What `generateRepositoryTypeElementWithAnnotatedMethods` returns or throws. */
  function RepositoryFor(typeElement: TypeElement, annotatedMethods: set<ExecutableElement>,
                         dataSourceName: string, sameType: SameType)
    : Result<RepositorySpec, GeneratorError>
  {
    var name := GeneratedTypeName(typeElement, dataSourceName);
    if typeElement.kind != Interface && typeElement.kind != Class then
      Err(NotClassOrInterface(QualifiedName(typeElement.className)))
    else
      match DisabledForInterfaces(annotatedMethods, typeElement.interfaces, sameType)
      case Err(e) => Err(e)
      case Ok(disabled) =>
        Ok(RepositorySpec(
          name,
          typeElement.kind == Interface,
          {Public},
          typeElement.typeParameters,
          name + "." + RepositoryBeanName,
          SuperinterfaceNames(typeElement.interfaces) + [Declared(IGeneratedDataSourceRepository)],
          ConstantStringField(RepositoryBeanName, [name]),
          CopiedMethods(annotatedMethods),
          disabled))
  }

  /**
   * `generateRepositoryTypeElementWithAnnotatedMethods`: rejects anything but a class or an
   * interface, then walks the super interfaces collecting their disabled overrides.
   */
  method GenerateRepositoryTypeElementWithAnnotatedMethods(typeElement: TypeElement,
                                                          methods: set<ExecutableElement>,
                                                          dataSourceName: string,
                                                          sameType: SameType)
    returns (r: Result<RepositorySpec, GeneratorError>)
    ensures r == RepositoryFor(typeElement, methods, dataSourceName, sameType)
  {
    var generatedTypename := GeneratedTypeName(typeElement, dataSourceName);
    if typeElement.kind != Interface && typeElement.kind != Class {
      return Err(NotClassOrInterface(QualifiedName(typeElement.className)));
    }
    var typeVariableNames := typeElement.typeParameters;
    var superinterfaces, superMethods := WalkSuperinterfaces(methods, typeElement.interfaces, sameType);
    if superMethods.Err? {
      return Err(superMethods.error);
    }
    superinterfaces := superinterfaces + [Declared(IGeneratedDataSourceRepository)];
    var methodSpecs := set m | m in methods :: ConvertExecutableMethodElementToMethodSpec(m);
    var repositoryBeanNameFieldSpec :=
      GeneratorUtils.CreateConstantStringFieldSpec(RepositoryBeanName, [generatedTypename]);
    var repositoryAnnotationValue := generatedTypename + "." + repositoryBeanNameFieldSpec.name;
    return Ok(RepositorySpec(generatedTypename, typeElement.kind == Interface, {Public},
                             typeVariableNames, repositoryAnnotationValue, superinterfaces,
                             repositoryBeanNameFieldSpec, methodSpecs, superMethods.value));
  }

  /**
   * The loop of `generateRepositoryTypeElementWithAnnotatedMethods` over the super interfaces:
   * their names in order, and the disabled overrides of all of them, stopping at the first
   * failure.
   */
  method WalkSuperinterfaces(methods: set<ExecutableElement>, interfaces: seq<DeclaredType>, sameType: SameType)
    returns (superinterfaces: seq<TypeName>, r: Result<set<MethodSpec>, GeneratorError>)
    ensures r == DisabledForInterfaces(methods, interfaces, sameType)
    ensures r.Ok? ==> superinterfaces == SuperinterfaceNames(interfaces)
  {
    superinterfaces := [];
    var superMethods: set<MethodSpec> := {};
    assert interfaces[0..] == interfaces;
    assert Including({}, DisabledForInterfaces(methods, interfaces, sameType)) ==
      DisabledForInterfaces(methods, interfaces, sameType) by {
      match DisabledForInterfaces(methods, interfaces, sameType)
      case Err(e) =>
      case Ok(rest) => assert {} + rest == rest;
    }
    for k := 0 to |interfaces|
      invariant superinterfaces == SuperinterfaceNames(interfaces[..k])
      invariant DisabledForInterfaces(methods, interfaces, sameType) ==
        Including(superMethods, DisabledForInterfaces(methods, interfaces[k..], sameType))
    {
      assert interfaces[k..][1..] == interfaces[k + 1..];
      assert interfaces[..k + 1] == interfaces[..k] + [interfaces[k]];
      ghost var later := DisabledForInterfaces(methods, interfaces[k + 1..], sameType);
      superinterfaces := superinterfaces + [TypeNameOf(interfaces[k])];
      var methodsToAdd := GenerateOverridenAndDisabledSuperMethods(methods, interfaces[k], sameType);
      if methodsToAdd.Err? {
        return superinterfaces, Err(methodsToAdd.error);
      }
      IncludingTwice(superMethods, methodsToAdd.value, later);
      superMethods := superMethods + methodsToAdd.value;
    }
    assert interfaces[..|interfaces|] == interfaces;
    assert interfaces[|interfaces|..] == [];
    assert {} + superMethods == superMethods;
    return superinterfaces, Ok(superMethods);
  }

  // ---------------------------------------------------------------------------------------
  // Properties of the generated repository

  lemma {:induction false} DisabledForInterfacesFails(annotatedMethods: set<ExecutableElement>,
                                                      interfaces: seq<DeclaredType>, sameType: SameType)
    ensures var r := DisabledForInterfaces(annotatedMethods, interfaces, sameType);
      (r.Err? <==>
         exists j :: 0 <= j < |interfaces| && DisabledSuperMethods(annotatedMethods, interfaces[j], sameType).Err?) &&
      (r.Err? ==> !r.error.NotClassOrInterface?)
    decreases |interfaces|
  {
    if interfaces != [] {
      var tail := interfaces[1..];
      DisabledForInterfacesFails(annotatedMethods, tail, sameType);
      assert forall j :: 1 <= j < |interfaces| ==> interfaces[j] == tail[j - 1];
      var first := DisabledSuperMethods(annotatedMethods, interfaces[0], sameType);
      if GetBaseTypeNameToDerived(interfaces[0]).Ok? {
        DisableAllFails(interfaces[0].element.methods, annotatedMethods,
                        GetBaseTypeNameToDerived(interfaces[0]).value, sameType);
      }
      if DisabledForInterfaces(annotatedMethods, tail, sameType).Err? {
        var j :| 0 <= j < |tail| && DisabledSuperMethods(annotatedMethods, tail[j], sameType).Err?;
        assert interfaces[j + 1] == tail[j];
      }
    }
  }

  /**
   * Anything but a class or an interface is refused with its qualified name; otherwise the
   * generator fails exactly when one super interface's bindings or overrides cannot be built.
   */
  lemma RepositoryForFails(typeElement: TypeElement, annotatedMethods: set<ExecutableElement>,
                           dataSourceName: string, sameType: SameType)
    ensures var r := RepositoryFor(typeElement, annotatedMethods, dataSourceName, sameType);
      (r.Err? && r.error.NotClassOrInterface? <==>
         typeElement.kind != Interface && typeElement.kind != Class) &&
      (r.Err? && r.error.NotClassOrInterface? ==>
         r.error.qualifiedName == QualifiedName(typeElement.className)) &&
      ((typeElement.kind == Interface || typeElement.kind == Class) ==>
         (r.Err? <==>
            exists j :: 0 <= j < |typeElement.interfaces| &&
              DisabledSuperMethods(annotatedMethods, typeElement.interfaces[j], sameType).Err?))
  {
    DisabledForInterfacesFails(annotatedMethods, typeElement.interfaces, sameType);
  }

  /**
   * The generated repository is named after the data source and the original type, keeps
   * the original's kind and super interfaces and adds `IGeneratedDataSourceRepository`; its
   * bean-name constant is a single `String` holding that name, and the `@Repository`
   * annotation refers to the constant.
   */
  lemma RepositoryNaming(typeElement: TypeElement, annotatedMethods: set<ExecutableElement>,
                         dataSourceName: string, sameType: SameType)
    requires RepositoryFor(typeElement, annotatedMethods, dataSourceName, sameType).Ok?
    ensures var r := RepositoryFor(typeElement, annotatedMethods, dataSourceName, sameType).value;
      r.name == CaseConversion.ToPascalCase(dataSourceName) + typeElement.className.simpleName &&
      (r.isInterface <==> typeElement.kind == Interface) &&
      r.modifiers == {Public} && r.typeVariables == typeElement.typeParameters &&
      |r.superinterfaces| == |typeElement.interfaces| + 1 &&
      (forall j :: 0 <= j < |typeElement.interfaces| ==>
        r.superinterfaces[j] == TypeNameOf(typeElement.interfaces[j])) &&
      r.superinterfaces[|typeElement.interfaces|] == Declared(IGeneratedDataSourceRepository) &&
      r.beanNameField.name == RepositoryBeanName && r.beanNameField.fieldType == StringType &&
      Expand(r.beanNameField.initializerFormat, r.beanNameField.initializerArgs) == Some(Quote(r.name)) &&
      r.repositoryAnnotationValue == r.name + "." + r.beanNameField.name
  {
  }

  /**
   * Exactly the selected methods are copied, each under its own signature and without the
   * annotations that select data sources.
   */
  lemma RepositoryCopiesSelectedMethods(typeElement: TypeElement, annotatedMethods: set<ExecutableElement>,
                                        dataSourceName: string, sameType: SameType)
    requires RepositoryFor(typeElement, annotatedMethods, dataSourceName, sameType).Ok?
    ensures var r := RepositoryFor(typeElement, annotatedMethods, dataSourceName, sameType).value;
      (forall m :: m in annotatedMethods ==> ConvertExecutableMethodElementToMethodSpec(m) in r.copiedMethods) &&
      (forall o :: o in r.copiedMethods ==>
         exists m :: m in annotatedMethods &&
           o.name == m.name && o.parameters == m.parameters && o.returnType == m.returnType) &&
      (forall o, a :: o in r.copiedMethods && a in o.annotations ==> !IsSelectionAnnotation(a))
  {
    var r := RepositoryFor(typeElement, annotatedMethods, dataSourceName, sameType).value;
    forall o | o in r.copiedMethods
      ensures exists m :: m in annotatedMethods &&
                o.name == m.name && o.parameters == m.parameters && o.returnType == m.returnType
    {
      var m :| m in annotatedMethods && o == ConvertExecutableMethodElementToMethodSpec(m);
    }
  }

  lemma {:induction false} DisabledForInterfacesContains(annotatedMethods: set<ExecutableElement>,
                                                         interfaces: seq<DeclaredType>,
                                                         sameType: SameType, j: nat, o: MethodSpec)
    requires DisabledForInterfaces(annotatedMethods, interfaces, sameType).Ok?
    requires j < |interfaces| && DisabledSuperMethods(annotatedMethods, interfaces[j], sameType).Ok?
    requires o in DisabledSuperMethods(annotatedMethods, interfaces[j], sameType).value
    ensures o in DisabledForInterfaces(annotatedMethods, interfaces, sameType).value
    decreases j
  {
    var first := DisabledSuperMethods(annotatedMethods, interfaces[0], sameType);
    var rest := DisabledForInterfaces(annotatedMethods, interfaces[1..], sameType);
    assert first.Ok? && rest.Ok?;
    assert DisabledForInterfaces(annotatedMethods, interfaces, sameType).value == first.value + rest.value;
    if j > 0 {
      assert interfaces[1..][j - 1] == interfaces[j];
      DisabledForInterfacesContains(annotatedMethods, interfaces[1..], sameType, j - 1, o);
    }
  }

  lemma {:induction false} DisabledForInterfacesOnly(annotatedMethods: set<ExecutableElement>,
                                                     interfaces: seq<DeclaredType>,
                                                     sameType: SameType, o: MethodSpec)
    requires DisabledForInterfaces(annotatedMethods, interfaces, sameType).Ok?
    requires o in DisabledForInterfaces(annotatedMethods, interfaces, sameType).value
    ensures exists j :: 0 <= j < |interfaces| &&
              DisabledSuperMethods(annotatedMethods, interfaces[j], sameType).Ok? &&
              o in DisabledSuperMethods(annotatedMethods, interfaces[j], sameType).value
    decreases |interfaces|
  {
    if o !in DisabledSuperMethods(annotatedMethods, interfaces[0], sameType).value {
      var tail := interfaces[1..];
      DisabledForInterfacesOnly(annotatedMethods, tail, sameType, o);
      var j :| 0 <= j < |tail| && DisabledSuperMethods(annotatedMethods, tail[j], sameType).Ok? &&
        o in DisabledSuperMethods(annotatedMethods, tail[j], sameType).value;
      assert interfaces[j + 1] == tail[j];
    }
  }

  /**
   * Every method a super interface declares that is neither private, final nor matched by a
   * selected method is overridden by its disabled form.
   */
  lemma RepositoryDisablesOtherMethods(typeElement: TypeElement, annotatedMethods: set<ExecutableElement>,
                                       dataSourceName: string, sameType: SameType, j: nat, i: nat)
    requires RepositoryFor(typeElement, annotatedMethods, dataSourceName, sameType).Ok?
    requires j < |typeElement.interfaces| && i < |typeElement.interfaces[j].element.methods|
    ensures GetBaseTypeNameToDerived(typeElement.interfaces[j]).Ok?
    ensures var superMethod := typeElement.interfaces[j].element.methods[i];
      var bindings := GetBaseTypeNameToDerived(typeElement.interfaces[j]).value;
      !Excluded(superMethod, annotatedMethods, bindings, sameType) ==>
        DisabledOverride(superMethod, bindings).Ok? &&
        DisabledOverride(superMethod, bindings).value in
          RepositoryFor(typeElement, annotatedMethods, dataSourceName, sameType).value.disabledMethods
  {
    var d := typeElement.interfaces[j];
    DisabledForInterfacesFails(annotatedMethods, typeElement.interfaces, sameType);
    var bindings := GetBaseTypeNameToDerived(d).value;
    var superMethod := d.element.methods[i];
    if !Excluded(superMethod, annotatedMethods, bindings, sameType) {
      DisableAllContains(d.element.methods, annotatedMethods, bindings, sameType, i);
      DisabledForInterfacesContains(annotatedMethods, typeElement.interfaces, sameType, j,
                                    DisabledOverride(superMethod, bindings).value);
    }
  }

  /** Every disabled method is the override of such a super method. */
  lemma RepositoryDisablesNothingElse(typeElement: TypeElement, annotatedMethods: set<ExecutableElement>,
                                      dataSourceName: string, sameType: SameType, o: MethodSpec)
    requires RepositoryFor(typeElement, annotatedMethods, dataSourceName, sameType).Ok?
    requires o in RepositoryFor(typeElement, annotatedMethods, dataSourceName, sameType).value.disabledMethods
    ensures exists j :: 0 <= j < |typeElement.interfaces| &&
              GetBaseTypeNameToDerived(typeElement.interfaces[j]).Ok? &&
              Overrides(typeElement.interfaces[j].element.methods, annotatedMethods,
                        GetBaseTypeNameToDerived(typeElement.interfaces[j]).value, sameType, o)
  {
    DisabledForInterfacesOnly(annotatedMethods, typeElement.interfaces, sameType, o);
    var j :| 0 <= j < |typeElement.interfaces| &&
      DisabledSuperMethods(annotatedMethods, typeElement.interfaces[j], sameType).Ok? &&
      o in DisabledSuperMethods(annotatedMethods, typeElement.interfaces[j], sameType).value;
    var d := typeElement.interfaces[j];
    DisableAllOnly(d.element.methods, annotatedMethods, GetBaseTypeNameToDerived(d).value, sameType, o);
  }

  /**
   * This documents the code as written: the signature match asks that the return types NOT
   * be the same type, so a selected method whose return type is the same type as that of the
   * super method it redeclares does not count as matching it, and the repository then holds
   * both the copy and a disabled override with the same name and parameter count.
   */
  lemma SameReturnTypeKeepsBoth(typeElement: TypeElement, annotatedMethods: set<ExecutableElement>,
                                dataSourceName: string, sameType: SameType, j: nat, i: nat,
                                selected: ExecutableElement)
    requires RepositoryFor(typeElement, annotatedMethods, dataSourceName, sameType).Ok?
    requires j < |typeElement.interfaces| && i < |typeElement.interfaces[j].element.methods|
    requires selected in annotatedMethods
    requires var superMethod := typeElement.interfaces[j].element.methods[i];
      Private !in superMethod.modifiers && Final !in superMethod.modifiers &&
      selected.name == superMethod.name && |selected.parameters| == |superMethod.parameters| &&
      forall m :: m in annotatedMethods && m.name == superMethod.name ==>
        sameType(superMethod.returnType, m.returnType)
    ensures var r := RepositoryFor(typeElement, annotatedMethods, dataSourceName, sameType).value;
      (exists c :: c in r.copiedMethods && c.name == selected.name &&
         |c.parameters| == |selected.parameters|) &&
      (exists o :: o in r.disabledMethods && o.name == selected.name &&
         |o.parameters| == |selected.parameters|)
  {
    var r := RepositoryFor(typeElement, annotatedMethods, dataSourceName, sameType).value;
    var superMethod := typeElement.interfaces[j].element.methods[i];
    RepositoryDisablesOtherMethods(typeElement, annotatedMethods, dataSourceName, sameType, j, i);
    var bindings := GetBaseTypeNameToDerived(typeElement.interfaces[j]).value;
    assert !Excluded(superMethod, annotatedMethods, bindings, sameType);
    DisabledOverrideShape(superMethod, bindings);
    assert ConvertExecutableMethodElementToMethodSpec(selected) in r.copiedMethods;
  }
}

=== FILE: repository_scenario.dfy ===
/**
 * The repository of the generator's unit test: an interface extending
 * `JpaRepository<Object, Long>` that selects `findByCustomObjectId` for "replica-2" and its
 * own `findAll` for "read-replica".
 */
module RepositoryScenario {
  import opened Wrappers
  import opened JavaModel
  import opened RepositoryGenerator

  /** The test tags its methods with this older annotation, which the generator does not strip. */
  const MultiDataSourceRepository := ClassName(AnnotationsPackage, "MultiDataSourceRepository")
  const NonNull := ClassName("org.springframework.lang", "NonNull")
  const ListClass := ClassName("java.util", "List")
  const ObjectClass := ClassName("java.lang", "Object")
  const LongClass := ClassName("java.lang", "Long")
  const ListOfT := Parameterized(ListClass, [TypeVariable("T")])
  const ListOfObject := Parameterized(ListClass, [Declared(ObjectClass)])

  /** `JpaRepository<T, ID>`, reduced to its `findAll`. */
  const JpaFindAll := ExecutableElement("findAll", {Public, Abstract}, [], [], [], ListOfT, [], false)
  const JpaRepository := TypeElement(ClassName("org.springframework.data.jpa.repository", "JpaRepository"),
                                     Interface, [TypeParameter("T", []), TypeParameter("ID", [])],
                                     [], [JpaFindAll])

  const FindByCustomObjectId := ExecutableElement(
    "findByCustomObjectId", {Public, Abstract}, [Annotation(MultiDataSourceRepository)],
    [Parameter("customObjectId", Primitive("long"), [])], [], Declared(ObjectClass),
    [], false)
  const FindAll := ExecutableElement(
    "findAll", {Public, Abstract}, [Annotation(Override), Annotation(MultiDataSourceRepository), Annotation(NonNull)],
    [], [], ListOfObject, [], false)

  const MockConfigTestRepository := TypeElement(
    ClassName("io.github.dhi13man.spring.datasource.generators", "MockConfigTestRepository"),
    Interface, [], [DeclaredType(JpaRepository, [Declared(ObjectClass), Declared(LongClass)])],
    [FindByCustomObjectId, FindAll])

  lemma JpaBindings()
    ensures GetBaseTypeNameToDerived(MockConfigTestRepository.interfaces[0]) ==
      Ok(map[TypeVariable("T") := Declared(ObjectClass), TypeVariable("ID") := Declared(LongClass)])
  {
    var d := MockConfigTestRepository.interfaces[0];
    var r := GetBaseTypeNameToDerived(d);
    var keys := BaseTypeNames(d);
    assert keys == [TypeVariable("T"), TypeVariable("ID")];
    assert Distinct(keys);
    assert r.Ok?;
    var expected := map[TypeVariable("T") := Declared(ObjectClass), TypeVariable("ID") := Declared(LongClass)];
    forall k | k in r.value.Keys
      ensures k in expected && r.value[k] == expected[k]
    {
      var j :| 0 <= j < |keys| && keys[j] == k;
    }
    assert keys[0] in r.value.Keys && keys[1] in r.value.Keys;
    assert r.value == expected;
  }

  /**
   * For "read-replica" the selected `findAll` (returning `List<Object>`, not the same type
   * as `List<T>`) matches the super interface's, so it is copied and, with `JpaRepository`
   * reduced to `findAll`, nothing is disabled.
   */
  lemma ReadReplicaRepository(sameType: SameType, name: string)
    requires !sameType(ListOfT, ListOfObject)
    ensures var r := RepositoryFor(MockConfigTestRepository, {FindAll}, name, sameType);
      r.Ok? && r.value.disabledMethods == {} &&
      r.value.copiedMethods == {ConvertExecutableMethodElementToMethodSpec(FindAll)}
  {
    JpaBindings();
    var bindings := GetBaseTypeNameToDerived(MockConfigTestRepository.interfaces[0]).value;
    assert RecursivelyConvertType(ListOfT, bindings) == ListOfObject;
    assert SignatureMatches(JpaFindAll, FindAll, bindings, sameType);
    assert Excluded(JpaFindAll, {FindAll}, bindings, sameType);
    assert OverrideOf(JpaFindAll, {FindAll}, bindings, sameType) == Ok({});
    assert [JpaFindAll][1..] == [];
    assert DisableAll([], {FindAll}, bindings, sameType) == Ok({});
    var none: set<MethodSpec> := {};
    assert none + none == none;
    assert Including(none, DisableAll([], {FindAll}, bindings, sameType)) == Ok(none);
    assert DisableAll([JpaFindAll], {FindAll}, bindings, sameType) == Ok({});
    assert DisabledForInterfaces({FindAll}, MockConfigTestRepository.interfaces[1..], sameType) == Ok({});
    assert DisabledForInterfaces({FindAll}, MockConfigTestRepository.interfaces, sameType) == Ok({});
    var r := RepositoryFor(MockConfigTestRepository, {FindAll}, name, sameType);
    assert r.value.copiedMethods == CopiedMethods({FindAll});
    CopiedOne(FindAll);
  }

  /** One selected method gives one copy. */
  lemma CopiedOne(m: ExecutableElement)
    ensures CopiedMethods({m}) == {ConvertExecutableMethodElementToMethodSpec(m)}
  {
  }

  /**
   * For "replica-2" only `findByCustomObjectId` is copied, and the super interface's `findAll` is
   * overridden by a disabled `List<Object> findAll()`.
   */
  lemma Replica2Repository(sameType: SameType, name: string)
    ensures var r := RepositoryFor(MockConfigTestRepository, {FindByCustomObjectId}, name, sameType);
      r.Ok? &&
      r.value.copiedMethods == {ConvertExecutableMethodElementToMethodSpec(FindByCustomObjectId)} &&
      |r.value.disabledMethods| == 1 &&
      (forall o :: o in r.value.disabledMethods ==>
        o.name == "findAll" && o.returnType == ListOfObject && Default in o.modifiers &&
        o.code == ThrowNew(UnsupportedOperationException, DisabledMessage))
  {
    JpaBindings();
    var bindings := GetBaseTypeNameToDerived(MockConfigTestRepository.interfaces[0]).value;
    assert RecursivelyConvertType(ListOfT, bindings) == ListOfObject;
    assert !SignatureMatches(JpaFindAll, FindByCustomObjectId, bindings, sameType);
    assert !Excluded(JpaFindAll, {FindByCustomObjectId}, bindings, sameType);
    assert DisabledOverride(JpaFindAll, bindings).Ok?;
    var o := DisabledOverride(JpaFindAll, bindings).value;
    DisabledOverrideShape(JpaFindAll, bindings);
    assert OverrideOf(JpaFindAll, {FindByCustomObjectId}, bindings, sameType) == Ok({o});
    assert [JpaFindAll][1..] == [];
    assert DisableAll([], {FindByCustomObjectId}, bindings, sameType) == Ok({});
    assert {o} + {} == {o};
    assert Including({o}, DisableAll([], {FindByCustomObjectId}, bindings, sameType)) == Ok({o});
    assert DisableAll([JpaFindAll], {FindByCustomObjectId}, bindings, sameType) == Ok({o});
    assert DisabledForInterfaces({FindByCustomObjectId}, MockConfigTestRepository.interfaces[1..], sameType) == Ok({});
    assert DisabledForInterfaces({FindByCustomObjectId}, MockConfigTestRepository.interfaces, sameType) == Ok({o});
    var r := RepositoryFor(MockConfigTestRepository, {FindByCustomObjectId}, name, sameType);
    assert r.value.copiedMethods == CopiedMethods({FindByCustomObjectId});
    assert r.value.disabledMethods == {o};
    CopiedOne(FindByCustomObjectId);
  }
}

=== FILE: runs.dfy ===
/**
 * `s.split(regex)` followed by dropping the empty pieces, where the regex matches exactly one
 * character of a class: the result is the sequence of maximal runs of the characters outside
 * that class. `keep` is the complement of the class matched by the regex.
 */
module Runs {
  import opened Text

  /**
   * The pieces `String.split` produces before empty pieces are dropped: every character
   * that is not kept ends a piece (trailing empty pieces are removed by Java, which is
   * irrelevant once all empty pieces are filtered out).
   */
  function SplitAt(s: string, keep: char -> bool): (r: seq<string>)
    ensures |r| >= 1
    decreases |s|
  {
    if s == [] then [[]]
    else
      var rest := SplitAt(s[1..], keep);
      if keep(s[0]) then [[s[0]] + rest[0]] + rest[1..] else [[]] + rest
  }

  /** `.filter(piece -> !piece.isEmpty())`. */
  function NonEmpty(ps: seq<string>): (r: seq<string>)
    ensures forall i :: 0 <= i < |r| ==> r[i] != []
  {
    if ps == [] then []
    else (if ps[0] == [] then [] else [ps[0]]) + NonEmpty(ps[1..])
  }

  /** What the split-and-filter idiom returns. */
  function Fragments(s: string, keep: char -> bool): seq<string>
  {
    NonEmpty(SplitAt(s, keep))
  }

  /** Length of the longest prefix of `s` whose characters are all kept. */
  function RunLength(s: string, keep: char -> bool): (n: nat)
    ensures n <= |s|
    ensures forall i :: 0 <= i < n ==> keep(s[i])
    ensures n < |s| ==> !keep(s[n])
    decreases |s|
  {
    if s == [] || !keep(s[0]) then 0 else 1 + RunLength(s[1..], keep)
  }

  /** Reference definition: the maximal runs of kept characters, left to right. */
  function MaximalRuns(s: string, keep: char -> bool): seq<string>
    decreases |s|
  {
    if s == [] then []
    else if !keep(s[0]) then MaximalRuns(s[1..], keep)
    else
      var n := RunLength(s, keep);
      [s[..n]] + MaximalRuns(s[n..], keep)
  }

  /** A piece made only of kept characters and containing at least one. */
  predicate IsRun(p: string, keep: char -> bool)
  {
    p != [] && forall i :: 0 <= i < |p| ==> keep(p[i])
  }

  /** A gap made only of dropped characters. */
  predicate IsGap(g: string, keep: char -> bool)
  {
    forall i :: 0 <= i < |g| ==> !keep(g[i])
  }

  /** `gaps[0] + ps[0] + gaps[1] + ps[1] + ... + ps[n-1] + gaps[n]`. */
  function Interleave(gaps: seq<string>, ps: seq<string>): string
    requires |gaps| == |ps| + 1
    decreases |ps|
  {
    if ps == [] then gaps[0] else gaps[0] + ps[0] + Interleave(gaps[1..], ps[1..])
  }

  lemma NonEmptyAppend(a: seq<string>, b: seq<string>)
    ensures NonEmpty(a + b) == NonEmpty(a) + NonEmpty(b)
    decreases |a|
  {
    if a == [] {
      assert a + b == b;
    } else {
      assert (a + b)[1..] == a[1..] + b;
      NonEmptyAppend(a[1..], b);
    }
  }

  /** The first piece of a split is the leading run; the others are the split of the rest. */
  lemma {:induction false} SplitAtRun(s: string, keep: char -> bool)
    ensures var n := RunLength(s, keep);
      SplitAt(s, keep)[0] == s[..n] &&
      SplitAt(s, keep)[1..] == (if n < |s| then SplitAt(s[n + 1..], keep) else [])
    decreases |s|
  {
    if s != [] && keep(s[0]) {
      SplitAtRun(s[1..], keep);
      var n' := RunLength(s[1..], keep);
      if n' + 1 < |s| {
        assert s[1..][n' + 1..] == s[n' + 2..];
      }
      assert [s[0]] + s[1..][..n'] == s[..n' + 1];
    }
  }

  /** The split-and-filter idiom computes exactly the maximal runs. */
  lemma {:induction false} FragmentsAreMaximalRuns(s: string, keep: char -> bool)
    ensures Fragments(s, keep) == MaximalRuns(s, keep)
    decreases |s|
  {
    if s == [] {
    } else if !keep(s[0]) {
      NonEmptyAppend([[]], SplitAt(s[1..], keep));
      FragmentsAreMaximalRuns(s[1..], keep);
    } else {
      var n := RunLength(s, keep);
      SplitAtRun(s, keep);
      var split := SplitAt(s, keep);
      assert split == [split[0]] + split[1..];
      NonEmptyAppend([split[0]], split[1..]);
      if n < |s| {
        FragmentsAreMaximalRuns(s[n + 1..], keep);
        assert s[n..][1..] == s[n + 1..];
      }
    }
  }

  /** Every run is non-empty and made of kept characters only. */
  lemma {:induction false} RunsAreRuns(s: string, keep: char -> bool)
    ensures forall i :: 0 <= i < |MaximalRuns(s, keep)| ==> IsRun(MaximalRuns(s, keep)[i], keep)
    decreases |s|
  {
    if s == [] {
    } else if !keep(s[0]) {
      RunsAreRuns(s[1..], keep);
    } else {
      var n := RunLength(s, keep);
      RunsAreRuns(s[n..], keep);
    }
  }

  /** Gluing the runs back together gives the input with the dropped characters removed. */
  lemma {:induction false} RunsConcat(s: string, keep: char -> bool)
    ensures Concat(MaximalRuns(s, keep)) == Filter(s, keep)
    decreases |s|
  {
    if s == [] {
    } else if !keep(s[0]) {
      RunsConcat(s[1..], keep);
    } else {
      var n := RunLength(s, keep);
      RunsConcat(s[n..], keep);
      assert s == s[..n] + s[n..];
      FilterAppend(s[..n], s[n..], keep);
      FilterAllKept(s[..n], keep);
    }
  }

  /** There are no runs exactly when no character is kept. */
  lemma RunsEmptyIff(s: string, keep: char -> bool)
    ensures MaximalRuns(s, keep) == [] <==> forall i :: 0 <= i < |s| ==> !keep(s[i])
  {
    RunsConcat(s, keep);
    RunsAreRuns(s, keep);
    FilterEmptyIff(s, keep);
    var rs := MaximalRuns(s, keep);
    if rs != [] {
      assert Concat(rs) == rs[0] + Concat(rs[1..]);
      assert |Concat(rs)| >= |rs[0]| > 0;
    }
  }

  /** Leading dropped characters do not change the runs. */
  lemma {:induction false} SkipGap(g: string, rest: string, keep: char -> bool)
    requires IsGap(g, keep)
    ensures MaximalRuns(g + rest, keep) == MaximalRuns(rest, keep)
    decreases |g|
  {
    if g != [] {
      assert (g + rest)[1..] == g[1..] + rest;
      SkipGap(g[1..], rest, keep);
    } else {
      assert g + rest == rest;
    }
  }

  lemma {:induction false} RunLengthOfRun(p: string, rest: string, keep: char -> bool)
    requires forall i :: 0 <= i < |p| ==> keep(p[i])
    requires rest == [] || !keep(rest[0])
    ensures RunLength(p + rest, keep) == |p|
    decreases |p|
  {
    if p != [] {
      assert (p + rest)[1..] == p[1..] + rest;
      RunLengthOfRun(p[1..], rest, keep);
    } else {
      assert p + rest == rest;
    }
  }

  /** A leading run that is followed by a dropped character (or nothing) is the first run. */
  lemma TakeRun(p: string, rest: string, keep: char -> bool)
    requires IsRun(p, keep)
    requires rest == [] || !keep(rest[0])
    ensures MaximalRuns(p + rest, keep) == [p] + MaximalRuns(rest, keep)
  {
    RunLengthOfRun(p, rest, keep);
    assert (p + rest)[..|p|] == p;
    assert (p + rest)[|p|..] == rest;
  }

  /**
   * Uniqueness: any decomposition of a string into runs separated by gaps of dropped
   * characters (the inner gaps non-empty) has exactly the maximal runs as its runs.
   */
  lemma {:induction false} InterleaveRuns(gaps: seq<string>, ps: seq<string>, keep: char -> bool)
    requires |gaps| == |ps| + 1
    requires forall i :: 0 <= i < |gaps| ==> IsGap(gaps[i], keep)
    requires forall i :: 0 < i < |ps| ==> gaps[i] != []
    requires forall i :: 0 <= i < |ps| ==> IsRun(ps[i], keep)
    ensures MaximalRuns(Interleave(gaps, ps), keep) == ps
    decreases |ps|
  {
    if ps == [] {
      SkipGap(gaps[0], [], keep);
      assert gaps[0] + [] == gaps[0];
    } else {
      var tail := Interleave(gaps[1..], ps[1..]);
      InterleaveRuns(gaps[1..], ps[1..], keep);
      assert |ps| > 1 ==> tail == gaps[1] + ps[1] + Interleave(gaps[2..], ps[2..]);
      assert tail == [] || !keep(tail[0]);
      SkipGap(gaps[0], ps[0] + tail, keep);
      assert gaps[0] + ps[0] + tail == gaps[0] + (ps[0] + tail);
      TakeRun(ps[0], tail, keep);
    }
  }

  /**
   * Round trip: joining runs with a dropped character as separator and splitting again
   * gives back the runs.
   */
  lemma {:induction false} JoinRuns(ps: seq<string>, sep: char, keep: char -> bool)
    requires !keep(sep)
    requires forall i :: 0 <= i < |ps| ==> IsRun(ps[i], keep)
    ensures MaximalRuns(Join(ps, [sep]), keep) == ps
    decreases |ps|
  {
    if |ps| == 0 {
    } else if |ps| == 1 {
      TakeRun(ps[0], [], keep);
      assert ps[0] + [] == ps[0];
    } else {
      var tail := [sep] + Join(ps[1..], [sep]);
      JoinRuns(ps[1..], sep, keep);
      SkipGap([sep], Join(ps[1..], [sep]), keep);
      TakeRun(ps[0], tail, keep);
      assert ps[0] + [sep] + Join(ps[1..], [sep]) == ps[0] + tail;
    }
  }
}

=== FILE: target_processor.dfy ===
/**
 * `TargetDataSourceAnnotationProcessor`: for every data source a repository method is tagged
 * with, and every repository declaring such methods, a copy of that repository keeping those
 * methods, written to a sub-package of the repository's package named after the data source.
 */
module TargetProcessor {
  import opened Wrappers
  import opened JavaModel
  import opened Partitioning
  import opened RepositoryGenerator
  import Processing

  const GeneratedRepositoriesPackageSuffix := ".generated.repositories"

  /**
   * `generateNonPrimaryDataSourceRepositoryPackage`: the snake_case data source name as a
   * package below `generated.repositories` below the repository's own package.
   */
  function GenerateNonPrimaryDataSourceRepositoryPackage(elementPackage: string, dataSourceName: string): string
  {
    Processing.SubPackage(elementPackage + GeneratedRepositoriesPackageSuffix, dataSourceName)
  }

  /**
   * The copies of one repository for two data sources land in the same package exactly when
   * the data source names have the same snake_case form; that package lies one segment below
   * `<package>.generated.repositories`.
   */
  lemma RepositoryPackagesPerDataSource(elementPackage: string, name1: string, name2: string)
    ensures var p := GenerateNonPrimaryDataSourceRepositoryPackage(elementPackage, name1);
      var parent := elementPackage + GeneratedRepositoriesPackageSuffix;
      |p| > |parent| && p[..|parent| + 1] == parent + "." &&
      (forall i :: |parent| < i < |p| ==> p[i] != '.') &&
      (p == GenerateNonPrimaryDataSourceRepositoryPackage(elementPackage, name2) <==>
         CaseConversion.ToSnakeCase(name1) == CaseConversion.ToSnakeCase(name2))
  {
    Processing.SubPackagesSeparate(elementPackage + GeneratedRepositoriesPackageSuffix, name1, name2);
  }

  /** A repository that holds methods tagged with data source `t`: one file to generate. */
  predicate IsJob(groups: map<string, set<TaggedMethod>>, t: string, repository: TypeElement)
  {
    t in groups && repository in GroupByEnclosingType(groups[t])
  }

  /** `generateRepositories` for one data source and one repository. */
  function Generate(groups: map<string, set<TaggedMethod>>, t: string, repository: TypeElement,
                    sameType: SameType): Result<Processing.GeneratedFile, GeneratorError>
    requires IsJob(groups, t, repository)
  {
    match RepositoryFor(repository, GroupByEnclosingType(groups[t])[repository], t, sameType)
    case Ok(spec) =>
      Ok(Processing.GeneratedFile(GenerateNonPrimaryDataSourceRepositoryPackage(repository.className.packageName, t), spec))
    case Err(e) => Err(e)
  }

  /** Every file written so far is the file of some (data source, repository) pair. */
  ghost predicate Sound(groups: map<string, set<TaggedMethod>>, sameType: SameType, written: seq<Processing.GeneratedFile>)
  {
    forall f :: f in written ==>
      exists t, repository :: IsJob(groups, t, repository) && Generate(groups, t, repository, sameType) == Ok(f)
  }

  /** The pair, if it is one, generated successfully and its file is among those written. */
  ghost predicate Done(groups: map<string, set<TaggedMethod>>, sameType: SameType, written: seq<Processing.GeneratedFile>,
                       t: string, repository: TypeElement)
  {
    IsJob(groups, t, repository) ==>
      Generate(groups, t, repository, sameType).Ok? && Generate(groups, t, repository, sameType).value in written
  }

  lemma WriteOne(groups: map<string, set<TaggedMethod>>, sameType: SameType, written: seq<Processing.GeneratedFile>,
                 t: string, repository: TypeElement)
    requires IsJob(groups, t, repository) && Generate(groups, t, repository, sameType).Ok?
    requires Sound(groups, sameType, written)
    ensures var written' := written + [Generate(groups, t, repository, sameType).value];
      Sound(groups, sameType, written') && Done(groups, sameType, written', t, repository) &&
      forall t', r' :: Done(groups, sameType, written, t', r') ==> Done(groups, sameType, written', t', r')
  {
  }

  /**
   * `process`: nothing is generated when no method is tagged. Otherwise the data sources and
   * their repositories are visited in hash order (left open here) and each repository's copy
   * is written; the first generator failure aborts the round. On success exactly the files of
   * all (data source, repository) pairs were written; a failure is the failure of one of them.
   */
  method Process(methods: set<TaggedMethod>, sameType: SameType)
    returns (r: Result<seq<Processing.GeneratedFile>, GeneratorError>)
    ensures Groups(methods) == map[] ==> r == Ok([])
    ensures r.Ok? ==> forall t, repository :: Done(Groups(methods), sameType, r.value, t, repository)
    ensures r.Ok? ==> Sound(Groups(methods), sameType, r.value)
    ensures r.Err? ==>
      exists t, repository :: IsJob(Groups(methods), t, repository) &&
        Generate(Groups(methods), t, repository, sameType) == Err(r.error)
  {
    var groups := CreateDataSourceToTargetRepositoryMethodMap(methods);
    if groups == map[] {
      return Ok([]);
    }
    var written: seq<Processing.GeneratedFile> := [];
    var dataSources := groups.Keys;
    while dataSources != {}
      invariant dataSources <= groups.Keys
      invariant Sound(groups, sameType, written)
      invariant forall t, repository :: t !in dataSources ==> Done(groups, sameType, written, t, repository)
      decreases dataSources
    {
      var dataSourceName :| dataSourceName in dataSources;
      var repositoryToMethodMap := GroupByEnclosingType(groups[dataSourceName]);
      var repositories := repositoryToMethodMap.Keys;
      while repositories != {}
        invariant repositories <= repositoryToMethodMap.Keys
        invariant Sound(groups, sameType, written)
        invariant forall t, repository :: t !in dataSources ==> Done(groups, sameType, written, t, repository)
        invariant forall repository :: repository !in repositories ==>
                    Done(groups, sameType, written, dataSourceName, repository)
        decreases repositories
      {
        var typeElement :| typeElement in repositories;
        assert IsJob(groups, dataSourceName, typeElement);
        var copiedTypeSpec := GenerateRepositoryTypeElementWithAnnotatedMethods(
          typeElement, repositoryToMethodMap[typeElement], dataSourceName, sameType);
        if copiedTypeSpec.Err? {
          return Err(copiedTypeSpec.error);
        }
        var repositoryDataSourceSubPackage :=
          GenerateNonPrimaryDataSourceRepositoryPackage(typeElement.className.packageName, dataSourceName);
        WriteOne(groups, sameType, written, dataSourceName, typeElement);
        written := written + [Processing.GeneratedFile(repositoryDataSourceSubPackage, copiedTypeSpec.value)];
        repositories := repositories - {typeElement};
      }
      dataSources := dataSources - {dataSourceName};
    }
    return Ok(written);
  }
}

=== FILE: text.dfy ===
/**
 * Character classes and string helpers shared by both lineages of the string utilities.
 * Case mapping is ASCII only: `toUpperCase`/`toLowerCase` change exactly the letters
 * 'a'..'z' / 'A'..'Z' here.
 */
module Text {

  predicate IsUpper(c: char) { 'A' <= c <= 'Z' }
  predicate IsLower(c: char) { 'a' <= c <= 'z' }
  predicate IsDigit(c: char) { '0' <= c <= '9' }

  /** The characters of the class `[a-zA-Z0-9]`. */
  predicate IsAlphaNumeric(c: char) { IsUpper(c) || IsLower(c) || IsDigit(c) }

  /** The characters NOT matched by `[A-Z]`. */
  predicate IsNotUpper(c: char) { !IsUpper(c) }

  function UpperChar(c: char): (r: char)
    ensures IsLower(c) ==> IsUpper(r) && r as int == c as int - 32
    ensures !IsLower(c) ==> r == c
  {
    if IsLower(c) then (c as int - 32) as char else c
  }

  function LowerChar(c: char): (r: char)
    ensures IsUpper(c) ==> IsLower(r) && r as int == c as int + 32
    ensures !IsUpper(c) ==> r == c
  {
    if IsUpper(c) then (c as int + 32) as char else c
  }

  /** Lower-casing ignores whether a character was upper-cased first. */
  lemma LowerOfUpper(c: char)
    ensures LowerChar(UpperChar(c)) == LowerChar(c)
  {
  }

  /** `String.toLowerCase`. */
  function Lower(s: string): (r: string)
    ensures |r| == |s|
    ensures forall i :: 0 <= i < |s| ==> r[i] == LowerChar(s[i])
  {
    seq(|s|, i requires 0 <= i < |s| => LowerChar(s[i]))
  }

  /** `word.substring(0, 1).toUpperCase() + word.substring(1)`, for a non-empty word. */
  function Capitalize(w: string): (r: string)
    requires w != []
    ensures |r| == |w| && r[0] == UpperChar(w[0]) && r[1..] == w[1..]
  {
    [UpperChar(w[0])] + w[1..]
  }

  /** The concatenation of all pieces, in order. */
  function Concat(ps: seq<string>): string
  {
    if ps == [] then [] else ps[0] + Concat(ps[1..])
  }

  /** `String.join(sep, ps)`: the pieces with `sep` between consecutive ones. */
  function Join(ps: seq<string>, sep: string): string
  {
    if |ps| == 0 then []
    else if |ps| == 1 then ps[0]
    else ps[0] + sep + Join(ps[1..], sep)
  }

  /** The characters of `s` satisfying `keep`, in order. */
  function Filter(s: string, keep: char -> bool): (r: string)
    ensures |r| <= |s|
    ensures forall c :: c in r <==> c in s && keep(c)
  {
    if s == [] then []
    else (if keep(s[0]) then [s[0]] else []) + Filter(s[1..], keep)
  }

  /** `String.replace(from, to)` for single characters. */
  function Replace(s: string, from: char, to: char): (r: string)
    ensures |r| == |s|
    ensures forall i :: 0 <= i < |s| ==> r[i] == (if s[i] == from then to else s[i])
  {
    seq(|s|, i requires 0 <= i < |s| => if s[i] == from then to else s[i])
  }

  function Repeat(x: string, n: nat): (r: seq<string>)
    ensures |r| == n && forall i :: 0 <= i < n ==> r[i] == x
  {
    if n == 0 then [] else [x] + Repeat(x, n - 1)
  }

  /** Applies `f` to every piece. */
  function MapStrings(f: string -> string, ps: seq<string>): (r: seq<string>)
    ensures |r| == |ps| && forall i :: 0 <= i < |ps| ==> r[i] == f(ps[i])
  {
    seq(|ps|, i requires 0 <= i < |ps| => f(ps[i]))
  }

  lemma {:induction false} ConcatAppend(ps: seq<string>, qs: seq<string>)
    ensures Concat(ps + qs) == Concat(ps) + Concat(qs)
    decreases |ps|
  {
    if ps == [] {
      assert ps + qs == qs;
    } else {
      assert (ps + qs)[1..] == ps[1..] + qs;
      ConcatAppend(ps[1..], qs);
    }
  }

  /** Appending one piece to a non-empty list adds a separator and that piece. */
  lemma {:induction false} JoinSnoc(ps: seq<string>, p: string, sep: string)
    requires ps != []
    ensures Join(ps + [p], sep) == Join(ps, sep) + sep + p
    decreases |ps|
  {
    if |ps| == 1 {
      assert ps + [p] == [ps[0], p];
      assert [ps[0], p][1..] == [p];
    } else {
      assert (ps + [p])[1..] == ps[1..] + [p];
      JoinSnoc(ps[1..], p, sep);
    }
  }

  /** Lower-casing distributes over concatenation. */
  lemma LowerAppend(a: string, b: string)
    ensures Lower(a + b) == Lower(a) + Lower(b)
  {
  }

  lemma FilterAppend(a: string, b: string, keep: char -> bool)
    ensures Filter(a + b, keep) == Filter(a, keep) + Filter(b, keep)
    decreases |a|
  {
    if a == [] {
      assert a + b == b;
    } else {
      assert (a + b)[1..] == a[1..] + b;
      FilterAppend(a[1..], b, keep);
    }
  }

  /** A string all of whose characters are kept filters to itself. */
  lemma FilterAllKept(s: string, keep: char -> bool)
    requires forall i :: 0 <= i < |s| ==> keep(s[i])
    ensures Filter(s, keep) == s
    decreases |s|
  {
    if s != [] {
      FilterAllKept(s[1..], keep);
    }
  }

  /** A string none of whose characters is kept filters to the empty string. */
  lemma FilterNoneKept(s: string, keep: char -> bool)
    requires forall i :: 0 <= i < |s| ==> !keep(s[i])
    ensures Filter(s, keep) == []
    decreases |s|
  {
    if s != [] {
      FilterNoneKept(s[1..], keep);
    }
  }

  /** Nothing survives the filter exactly when no character is kept. */
  lemma {:induction false} FilterEmptyIff(s: string, keep: char -> bool)
    ensures Filter(s, keep) == [] <==> forall i :: 0 <= i < |s| ==> !keep(s[i])
    decreases |s|
  {
    if s != [] {
      FilterEmptyIff(s[1..], keep);
      assert forall i :: 1 <= i < |s| ==> s[i] == s[1..][i - 1];
    }
  }

  /**
   * Replacing the separator character inside a join whose pieces do not contain it gives
   * the join with the replacement as separator.
   */
  lemma {:induction false} ReplaceJoin(ps: seq<string>, from: char, to: char)
    requires forall i :: 0 <= i < |ps| ==> from !in ps[i]
    ensures Replace(Join(ps, [from]), from, to) == Join(ps, [to])
    decreases |ps|
  {
    if |ps| == 0 {
    } else if |ps| == 1 {
      assert Replace(ps[0], from, to) == ps[0];
    } else {
      ReplaceJoin(ps[1..], from, to);
      ReplaceAppend(ps[0] + [from], Join(ps[1..], [from]), from, to);
      ReplaceAppend(ps[0], [from], from, to);
      assert Replace(ps[0], from, to) == ps[0];
    }
  }

  lemma ReplaceAppend(a: string, b: string, from: char, to: char)
    ensures Replace(a + b, from, to) == Replace(a, from, to) + Replace(b, from, to)
  {
  }
}

=== FILE: wrappers.dfy ===
/** Option and Result values, used wherever the Java code returns null or throws. */
module Wrappers {

  datatype Option<+T> = None | Some(value: T)

  /** `Err` stands for an exception thrown by the Java code; `Ok` for a normal return. */
  datatype Result<+T, +E> = Ok(value: T) | Err(error: E)
}
